=== FILE: README.md ===
# icesat2-water-level core, modelled in Dafny

This project models the discrete core of the icesat2-water-level pipeline. The pipeline turns a surface-water occurrence raster and ICESat-2 land-segment granules into one record per water body, with a robust height time series for each. Six pieces of the pipeline are modelled:

- **`MaskMetadata`** (`mask_metadata.dfy`) is the tile-filename parser `get_mask_metadata_func_nov20`.
  - It finds the `0E_`/`0W_` longitude match with position-sensitive digit extraction.
  - It searches the suffix for the `Nv`/`Sv` latitude.
  - It zero-pads `lonstr` and `latstr`.
  - A round-trip lemma shows that a canonical tile name parses back to its parts.
- **`MeritHeights`** (`merit_heights.dfy`) is `get_merit_heights_nov20`.
  - It resolves the metadata fields, forcing `lat == 0` to the south.
  - It buckets longitude and latitude into the `elv_<lat><lon>` folder.
  - It formats the four neighbour tile names.
  - It stands in a `-9999` fill for a missing tile and builds the 2x2 mosaic.
  - It computes the per-region inter-decile statistics, one record per labelled region.
- **`InPoly`** (`inpoly.dfy`) is `inpoly2` and `inpoly2_core`.
  - `inpoly2`:
    - validates its inputs;
    - builds the default edge list;
    - rejects points outside the widened node box;
    - swaps the axes;
    - sorts the points by y;
    - runs the core;
    - un-sorts the results.
  - The imperative core, `InPolyCore`, normalises each edge and starts each edge's pass at the `bisect_left` index. It applies the parity and boundary rules and is proved equal to a per-point reference fold, `Classify`.
- **`MaskLabeler`** (`label_mask.dfy`) covers the discrete steps of `label_mask_and_identify_goodd`:
  - the diamond structuring element and occurrence thresholding;
  - the hand edits, the dam-cell filter and the region filters;
  - boundary sampling and the 0/1 clamp with the 90% coastline vote;
  - label retention, the storage-width choice and the pixel-area conversion.
- **`WaterData`** (`water_data.dfy`) is `get_IS2_water_data_nov20`.
  - It covers the granule overlap test and `geographic_to_discrete`.
  - It covers `calendar_to_doy` in the proleptic Gregorian calendar.
  - It groups footprints by label, skipping the smallest label present.
  - It applies the more-than-two-footprints rule and the inter-decile trim.
  - It numbers entries sequentially.
- **`Organize`** (`organize.dfy`) is `organize_IS2_data` and `geoidheight_batch`.
  - It groups entries by body label and applies the quality gate and flag.
  - It applies the 3-sigma filter and picks the medoid representative.
  - It shifts longitudes, applies the zero geoid stub and attaches the MERIT record.

Three shared modules support them:

- `Base` holds `Option`, `Result`, NaN-aware `Float`, boolean-mask selection and `Map`.
- `Sorting` holds insertion sort by key, and `np.unique`.
- `Stats` holds numpy's `percentile` ('linear'), `median`, `mean`, `min`, `max`, `argmin`, the population variance and Samuelson's inequality.

Library routines the source calls are parameters of the model and nothing is assumed about them. These are:

- the square root (`np.std`, `pdist`);
- connected-component labelling, `regionprops` and morphology;
- `resize`;
- shapely `contains`;
- raster reads and `os.path.exists`.

A Python exception becomes the `Err` branch of a `Result`.

## Model

| member | source | states |
|---|---|---|
| MaskMetadata.Find | module/fc_get_mask_metadata_func_nov20.py:6 | `str.find`: -1 or the first index where the pattern occurs, with no occurrence before it |
| MaskMetadata.ParseInt | module/fc_get_mask_metadata_func_nov20.py:10 | `int(text)` succeeds exactly on a non-empty run of ASCII digits and yields its decimal value; anything else is the ValueError |
| MaskMetadata.DigitsValueBounds | module/fc_get_mask_metadata_func_nov20.py:9-17 | a k-digit string is below 10^k, and a multiple of ten when it ends in '0' |
| MaskMetadata.LonText | module/fc_get_mask_metadata_func_nov20.py:9-17 | a match at 11, 12 or 13 selects the 1-, 2- or 3-digit text from position 11 up to and including the match; any other position selects nothing |
| MaskMetadata.ZeroPadShape | module/fc_get_mask_metadata_func_nov20.py:11-17 | padding keeps the text at the end and puts only '0' before it, up to the width |
| MaskMetadata.ZeroPadValue | module/fc_get_mask_metadata_func_nov20.py:11-17 | zero-padding keeps the string all digits and does not change its value |
| MaskMetadata.WithLongitude | module/fc_get_mask_metadata_func_nov20.py:7-17 | sets `ew`; sets `lon`/`lonstr` exactly when the match is at 11-13, `lonstr` being the digits padded to 3; touches no other field |
| MaskMetadata.WithLatitude | module/fc_get_mask_metadata_func_nov20.py:38-56 | no match leaves the record unchanged; a match sets `ns`, and at offset 4 or 5 also `lat` and the 2-character `latstr`; touches no other field |
| MaskMetadata.ParseTileName | module/fc_get_mask_metadata_func_nov20.py:1-58 | `ew` is 'E' iff `0E_` occurs, 'W' iff only `0W_` does; with neither, the record holds only the name |
| MaskMetadata.ParsedLongitude | module/fc_get_mask_metadata_func_nov20.py:9-17 | a longitude is present exactly when the match is at 11-13, and it is the digits ending at the match, padded to three characters |
| MaskMetadata.ParsedLatitude | module/fc_get_mask_metadata_func_nov20.py:36-56 | the latitude comes from the suffix starting at the match; `Sv` is checked after `Nv` and overrides it |
| MaskMetadata.ParsedLongitudeRange | module/fc_get_mask_metadata_func_nov20.py:6-17 | a parsed longitude is a multiple of ten below 1000 |
| MaskMetadata.WestHasNoEast | module/fc_get_mask_metadata_func_nov20.py:19-22 | a canonical western name contains no `0E_`, so the western branch is reached |
| MaskMetadata.TileNameMatch | module/fc_get_mask_metadata_func_nov20.py:6-20 | in a canonical name, the longitude match sits at the last longitude digit |
| MaskMetadata.SuffixLatitudeMatch | module/fc_get_mask_metadata_func_nov20.py:37-48 | in the suffix from the match, the hemisphere letter sits just after the latitude digits, and the other letter's pattern is absent |
| MaskMetadata.ParseFromMatches | module/fc_get_mask_metadata_func_nov20.py:1-58 | the full parse result, given where the patterns occur and which digits they enclose |
| MaskMetadata.TileNameRoundTrip | module/fc_get_mask_metadata_func_nov20.py:1-58 | a canonical name built from a prefix, longitude digits, letter, latitude digits and hemisphere parses back to exactly those values and padded strings |
| MeritHeights.Resolve | module/fc_get_merit_heights_nov20.py:16-20 | reads `lon`, `lat` and `ew` (each a possible KeyError, in source order); `lat == 0` forces 'S', otherwise `ns` is required (the write into the caller's dict is part of `GetMeritHeights`'s result) |
| MeritHeights.FolderLonDegrees | module/fc_get_merit_heights_nov20.py:22-48 | the folder longitude is a multiple of 30, in 30..180 for 'W' and 0..150 otherwise |
| MeritHeights.FolderLonReference | module/fc_get_merit_heights_nov20.py:22-48 | the comparison chain equals the clamped 30-degree band: inclusive upper bounds in the west, exclusive in the east |
| MeritHeights.FolderLonMonotone | module/fc_get_merit_heights_nov20.py:22-48 | the folder longitude never decreases as the longitude grows |
| MeritHeights.FolderLatDegrees | module/fc_get_merit_heights_nov20.py:50-62 | the folder latitude is a multiple of 30: 0..60 in the north, 30 or 60 in the south |
| MeritHeights.FolderLatReference | module/fc_get_merit_heights_nov20.py:50-62 | n60 above 60, n30 above 30, else n00; s30 below 30, else s60, written as a clamped band |
| MeritHeights.FolderLatMonotone | module/fc_get_merit_heights_nov20.py:50-62 | the folder latitude never decreases as the latitude grows |
| MeritHeights.DigitsRoundTrip | module/fc_get_merit_heights_nov20.py:69-70 | `str(n)` reads back as n, and only 0 starts with '0' |
| MeritHeights.FormatInt | module/fc_get_merit_heights_nov20.py:69-70 | `f"{n:0wd}"` is at least w characters, all digits for n >= 0, and a '-' followed by digits for n < 0 |
| MeritHeights.FormatIntValue | module/fc_get_merit_heights_nov20.py:69-70 | the formatted digits read back as |n| |
| MeritHeights.TileFileNameFields | module/fc_get_merit_heights_nov20.py:68-71 | for a 2-digit latitude and 3-digit longitude the name is 15 characters: letter, latitude, letter, longitude, `_elv.tif`, each field reading back as its number |
| MeritHeights.NegativeLongitudeName | module/fc_get_merit_heights_nov20.py:69-99 | longitude 0 with offset -5 is written `-05` inside the 3-character field |
| MeritHeights.FolderNameFields | module/fc_get_merit_heights_nov20.py:65 | the folder is `elv_` + hemisphere letter + 2-digit band + east/west letter + 3-digit band, the fields reading back as the two bands |
| MeritHeights.NeighbourFileFields | module/fc_get_merit_heights_nov20.py:73-88 | the offsets are added to the raw degrees in every hemisphere, and the name's fields read back as the shifted degrees |
| MeritHeights.MissingTile | module/fc_get_merit_heights_nov20.py:94 | the stand-in for a missing tile is 6000x6000, every cell -9999 |
| MeritHeights.HConcat | module/fc_get_merit_heights_nov20.py:105-106 | side-by-side concatenation succeeds iff the row counts agree; the widths add |
| MeritHeights.VConcat | module/fc_get_merit_heights_nov20.py:107 | stacking succeeds iff the column counts agree; the heights add |
| MeritHeights.Mosaic | module/fc_get_merit_heights_nov20.py:105-107 | the mosaic exists exactly when both row pairs agree in height and the two rows agree in width |
| MeritHeights.MosaicQuadrants | module/fc_get_merit_heights_nov20.py:105-107 | four equal tiles elev1..elev4 give a mosaic twice as tall and wide: elev4 top left, elev3 top right, elev2 bottom left, elev1 bottom right |
| MeritHeights.RequestMosaicQuadrants | module/fc_get_merit_heights_nov20.py:99-107 | with four equally sized tiles the request succeeds and the tile at (0,+5) is top left, (-5,+5) top right, (0,+10) bottom left, (-5,+10) bottom right |
| MeritHeights.RequestMosaic | module/fc_get_merit_heights_nov20.py:90-107 | with no neighbour file present the mosaic is 12000x12000 and every cell is -9999 |
| MeritHeights.FillMosaic | module/fc_get_merit_heights_nov20.py:93-107 | four missing tiles make a 12000x12000 mosaic whose every cell is the fill value |
| MeritHeights.ElevStats | module/fc_get_merit_heights_nov20.py:117-134 | an empty region raises; a region with a NaN gets the NaN record; height, std and mean are NaN together |
| MeritHeights.ElevStatsWithinDeciles | module/fc_get_merit_heights_nov20.py:118-134 | a finite height or mean comes from a NaN-free region and lies within [p10, p90] of its pixels |
| MeritHeights.ElevStatsDefined | module/fc_get_merit_heights_nov20.py:118-134 | a NaN-free region of one pixel or at least three has finite statistics |
| MeritHeights.ElevStatsTwoDistinct | module/fc_get_merit_heights_nov20.py:118-128 | two distinct pixel values both fall outside [p10, p90], giving the NaN record |
| MeritHeights.ElevStatsConstant | module/fc_get_merit_heights_nov20.py:94-134 | a region lying wholly on missing tiles reports -9999 as its height and mean |
| MeritHeights.RegionStatsOk | module/fc_get_merit_heights_nov20.py:113-134 | the lookup succeeds exactly when every labelled region is non-empty |
| MeritHeights.RegionStatsAt | module/fc_get_merit_heights_nov20.py:113-134 | one record per region, in region order: the i-th record is the statistics of the i-th region |
| MeritHeights.CollectOk | module/fc_get_merit_heights_nov20.py:116-134 | the loop succeeds iff every step does, and otherwise reports the first failure |
| MeritHeights.GetMeritHeights | module/fc_get_merit_heights_nov20.py:9-136 | a metadata error propagates; on success the folder is the bucketed folder, there is one record per region of the resized mosaic, and the caller's metadata comes back with `ns` set to the hemisphere the lookup used ('S' for latitude 0) and nothing else changed |
| MeritHeights.GetMeritHeightsOk | module/fc_get_merit_heights_nov20.py:16-136 | the lookup succeeds exactly when the metadata resolves, the mosaic is built and every labelled region of the resized mosaic has a pixel |
| MeritHeights.GetMeritHeightsRecords | module/fc_get_merit_heights_nov20.py:110-134 | record i is the trimmed statistics of region i of the resized mosaic |
| InPoly.DefaultEdges | module/inpoly.py:25-27 | an M x 2 array joining node i to node (i+1) mod M |
| InPoly.Validate | module/inpoly.py:32-37 | no error exactly when all three are arrays, all N x 2, and every edge index is within 0..M-1, with the errors in the source's order |
| InPoly.EdgeStep | module/inpoly.py:127-158 | a boundary point is never changed; boundary implies inside; parity flips only when y1 <= y < y2; points outside the widened y-range are untouched |
| InPoly.HorizontalEdgeNoToggle | module/inpoly.py:138-158 | a horizontal edge never flips parity |
| InPoly.Oriented | module/inpoly.py:100-102 | each normalised edge is the original edge or its reverse, with y(first) <= y(second) |
| InPoly.Classify | module/inpoly.py:107-160 | per-point reference result: boundary implies inside |
| InPoly.BoundaryIsFinal | module/inpoly.py:128-129 | once a point is on the boundary, later edges leave its result unchanged |
| InPoly.BisectLeft | module/inpoly.py:124 | `bisect_left`: every value before the index is below x, every value from it on is at least x |
| InPoly.VisitPoint | module/inpoly.py:131-158 | the per-point work of the inner loop equals the reference edge step |
| InPoly.EdgePass | module/inpoly.py:108-158 | visiting only points from the bisect index up to the first y above ymax applies the edge step to every point |
| InPoly.InPolyCore | module/inpoly.py:86-160 | on points sorted by y, every point's (stat, bnds) equals the reference fold over the edges |
| InPoly.BoxMask | module/inpoly.py:45-53 | a point is kept exactly when it lies in the node box widened by veps |
| InPoly.ArgSortY | module/inpoly.py:67 | a permutation of 0..N-1 that orders the points by y |
| InPoly.Unsort | module/inpoly.py:74-77 | `out[perm] = vals`: an untouched index is False, and a written index holds the value of a position that maps to it |
| InPoly.ScatterSelect | module/inpoly.py:80-81 | scattering the results of the selected points puts each result back at its point's position |
| InPoly.ClassifyBoxed | module/inpoly.py:59-77 | sort, core and un-sort give each boxed point its own reference result, in the caller's order |
| InPoly.Expected | module/inpoly.py:40-57 | a point outside the widened box is (False, False); boundary implies inside |
| InPoly.ScatterExpected | module/inpoly.py:79-81 | after `STAT[mask] = ...` every input point holds its expected result |
| InPoly.InPoly2 | module/inpoly.py:5-83 | an error exactly when validation fails, with that error; otherwise N results, each point's the reference classification in the caller's order |
| MaskLabeler.StrelDisk4 | module/fc_label_mask_and_identify_goodd_nov20.py:14-24 | a (2r+1) x (2r+1) raster, 1 exactly where abs(i-r) + abs(j-r) <= r |
| MaskLabeler.DiamondShape | module/fc_label_mask_and_identify_goodd_nov20.py:14-24 | the diamond is symmetric under transposition and both reflections, contains its centre and axis tips, and misses the corners |
| MaskLabeler.ThresholdPixel | module/fc_label_mask_and_identify_goodd_nov20.py:29-31 | every pixel becomes 0 or 1, and 1 exactly when v >= 75 and v != 255 |
| MaskLabeler.ZeroBlocksEffect | module/fc_label_mask_and_identify_goodd_nov20.py:33-36 | after the edits a pixel is 0 inside any block and unchanged elsewhere |
| MaskLabeler.OccurrenceMaskPixels | module/fc_label_mask_and_identify_goodd_nov20.py:29-36 | the water mask is 0/1, and a pixel is water exactly when its occurrence passes and no edit clears it |
| MaskLabeler.DamCells | module/fc_label_mask_and_identify_goodd_nov20.py:43-45 | each projected dam position floors to the cell containing it |
| MaskLabeler.ValidCells | module/fc_label_mask_and_identify_goodd_nov20.py:47-48 | a dam cell is kept exactly when 0 <= col < width and 0 <= row < height |
| MaskLabeler.DamRaster | module/fc_label_mask_and_identify_goodd_nov20.py:50-51 | an h x w raster that is 1 exactly at the dam cells |
| MaskLabeler.DamRegions | module/fc_label_mask_and_identify_goodd_nov20.py:58-59 | a label is listed exactly when some region with that label has maximum intensity 1 |
| MaskLabeler.InLabels | module/fc_label_mask_and_identify_goodd_nov20.py:60-69 | `np.isin`: a pixel is 1 exactly when its label is listed |
| MaskLabeler.SizeFilter | module/fc_label_mask_and_identify_goodd_nov20.py:67-68 | a label is kept exactly when some region with it has extent > 0.05 and area > 20 |
| MaskLabeler.SampleStride | module/fc_label_mask_and_identify_goodd_nov20.py:80-83 | the stride is 6 exactly when the region has more than 5000 pixels, else 3 |
| MaskLabeler.EveryNth | module/fc_label_mask_and_identify_goodd_nov20.py:81-83 | `xs[::s]`: element k is xs[k*s], and the sample is the length of xs divided by s, rounded up, long |
| MaskLabeler.SampleNonEmpty | module/fc_label_mask_and_identify_goodd_nov20.py:79-83 | a non-empty region gives a non-empty sample that starts with its first pixel |
| MaskLabeler.Hits | module/fc_label_mask_and_identify_goodd_nov20.py:105-113 | the hit count is at most the number of candidates, and positive exactly when some non-empty candidate contains the point |
| MaskLabeler.Clamp01 | module/fc_label_mask_and_identify_goodd_nov20.py:116 | the clamp is 0 or 1, and 1 exactly when the count is positive |
| MaskLabeler.Basins | module/fc_label_mask_and_identify_goodd_nov20.py:100-116 | one 0/1 coverage flag per sampled point, 1 exactly when some non-empty candidate contains it |
| MaskLabeler.CoastVote | module/fc_label_mask_and_identify_goodd_nov20.py:94-122 | a region is kept exactly when it has candidate polygons and at least 90% of its sampled pixels (10 × covered >= 9 × samples) lie in a non-empty candidate |
| MaskLabeler.BasinsCount | module/fc_label_mask_and_identify_goodd_nov20.py:103-119 | the sum of the clamped `basins` equals the number of sampled points some non-empty candidate contains |
| MaskLabeler.CoastVoteCovered | module/fc_label_mask_and_identify_goodd_nov20.py:113-122 | a region whose every sampled pixel is covered is kept |
| MaskLabeler.CoastVoteUncovered | module/fc_label_mask_and_identify_goodd_nov20.py:113-122 | a non-empty sample with no covered pixel is not kept |
| MaskLabeler.VotedLabels | module/fc_label_mask_and_identify_goodd_nov20.py:124 | label l is listed exactly when region l-1 of the fresh labelling was voted in |
| MaskLabeler.RetainLabels | module/fc_label_mask_and_identify_goodd_nov20.py:126-127 | a pixel keeps its label when the label is listed, else becomes 0 |
| MaskLabeler.ApplyErosion | module/fc_label_mask_and_identify_goodd_nov20.py:130-131 | a pixel keeps its label where the erosion holds, else becomes 0 |
| MaskLabeler.KeptPixelsKeepLabel | module/fc_label_mask_and_identify_goodd_nov20.py:124-131 | after both steps a pixel holds its original label if voted in and not eroded, and 0 otherwise |
| MaskLabeler.StorageBits | module/fc_label_mask_and_identify_goodd_nov20.py:134-140 | uint8, uint16 or uint32, chosen as the narrowest that holds the largest label (below 2^32) |
| MaskLabeler.RegionAttributes | module/fc_label_mask_and_identify_goodd_nov20.py:143-151 | one positional attribute record per listed region, carrying its label, area, extent and dam flag |
| WaterData.DayOfYear | module/fc_get_IS2_water_data_nov20.py:9-10 | defined exactly on calendar dates, and then within 1..365, or 1..366 in a Gregorian leap year |
| WaterData.YearEnds | module/fc_get_IS2_water_data_nov20.py:9-10 | January 1 is day 1 and December 31 is the year's last day |
| WaterData.DayOfYearOnto | module/fc_get_IS2_water_data_nov20.py:9-10 | every day number of the year is the day of some valid date |
| WaterData.DayOfYearInjective | module/fc_get_IS2_water_data_nov20.py:9-10 | a date is recovered from its day number, so distinct dates have distinct numbers |
| WaterData.DaysBeforeGrows | module/fc_get_IS2_water_data_nov20.py:9-10 | later months start later |
| WaterData.OverlapsMeansShared | module/fc_get_IS2_water_data_nov20.py:23-24 | the four strict comparisons hold exactly when the granule box and the raster limits share a point |
| WaterData.InRasterMask | module/fc_get_IS2_water_data_nov20.py:104 | `valid` is true exactly for footprints whose cell lies in the raster |
| WaterData.GeographicToDiscrete | module/fc_get_IS2_water_data_nov20.py:100-107 | returns `rows[valid]` and `cols[valid]`: the rows and columns of exactly the in-raster footprints, in order, with the `valid` mask that chose them |
| WaterData.Inside | module/fc_get_IS2_water_data_nov20.py:43-47 | the footprints kept are exactly those in the raster |
| WaterData.ChannelProcessedIff | module/fc_get_IS2_water_data_nov20.py:38-39 | since integer rows are never NaN, a channel is processed exactly when some footprint lands in the raster |
| WaterData.BodyEntry | module/fc_get_IS2_water_data_nov20.py:61-93 | an entry for more than two footprints: the raw arrays are all of them, and 1 <= num_points <= raw_num_points |
| WaterData.BodyEntryWithinDeciles | module/fc_get_IS2_water_data_nov20.py:62-83 | the entry's height lies within [p10, p90] of the body's footprint heights |
| WaterData.BodyEntryKept | module/fc_get_IS2_water_data_nov20.py:66-87 | height, count and centre are computed over the same kept footprints |
| WaterData.GroupsAscending | module/fc_get_IS2_water_data_nov20.py:56-61 | ascending bodies give groups in ascending body order |
| WaterData.GroupsComplete | module/fc_get_IS2_water_data_nov20.py:59-61 | every listed body with more than two footprints gets a group |
| WaterData.EntriesDescribeGroups | module/fc_get_IS2_water_data_nov20.py:74-96 | the k-th entry has id count+k and describes the k-th group |
| WaterData.EntriesWellFormed | module/fc_get_IS2_water_data_nov20.py:56-96 | every entry is well formed and for a listed body, in ascending body order |
| WaterData.ChannelEntriesProperties | module/fc_get_IS2_water_data_nov20.py:56-96 | a channel's entries are well formed and ascending, and none is for the smallest label present |
| WaterData.ChannelEntriesComplete | module/fc_get_IS2_water_data_nov20.py:56-61 | every label except the smallest present gets an entry exactly when more than two in-raster footprints carry it; the entry holds all of them |
| WaterData.ChannelRun | module/fc_get_IS2_water_data_nov20.py:38-96 | the counter advances by the number of entries and ids are sequential; a processed channel fails exactly when a terrain dataset is missing (KeyError for the first one in reading order) or the date is off the calendar, the terrain error taking precedence |
| WaterData.FirstAbsent | module/fc_get_IS2_water_data_nov20.py:40-42 | the first of `h_te_mean`, `terrain_flg`, `h_te_uncertainty` the channel lacks, or none when all are present |
| WaterData.ChannelStep | module/fc_get_IS2_water_data_nov20.py:30-36 | a channel missing its coordinates is skipped with the counter unchanged |
| WaterData.OverlappingNames | module/fc_get_IS2_water_data_nov20.py:22-27 | a file name is listed exactly when some overlapping granule has it |
| WaterData.GetWaterData | module/fc_get_IS2_water_data_nov20.py:13-97 | entry ids are 1, 2, 3, ... in order; the returned count is the number of entries; every entry is well formed and from an overlapping granule |
| Organize.LookupByLabel | module/fc_organize_IS2_data_nov20.py:15-17 | finds a record exactly when the label is listed, and the record found carries that label |
| Organize.PositionalLookupOffByOne | module/fc_organize_IS2_data_nov20.py:15-17 | with labels 1..n, the positional lookup of label l reads label l+1's record, while the label lookup reads l's |
| Organize.PositionalLookupCounterexample | module/fc_organize_IS2_data_nov20.py:15-90 | two regions labelled 1 and 2: body 1 gets body 2's area, and body 2 is past the end |
| Organize.Passing | module/fc_organize_IS2_data_nov20.py:23-25 | the entries kept are exactly the body's entries that pass the gate |
| Organize.FlagIff | module/fc_organize_IS2_data_nov20.py:18-26 | the flag is 0 or 1, and 1 exactly when some entry for the body passes std < 0.25, num_points >= 3 and -15 < height < 8000 |
| Organize.MedoidMinimisesTotal | module/fc_organize_IS2_data_nov20.py:31-33 | the argmin of the mean distances has the least total distance, and is the first such point |
| Organize.ObsOf | module/fc_organize_IS2_data_nov20.py:27-39 | one passing entry's height, std and date, with a point that is one of its raw footprints |
| Organize.ThreeSigmaMask | module/fc_organize_IS2_data_nov20.py:50-51 | a height is kept exactly when (h - mean)^2 <= 9 * population variance |
| Organize.ThreeSigmaBand | module/fc_organize_IS2_data_nov20.py:51 | with sd the standard deviation, the squared test is the two-sided mean - 3sd <= h <= mean + 3sd |
| Organize.ThreeSigmaKeepsOne | module/fc_organize_IS2_data_nov20.py:50-51 | the 3-sigma filter never empties its input |
| Organize.SmallSeriesKeepsAll | module/fc_organize_IS2_data_nov20.py:50-51 | with at most ten heights nothing is removed (Samuelson's inequality) |
| Organize.FiveHeightsKeepOutlier | module/fc_organize_IS2_data_nov20.py:50-54 | of [10.0, 10.2, 9.8, 10.1, 50.0] the outlier 50.0 is kept |
| Organize.Survivors | module/fc_organize_IS2_data_nov20.py:50-73 | the survivors are non-empty, drawn from the observations, have the filtered heights, and are all of them when there are at most ten |
| Organize.Representative | module/fc_organize_IS2_data_nov20.py:58-67 | the representative point is one of the survivors' points, and the only one when a single observation survives |
| Organize.SummaryCounts | module/fc_organize_IS2_data_nov20.py:69-74 | heights, stds, doys, months and years all have length num_obs, with 1 <= num_obs <= the number of passes |
| Organize.SummaryHeights | module/fc_organize_IS2_data_nov20.py:53-55 | median and mean lie within [min, max] of the kept heights, the range is non-negative, and kept heights are observed ones |
| Organize.SummaryPoint | module/fc_organize_IS2_data_nov20.py:58-67 | the record's lon/lat is the point of one of the observations |
| Organize.RepresentativeIsFootprint | module/fc_organize_IS2_data_nov20.py:30-67 | the representative lon/lat is a raw footprint of one of the body's passing entries |
| Organize.Candidate | module/fc_organize_IS2_data_nov20.py:12-41 | an unlisted label fails; a passing entry without footprints fails; otherwise the body is pending exactly when its flag is 1 |
| Organize.CandidatesOkIff | module/fc_organize_IS2_data_nov20.py:11-41 | the loop over bodies succeeds exactly when every body's lookup does |
| Organize.CandidatesAscending | module/fc_organize_IS2_data_nov20.py:8-11 | ascending labels give pending bodies in ascending label order |
| Organize.CandidatesComplete | module/fc_organize_IS2_data_nov20.py:11-41 | every flagged body gets a pending entry |
| Organize.CandidatesReady | module/fc_organize_IS2_data_nov20.py:23-41 | every pending body is flagged, and its entries are exactly its passing entries |
| Organize.NormalizeLon | module/fc_organize_IS2_data_nov20.py:85 | the longitude is unchanged or shifted by 360, and lands in [0, 360) when it starts in [-360, 360) |
| Organize.NormalizeLonIdempotent | module/fc_organize_IS2_data_nov20.py:85 | shifting twice is shifting once, and a non-negative longitude is left alone |
| Organize.GeoidOffsets | module/fc_organize_IS2_data_nov20.py:98-104 | the stub returns one zero offset per point |
| Organize.AddOffset | module/fc_organize_IS2_data_nov20.py:91 | NaN stays NaN, and a number moves by exactly the offset |
| Organize.Attach | module/fc_organize_IS2_data_nov20.py:82-93 | succeeds exactly when every record's body has a MERIT record; each record gets that body's MERIT height (offset zero) and std |
| Organize.WaterIdsCover | module/fc_organize_IS2_data_nov20.py:8-9 | every entry's label is among the unique labels |
| Organize.WaterIdsFrom | module/fc_organize_IS2_data_nov20.py:8-9 | every unique label is some entry's label |
| Organize.OrganizeStages | module/fc_organize_IS2_data_nov20.py:5-95 | the result is the candidate loop's error, or one record per pending body when every pending body has a MERIT record |
| Organize.OrganizeErrors | module/fc_organize_IS2_data_nov20.py:15-90 | a run fails exactly when some entry's body has no attribute record, or some passing entry has no footprints or no MERIT record |
| Organize.OrganizeAscending | module/fc_organize_IS2_data_nov20.py:9-76 | records come in ascending label order, one per label |
| Organize.OrganizeFlaggedOnly | module/fc_organize_IS2_data_nov20.py:41-79 | only bodies with a passing entry appear in the output |
| Organize.OrganizeComplete | module/fc_organize_IS2_data_nov20.py:11-76 | every body with a passing entry appears in the output |
| Organize.OrganizeRecords | module/fc_organize_IS2_data_nov20.py:50-93 | each record describes its body's passing entries and carries the MERIT height unchanged, since the geoid offset is zero |
| Sorting.SortBy | module/fc_get_merit_heights_nov20.py:118-119 | the result is in key order and a permutation of the input |
| Sorting.InsertBySorted | module/fc_get_merit_heights_nov20.py:118-119 | inserting into a sorted sequence keeps it sorted |
| Sorting.Unique | module/fc_organize_IS2_data_nov20.py:9 | `np.unique`: strictly increasing, with exactly the input's values |
| Stats.Min | module/fc_organize_IS2_data_nov20.py:55 | an element no larger than any other |
| Stats.Max | module/fc_organize_IS2_data_nov20.py:55 | an element no smaller than any other |
| Stats.ArgMin | module/fc_organize_IS2_data_nov20.py:33-62 | the first position holding the minimum |
| Stats.Percentile | module/fc_get_merit_heights_nov20.py:118-119 | lies between the two order statistics it interpolates, hence within [min, max] |
| Stats.Median | module/fc_organize_IS2_data_nov20.py:53 | lies within [min, max] |
| Stats.DecileTrim | module/fc_get_merit_heights_nov20.py:118-120 | a value is kept exactly when it is an input value within [p10, p90], and the trim is as long as the number of such positions |
| Stats.TrimNonEmpty | module/fc_get_merit_heights_nov20.py:118-122 | with one value, or three or more, the inter-decile trim keeps something |
| Stats.TrimTwoDistinct | module/fc_get_merit_heights_nov20.py:118-122 | two distinct values both fall outside [p10, p90] |
| Stats.MeanBounds | module/fc_organize_IS2_data_nov20.py:54 | the mean lies within [min, max] |
| Stats.Samuelson | module/fc_organize_IS2_data_nov20.py:50-51 | every value's squared deviation is at most (n - 1) times the population variance |

## Left out

- File-system and environment effects are parameters or absent: `os.chdir`, `os.path.exists` and raster reads (`fileExists`, `read`), HDF5 reads, pickles, printing and `tqdm`.
- The driver scripts `1_organize_icesat2_metadata_nov20.py` and `2_complete_processing_with_mask_nov20.py` are not part of this model.
- Library routines are parameters with nothing assumed: the square root behind `np.std` and `pdist`, skimage `label`/`regionprops`/`binary_dilation`/`binary_erosion`/`resize`, shapely `contains` and the spatial index. The unused `cKDTree` is not modelled.
- `MaskLabeler` models each step of `label_mask_and_identify_goodd` as its own function over the library's outputs, not one end-to-end function. Labelling, dilation, erosion and `regionprops` would all be uninterpreted, so an end-to-end composition would add no checked content.
- rasterio `xy`/`rowcol` and the affine transforms are left out. A footprint carries the cell it maps to, and dam points arrive as projected real coordinates.
- Floating point: heights, coordinates and statistics are exact reals, and NaN is an explicit `Float` case where the source can produce it. `np.percentile`, median, mean and variance are computed exactly (numpy's 'linear' method). Rounding, `float32` storage and the tolerance `eps ** 0.85` are not modelled; the `inpoly2` tolerance is a real parameter `ftol`.
- `InPoly.InPoly2` receives arrays that are already rectangular (`Rect`), because a numpy array always is; ragged input cannot reach `inpoly2`.
- InPoly.InPoly2: `Table` holds only 2-D arrays. A 1-D array, whose `shape[1]` raises IndexError, and a 3-D array with `shape[1] == 2`, which passes the shape test, cannot be expressed.
- MaskMetadata.ParseInt: Python `int()` also accepts signs, surrounding whitespace, underscores and non-ASCII digits. Only ASCII digit runs parse here; anything else is the ValueError path.
- The three `edit` rectangles are the source's constants (`EditBlocks`), but the pixel-level effect is stated for any block list.
- MeritHeights.ElevStats: the source's `nanmedian`/`nanstd`/`nanmean` on a trim that still holds NaN cannot happen, because a single NaN makes both deciles NaN and empties the trim. The model takes that path directly (NaN record).
- MeritHeights.ElevStats: the ensures state errors and NaN structure only. The decile bound is stated in `ElevStatsWithinDeciles`, so that every caller does not pay for the nonlinear percentile facts.
- MeritHeights.RegionStats: its ensures state only the length. Success and per-region contents are stated in `RegionStatsOk` and `RegionStatsAt`.
- MeritHeights.GetMeritHeights: when the call fails after reading the latitude, the source has already written 'S' into the caller's dict; the model returns only the error, since the exception ends the driver.
- MeritHeights.GetMeritHeights: `regionValues` stands for `regionprops(labeled, intensity_image=...)` followed by `intensity_image[image]` per region, in ascending label order.
- WaterData.BodyEntry: the decile bound on the height is stated in `BodyEntryWithinDeciles`, and the kept-footprint agreement in `BodyEntryKept`.
- WaterData.EntryWellFormed: states the footprint bookkeeping and the count bounds, not the decile bound, which is in `BodyEntryWithinDeciles`.
- Organize.Candidates: the function states only a length bound. Success, ordering, completeness and readiness are separate lemmas (`CandidatesOkIff`, `CandidatesAscending`, `CandidatesComplete`, `CandidatesReady`).
- Organize.SummaryOf: its ensures fix only the looked-up attributes. Counts, height bounds and the point are in `SummaryCounts`, `SummaryHeights` and `SummaryPoint`.
- Organize.OrganizeData: its properties are stated in the `Organize*` lemmas rather than in its own ensures.
- Organize.ThreeSigmaMask: the filter is stated in squared form, (h - mean)^2 <= 9 * variance, which equals the source's two-sided test over the reals for the true square root (`ThreeSigmaBand`).
- `geoidheight_batch` ignores its `model` argument; the stub's zero offsets are modelled as they are.
- Organize.Distance: the medoid's distances use the `sqrt` parameter; `MedoidMinimisesTotal` holds for any such function.

## Findings

| source | as written | input that shows it | evidently intended | confidence | as-written member | corrected member |
|---|---|---|---|---|---|---|
| module/fc_organize_IS2_data_nov20.py:15-17,90 | `lake_area[mask_id]`, `extent[mask_id]`, `goodd_res[mask_id]` and `merit_heights[mask_id]` use the raw label as a list position. The lists are positional over the labels `regionprops` finds, ascending (module/fc_label_mask_and_identify_goodd_nov20.py:143-151, module/fc_get_merit_heights_nov20.py:113-134), so position i holds label i+1 at best, and labels are sparse after the coastline removal. | Regions labelled 1 and 2 with areas 0.5 and 7.0: body 1 is given area 7.0, and body 2 raises IndexError. | Look up each body's record by its label. | not executed | Organize.PositionalLookupCounterexample | Organize.LookupByLabel |

The aggregation the model proves things about (`Organize.OrganizeData`) uses the lookup by label. `Organize.PositionalLookupOffByOne` gives the general form of the discrepancy: with labels 1..n, the positional lookup of label l returns label l+1's record.

The 3-sigma filter uses the population standard deviation (`np.std`). With that deviation, no value among ten or fewer heights can lie more than sqrt(n-1) <= 3 deviations from the mean (Samuelson's inequality), so over exact reals the filter removes nothing from such a series. At n = 10 the bound is reached with equality, so in floating point rounding decides the extreme case. For example, 50.0 in [10.0, 10.2, 9.8, 10.1, 50.0] is kept: `Organize.FiveHeightsKeepOutlier` shows that case and `Organize.SmallSeriesKeepsAll` the general bound.

=== FILE: base.dfy ===
/**
 * Shared value types for the water-level pipeline model: optional values,
 * results carrying an error, and floating-point values that may be NaN.
 */
module Base {

  /** A value that may be absent (a key missing from a Python dict). */
  datatype Option<+T> = None | Some(value: T)

  /** The outcome of an operation that may raise an exception. */
  datatype Result<+T, +E> = Ok(value: T) | Err(error: E)

  /** A numpy float: a finite value (modelled as a real) or NaN. */
  datatype Float = Num(v: real) | NaN

  /** Keeps the elements of `xs` whose flag in `keep` is set (numpy boolean indexing). */
  function Select<T>(xs: seq<T>, keep: seq<bool>): (r: seq<T>)
    requires |xs| == |keep|
    ensures |r| == CountTrue(keep)
    ensures forall x :: x in r ==> x in xs
    decreases |xs|
  {
    if xs == [] then []
    else (if keep[0] then [xs[0]] else []) + Select(xs[1..], keep[1..])
  }

  /** Number of set flags in `b` (numpy `np.sum` of a boolean array). */
  function CountTrue(b: seq<bool>): (n: nat)
    ensures n <= |b|
  {
    if b == [] then 0 else (if b[0] then 1 else 0) + CountTrue(b[1..])
  }

  /** Selecting with an all-true mask changes nothing. */
  lemma {:induction false} SelectAll<T>(xs: seq<T>, keep: seq<bool>)
    requires |xs| == |keep|
    requires forall i :: 0 <= i < |keep| ==> keep[i]
    ensures Select(xs, keep) == xs
    decreases |xs|
  {
    if xs != [] {
      SelectAll(xs[1..], keep[1..]);
    }
  }

  /** One set flag is enough for the selection to be non-empty. */
  lemma {:induction false} SelectNonEmpty<T>(xs: seq<T>, keep: seq<bool>, i: nat)
    requires |xs| == |keep|
    requires i < |keep| && keep[i]
    ensures |Select(xs, keep)| > 0
    decreases |xs|
  {
    if i > 0 {
      SelectNonEmpty(xs[1..], keep[1..], i - 1);
    }
  }

  /** An element is selected exactly when some flagged position holds it. */
  lemma {:induction false} SelectMember<T>(xs: seq<T>, keep: seq<bool>, x: T)
    requires |xs| == |keep|
    ensures x in Select(xs, keep) <==> exists k :: 0 <= k < |xs| && keep[k] && xs[k] == x
    decreases |xs|
  {
    if xs != [] {
      SelectMember(xs[1..], keep[1..], x);
      assert forall k :: 1 <= k < |xs| ==> xs[1..][k - 1] == xs[k] && keep[1..][k - 1] == keep[k];
    }
  }

  /** `f` applied to every element. */
  function Map<T, U>(xs: seq<T>, f: T -> U): (r: seq<U>)
    ensures |r| == |xs| && forall k :: 0 <= k < |xs| ==> r[k] == f(xs[k])
  {
    seq(|xs|, k requires 0 <= k < |xs| => f(xs[k]))
  }

  /** Selecting commutes with projecting each element (one mask indexes parallel arrays alike). */
  lemma {:induction false} SelectMap<T, U>(xs: seq<T>, keep: seq<bool>, f: T -> U)
    requires |xs| == |keep|
    ensures Select(Map(xs, f), keep) == Map(Select(xs, keep), f)
    decreases |xs|
  {
    if xs != [] {
      SelectMap(xs[1..], keep[1..], f);
      assert Map(xs, f)[1..] == Map(xs[1..], f);
    }
  }
}

=== FILE: inpoly.dfy ===
/**
 * The crossing-number point-in-polygon test `inpoly2` / `inpoly2_core`
 * (module/inpoly.py).
 *
 * Each point's result is a pair (inside, on-boundary). The reference
 * definition `Classify` folds `EdgeStep` over the edges for one point; the
 * imperative core, which walks the edges and for each edge only the y-sorted
 * points inside the edge's y-range, is proved to compute `Classify` for every
 * point, and the wrapper to return it in the caller's point order.
 */
module InPoly {
  import opened Base
  import opened Sorting
  import Stats

  datatype Pt = Pt(x: real, y: real)

  /** A function argument that should be a 2-D numpy array: `width` is
      `shape[1]`; anything else is `NotAnArray`. */
  datatype Table<T> = NotAnArray | NdArray(width: nat, rows: seq<seq<T>>)

  /** A numpy array is rectangular. */
  predicate Rect<T>(t: Table<T>)
  {
    t.NdArray? ==> forall i :: 0 <= i < |t.rows| ==> |t.rows[i]| == t.width
  }

  datatype InPolyError =
    | NotArrays          // TypeError: an argument is not a numpy array
    | NotNByTwo          // ValueError: an argument is not N x 2
    | EmptyEdgeArray     // ValueError from `edge.min()` on a zero-size array
    | EdgeOutOfRange     // ValueError: an edge index is < 0 or >= the node count

  /** (inside, on boundary) for one point. */
  datatype State = State(stat: bool, bnds: bool)

  function Abs(r: real): real { if r < 0.0 then -r else r }
  function RMin(a: real, b: real): real { if a <= b then a else b }
  function RMax(a: real, b: real): real { if a <= b then b else a }

  /** The default edge list: node i joined to node (i+1) mod M. */
  function DefaultEdges(m: nat): (t: Table<int>)
    ensures t.NdArray? && t.width == 2 && |t.rows| == m && Rect(t)
    ensures forall i :: 0 <= i < m ==> t.rows[i] == [i, (i + 1) % m]
  {
    NdArray(2, seq(m, i requires 0 <= i < m => [i, (i + 1) % m]))
  }

  /** Every entry of the edge array indexes a node. */
  predicate EdgeIndicesIn(edge: seq<seq<int>>, m: nat)
  {
    forall i, k :: 0 <= i < |edge| && 0 <= k < |edge[i]| ==> 0 <= edge[i][k] < m
  }

  /** Input validation, in the order the source checks. */
  function Validate(vert: Table<real>, node: Table<real>, edge: Table<int>): (e: Option<InPolyError>)
    ensures e.None? <==>
      && vert.NdArray? && node.NdArray? && edge.NdArray?
      && vert.width == 2 && node.width == 2 && edge.width == 2
      && |edge.rows| > 0 && EdgeIndicesIn(edge.rows, |node.rows|)
    ensures e == Some(NotArrays) <==> vert.NotAnArray? || node.NotAnArray? || edge.NotAnArray?
  {
    if vert.NotAnArray? || node.NotAnArray? || edge.NotAnArray? then Some(NotArrays)
    else if vert.width != 2 || node.width != 2 || edge.width != 2 then Some(NotNByTwo)
    else if |edge.rows| == 0 then Some(EmptyEdgeArray)
    else if !EdgeIndicesIn(edge.rows, |node.rows|) then Some(EdgeOutOfRange)
    else None
  }

  /** One edge's effect on one point (the body of the inner loop of
      `inpoly2_core`), for an edge from `a` to `b` with `a.y <= b.y`. Points
      outside the edge's y-range widened by `eps` are never visited; a point
      already on the boundary is skipped. */
  function EdgeStep(p: Pt, a: Pt, b: Pt, eps: real, st: State): (r: State)
    ensures st.bnds ==> r == st
    ensures (st.bnds ==> st.stat) ==> (r.bnds ==> r.stat)
    ensures r.stat != st.stat && !r.bnds ==> a.y <= p.y < b.y
    ensures !st.bnds && (p.y < a.y - eps || p.y > b.y + eps) ==> r == st
  {
    var xmin := RMin(a.x, b.x) - eps;
    var xmax := RMax(a.x, b.x) + eps;
    if st.bnds || p.y < a.y - eps || p.y > b.y + eps then st
    else if p.x < xmin then
      if a.y <= p.y < b.y then st.(stat := !st.stat) else st
    else if p.x > xmax then st
    else
      var ydel := b.y - a.y;
      var xdel := b.x - a.x;
      var edel := Abs(xdel) + ydel;
      var mul1 := ydel * (p.x - a.x);
      var mul2 := xdel * (p.y - a.y);
      if Abs(mul2 - mul1) <= eps * edel then State(true, true)
      else if (p.y == a.y && p.x == a.x) || (p.y == b.y && p.x == b.x) then State(true, true)
      else if mul1 < mul2 then
        if a.y <= p.y < b.y then st.(stat := !st.stat) else st
      else st
  }

  /** A horizontal edge never flips a point's parity; it can only mark the point as on the boundary. */
  lemma HorizontalEdgeNoToggle(p: Pt, a: Pt, b: Pt, eps: real, st: State)
    requires a.y == b.y
    ensures EdgeStep(p, a, b, eps, st).bnds || EdgeStep(p, a, b, eps, st).stat == st.stat
  {
  }

  /** Edge `e` with its ends ordered so the first has the smaller y. */
  function Oriented(node: seq<Pt>, e: seq<int>): (r: (Pt, Pt))
    requires |e| == 2 && 0 <= e[0] < |node| && 0 <= e[1] < |node|
    ensures r.0.y <= r.1.y
    ensures r == (node[e[0]], node[e[1]]) || r == (node[e[1]], node[e[0]])
  {
    if node[e[1]].y < node[e[0]].y then (node[e[1]], node[e[0]]) else (node[e[0]], node[e[1]])
  }

  predicate EdgeList(node: seq<Pt>, edge: seq<seq<int>>)
  {
    forall i :: 0 <= i < |edge| ==> |edge[i]| == 2 && 0 <= edge[i][0] < |node| && 0 <= edge[i][1] < |node|
  }

  /** The reference result for one point: `EdgeStep` folded over the edges in order. */
  function Classify(p: Pt, node: seq<Pt>, edge: seq<seq<int>>, eps: real): (r: State)
    requires EdgeList(node, edge)
    ensures r.bnds ==> r.stat
    decreases |edge|
  {
    if edge == [] then State(false, false)
    else
      var e := Oriented(node, edge[|edge| - 1]);
      EdgeStep(p, e.0, e.1, eps, Classify(p, node, edge[..|edge| - 1], eps))
  }

  /** Once a point is on the boundary, every later edge leaves it there. */
  lemma {:induction false} BoundaryIsFinal(p: Pt, node: seq<Pt>, edge: seq<seq<int>>, k: nat, eps: real)
    requires EdgeList(node, edge) && k <= |edge|
    requires Classify(p, node, edge[..k], eps).bnds
    ensures Classify(p, node, edge, eps) == Classify(p, node, edge[..k], eps)
    decreases |edge| - k
  {
    if k < |edge| {
      assert edge[..k + 1][..k] == edge[..k];
      BoundaryIsFinal(p, node, edge, k + 1, eps);
    } else {
      assert edge[..k] == edge;
    }
  }

  predicate SortedY(v: seq<Pt>)
  {
    forall i, j :: 0 <= i < j < |v| ==> v[i].y <= v[j].y
  }

  /** Python `bisect_left` on an ascending list: the first index whose value is >= x. */
  method BisectLeft(a: seq<real>, x: real) returns (lo: nat)
    requires forall i, j :: 0 <= i < j < |a| ==> a[i] <= a[j]
    ensures lo <= |a|
    ensures forall i :: 0 <= i < lo ==> a[i] < x
    ensures forall i :: lo <= i < |a| ==> a[i] >= x
  {
    lo := 0;
    var hi := |a|;
    while lo < hi
      invariant 0 <= lo <= hi <= |a|
      invariant forall i :: 0 <= i < lo ==> a[i] < x
      invariant forall i :: hi <= i < |a| ==> a[i] >= x
      decreases hi - lo
    {
      var mid := (lo + hi) / 2;
      if a[mid] < x {
        lo := mid + 1;
      } else {
        hi := mid;
      }
    }
  }

  /** The work `inpoly2_core` does on one visited point that is not yet on
      the boundary: the crossing test left of the edge's x-range, the
      boundary test inside it. */
  method VisitPoint(p: Pt, a: Pt, b: Pt, eps: real, stat: bool) returns (r: State)
    requires a.y - eps <= p.y <= b.y + eps
    ensures r == EdgeStep(p, a, b, eps, State(stat, false))
  {
    var xmin := RMin(a.x, b.x) - eps;
    var xmax := RMax(a.x, b.x) + eps;
    var ydel := b.y - a.y;
    var xdel := b.x - a.x;
    var edel := Abs(xdel) + ydel;
    var x, y := p.x, p.y;
    r := State(stat, false);
    if x < xmin {
      if a.y <= y < b.y {
        r := State(!stat, false);
      }
    } else if x > xmax {
    } else {
      var mul1 := ydel * (x - a.x);
      var mul2 := xdel * (y - a.y);
      if Abs(mul2 - mul1) <= eps * edel {
        r := State(true, true);
      } else if (y == a.y && x == a.x) || (y == b.y && x == b.x) {
        r := State(true, true);
      } else if mul1 < mul2 {
        if a.y <= y < b.y {
          r := State(!stat, false);
        }
      }
    }
  }

  /** One pass of `inpoly2_core`'s inner loop: edge (a, b) applied to the
      y-sorted points from the first one at or above `a.y - eps` up to the
      first one above `b.y + eps`, where the source breaks out of the loop
      (the `stop` flag here). */
  method EdgePass(vert: seq<Pt>, ys: seq<real>, a: Pt, b: Pt, eps: real, stat0: seq<bool>, bnds0: seq<bool>)
    returns (stat: seq<bool>, bnds: seq<bool>)
    requires SortedY(vert) && a.y <= b.y
    requires |ys| == |vert| && forall i :: 0 <= i < |vert| ==> ys[i] == vert[i].y
    requires |stat0| == |vert| && |bnds0| == |vert|
    ensures |stat| == |vert| && |bnds| == |vert|
    ensures forall i :: 0 <= i < |vert| ==>
      State(stat[i], bnds[i]) == EdgeStep(vert[i], a, b, eps, State(stat0[i], bnds0[i]))
  {
    var ymin := a.y - eps;
    var ymax := b.y + eps;
    var start := BisectLeft(ys, ymin);
    stat, bnds := stat0, bnds0;
    var j := start;
    var stop := false;
    while j < |vert| && !stop
      invariant start <= j <= |vert|
      invariant |stat| == |vert| && |bnds| == |vert|
      invariant stop ==> j < |vert| && vert[j].y > ymax
      invariant forall i :: 0 <= i < |vert| ==> (State(stat[i], bnds[i]) ==
        if start <= i < j then EdgeStep(vert[i], a, b, eps, State(stat0[i], bnds0[i])) else State(stat0[i], bnds0[i]))
      decreases |vert| - j, !stop
    {
      if bnds[j] {
        j := j + 1;
      } else if vert[j].y > ymax {
        stop := true;
      } else {
        assert ys[j] >= ymin;
        assert stat[j] == stat0[j] && bnds[j] == bnds0[j];
        var st := VisitPoint(vert[j], a, b, eps, stat[j]);
        stat := stat[j := st.stat];
        bnds := bnds[j := st.bnds];
        j := j + 1;
      }
    }
    forall i | 0 <= i < |vert|
      ensures State(stat[i], bnds[i]) == EdgeStep(vert[i], a, b, eps, State(stat0[i], bnds0[i]))
    {
      if i < start {
        assert ys[i] < ymin;
      } else if i >= j {
        assert vert[j].y <= vert[i].y;
      }
    }
  }

  /** `inpoly2_core` on points sorted by y: the edges in order, each applied by `EdgePass`. */
  method InPolyCore(vert: seq<Pt>, node: seq<Pt>, edge: seq<seq<int>>, eps: real)
    returns (stat: seq<bool>, bnds: seq<bool>)
    requires SortedY(vert)
    requires EdgeList(node, edge)
    ensures |stat| == |vert| && |bnds| == |vert|
    ensures forall j :: 0 <= j < |vert| ==> State(stat[j], bnds[j]) == Classify(vert[j], node, edge, eps)
  {
    stat := seq(|vert|, _ => false);
    bnds := seq(|vert|, _ => false);
    var ys := seq(|vert|, j requires 0 <= j < |vert| => vert[j].y);
    var k := 0;
    while k < |edge|
      invariant 0 <= k <= |edge|
      invariant |stat| == |vert| && |bnds| == |vert|
      invariant forall j :: 0 <= j < |vert| ==> State(stat[j], bnds[j]) == Classify(vert[j], node, edge[..k], eps)
    {
      var e := Oriented(node, edge[k]);
      stat, bnds := EdgePass(vert, ys, e.0, e.1, eps, stat, bnds);
      assert edge[..k + 1][..k] == edge[..k];
      k := k + 1;
    }
    assert edge[..k] == edge;
  }

  /** Rows of a validated N x 2 array as points. */
  function Points(rows: seq<seq<real>>): (ps: seq<Pt>)
    requires forall i :: 0 <= i < |rows| ==> |rows[i]| == 2
    ensures |ps| == |rows|
    ensures forall i :: 0 <= i < |rows| ==> ps[i] == Pt(rows[i][0], rows[i][1])
  {
    seq(|rows|, i requires 0 <= i < |rows| => Pt(rows[i][0], rows[i][1]))
  }

  function Xs(ps: seq<Pt>): (r: seq<real>)
    ensures |r| == |ps| && forall i :: 0 <= i < |ps| ==> r[i] == ps[i].x
  {
    seq(|ps|, i requires 0 <= i < |ps| => ps[i].x)
  }

  function Ys(ps: seq<Pt>): (r: seq<real>)
    ensures |r| == |ps| && forall i :: 0 <= i < |ps| ==> r[i] == ps[i].y
  {
    seq(|ps|, i requires 0 <= i < |ps| => ps[i].y)
  }

  /** The tolerance `fTOL * lbar`, `lbar` being half the sum of the node box's sides. */
  function Tolerance(node: seq<Pt>, ftol: real): real
    requires |node| > 0
  {
    var lbar := ((Stats.Max(Xs(node)) - Stats.Min(Xs(node))) + (Stats.Max(Ys(node)) - Stats.Min(Ys(node)))) / 2.0;
    ftol * lbar
  }

  /** The point lies in the node bounding box widened by `veps` on every side. */
  predicate InBox(p: Pt, node: seq<Pt>, veps: real)
    requires |node| > 0
  {
    && Stats.Min(Xs(node)) - veps <= p.x <= Stats.Max(Xs(node)) + veps
    && Stats.Min(Ys(node)) - veps <= p.y <= Stats.Max(Ys(node)) + veps
  }

  function BoxMask(vert: seq<Pt>, node: seq<Pt>, veps: real): (mask: seq<bool>)
    requires |node| > 0
    ensures |mask| == |vert|
    ensures forall i :: 0 <= i < |vert| ==> (mask[i] <==> InBox(vert[i], node, veps))
  {
    seq(|vert|, i requires 0 <= i < |vert| => InBox(vert[i], node, veps))
  }

  /** The axes are swapped when the boxed points spread wider in x than in y. */
  function SwapAxes(sub: seq<Pt>): bool
  {
    |sub| > 0 &&
      Stats.Max(Xs(sub)) - Stats.Min(Xs(sub)) > Stats.Max(Ys(sub)) - Stats.Min(Ys(sub))
  }

  function Orient(swap: bool, p: Pt): Pt
  {
    if swap then Pt(p.y, p.x) else p
  }

  function OrientAll(swap: bool, ps: seq<Pt>): (r: seq<Pt>)
    ensures |r| == |ps| && forall i :: 0 <= i < |ps| ==> r[i] == Orient(swap, ps[i])
  {
    seq(|ps|, i requires 0 <= i < |ps| => Orient(swap, ps[i]))
  }

  /** 0, 1, ..., n-1. */
  function Range(n: nat): (r: seq<nat>)
    ensures |r| == n && forall i :: 0 <= i < n ==> r[i] == i
  {
    seq(n, i => i)
  }

  /** `np.argsort` of the y-coordinates: a permutation of the indices that puts the points in y order. */
  function ArgSortY(ps: seq<Pt>): (perm: seq<nat>)
    ensures |perm| == |ps|
    ensures multiset(perm) == multiset(Range(|ps|))
    ensures forall k :: 0 <= k < |perm| ==> perm[k] < |ps|
    ensures SortedBy<nat>(perm, (i: nat) => if i < |ps| then ps[i].y else 0.0)
  {
    var perm := SortBy<nat>(Range(|ps|), (i: nat) => if i < |ps| then ps[i].y else 0.0);
    assert forall k :: 0 <= k < |perm| ==> perm[k] < |ps| by {
      forall k | 0 <= k < |perm|
        ensures perm[k] < |ps|
      {
        PermutationMembers(perm, Range(|ps|), k);
      }
    }
    perm
  }

  /** `vert_sub[sort_idx]`. */
  function Gather(ps: seq<Pt>, perm: seq<nat>): (r: seq<Pt>)
    requires forall k :: 0 <= k < |perm| ==> perm[k] < |ps|
    ensures |r| == |perm| && forall k :: 0 <= k < |perm| ==> r[k] == ps[perm[k]]
  {
    seq(|perm|, k requires 0 <= k < |perm| => ps[perm[k]])
  }

  /** `out = zeros(n); out[perm] = vals`, the writes done in order. */
  function Unsort(perm: seq<nat>, vals: seq<bool>, n: nat): (r: seq<bool>)
    requires |vals| == |perm| && forall k :: 0 <= k < |perm| ==> perm[k] < n
    ensures |r| == n
    ensures forall s :: 0 <= s < n && s !in perm ==> !r[s]
    ensures forall s :: 0 <= s < n && s in perm ==> exists k :: 0 <= k < |perm| && perm[k] == s && r[s] == vals[k]
    decreases |perm|
  {
    if perm == [] then seq(n, _ => false)
    else
      var m := |perm| - 1;
      var prev := Unsort(perm[..m], vals[..m], n);
      assert forall s :: s in perm <==> s in perm[..m] || s == perm[m] by {
        assert perm == perm[..m] + [perm[m]];
      }
      prev[perm[m] := vals[m]]
  }

  /** `STAT[mask] = vals`: the masked positions receive `vals` in order, the others stay False. */
  function Scatter(mask: seq<bool>, vals: seq<bool>): (r: seq<bool>)
    requires |vals| == CountTrue(mask)
    ensures |r| == |mask|
    ensures forall i :: 0 <= i < |mask| && !mask[i] ==> !r[i]
    decreases |mask|
  {
    if mask == [] then []
    else if mask[0] then [vals[0]] + Scatter(mask[1..], vals[1..])
    else [false] + Scatter(mask[1..], vals)
  }

  /** What scattering the results of the selected elements gives back at each selected position. */
  lemma {:induction false} ScatterSelect(xs: seq<Pt>, mask: seq<bool>, vals: seq<bool>, f: Pt -> bool, i: nat)
    requires |xs| == |mask| && |vals| == CountTrue(mask)
    requires forall j :: 0 <= j < |vals| ==> vals[j] == f(Select(xs, mask)[j])
    requires i < |mask| && mask[i]
    ensures Scatter(mask, vals)[i] == f(xs[i])
    decreases |mask|
  {
    if i > 0 {
      var rest := if mask[0] then vals[1..] else vals;
      assert forall j :: 0 <= j < |rest| ==> rest[j] == f(Select(xs[1..], mask[1..])[j]) by {
        forall j | 0 <= j < |rest|
          ensures rest[j] == f(Select(xs[1..], mask[1..])[j])
        {
          if mask[0] {
            assert Select(xs, mask)[j + 1] == Select(xs[1..], mask[1..])[j];
          } else {
            assert Select(xs, mask)[j] == Select(xs[1..], mask[1..])[j];
          }
        }
      }
      ScatterSelect(xs[1..], mask[1..], rest, f, i - 1);
    }
  }

  /** Sorts the (already oriented) boxed points by y, runs the core and puts
      the results back in the order of `sub`. */
  method ClassifyBoxed(sub: seq<Pt>, node: seq<Pt>, edge: seq<seq<int>>, eps: real)
    returns (stat: seq<bool>, bnds: seq<bool>)
    requires EdgeList(node, edge)
    ensures |stat| == |sub| && |bnds| == |sub|
    ensures forall s :: 0 <= s < |sub| ==> State(stat[s], bnds[s]) == Classify(sub[s], node, edge, eps)
  {
    var perm := ArgSortY(sub);
    var sorted := Gather(sub, perm);
    assert SortedY(sorted);
    var st, bd := InPolyCore(sorted, node, edge, eps);
    stat := Unsort(perm, st, |sub|);
    bnds := Unsort(perm, bd, |sub|);
    forall s | 0 <= s < |sub|
      ensures State(stat[s], bnds[s]) == Classify(sub[s], node, edge, eps)
    {
      assert Range(|sub|)[s] == s;
      assert s in multiset(Range(|sub|));
      assert s in perm;
      var k1 :| 0 <= k1 < |perm| && perm[k1] == s && stat[s] == st[k1];
      var k2 :| 0 <= k2 < |perm| && perm[k2] == s && bnds[s] == bd[k2];
      assert sorted[k1] == sub[s] && sorted[k2] == sub[s];
    }
  }

  /** The two result arrays of `inpoly2`. */
  datatype Results = Results(stat: seq<bool>, bnds: seq<bool>)

  /** The classification the wrapper promises for one input point. */
  function Expected(p: Pt, node: seq<Pt>, edge: seq<seq<int>>, veps: real, swap: bool): (r: State)
    requires |node| > 0 && EdgeList(node, edge)
    ensures !InBox(p, node, veps) ==> r == State(false, false)
    ensures r.bnds ==> r.stat
  {
    if !InBox(p, node, veps) then State(false, false)
    else
      assert EdgeList(OrientAll(swap, node), edge);
      Classify(Orient(swap, p), OrientAll(swap, node), edge, veps)
  }

  /** Scattering per-selected-point results through the mask gives `Expected` at every point. */
  lemma ScatterExpected(ps: seq<Pt>, node: seq<Pt>, edge: seq<seq<int>>, veps: real, swap: bool,
                        stat: seq<bool>, bnds: seq<bool>)
    requires |node| > 0 && EdgeList(node, edge) && EdgeList(OrientAll(swap, node), edge)
    requires var sub := Select(ps, BoxMask(ps, node, veps));
      && |stat| == |sub| && |bnds| == |sub|
      && forall s :: 0 <= s < |sub| ==>
           State(stat[s], bnds[s]) == Classify(Orient(swap, sub[s]), OrientAll(swap, node), edge, veps)
    ensures var mask := BoxMask(ps, node, veps);
      forall i :: 0 <= i < |ps| ==>
        State(Scatter(mask, stat)[i], Scatter(mask, bnds)[i]) == Expected(ps[i], node, edge, veps, swap)
  {
    var mask := BoxMask(ps, node, veps);
    var onode := OrientAll(swap, node);
    forall i | 0 <= i < |ps|
      ensures State(Scatter(mask, stat)[i], Scatter(mask, bnds)[i]) == Expected(ps[i], node, edge, veps, swap)
    {
      if mask[i] {
        ScatterSelect(ps, mask, stat, p => Classify(Orient(swap, p), onode, edge, veps).stat, i);
        ScatterSelect(ps, mask, bnds, p => Classify(Orient(swap, p), onode, edge, veps).bnds, i);
      }
    }
  }

  /** The validated arguments of `inpoly2`: points, nodes and edge rows. */
  function EdgeArg(node: Table<real>, edge: Option<Table<int>>): Table<int>
  {
    if edge.Some? then edge.value else DefaultEdges(if node.NdArray? then |node.rows| else 0)
  }

  /** `inpoly2`: validates, rejects points outside the widened node box, swaps
      the axes when the remaining points are wider than tall, sorts them by y,
      runs the core, and puts the results back in the caller's order. */
  method InPoly2(vert: Table<real>, node: Table<real>, edge: Option<Table<int>>, ftol: real)
    returns (r: Result<Results, InPolyError>)
    requires Rect(vert) && Rect(node) && (edge.Some? ==> Rect(edge.value))
    ensures r.Err? <==> Validate(vert, node, EdgeArg(node, edge)).Some?
    ensures r.Err? ==> Some(r.error) == Validate(vert, node, EdgeArg(node, edge))
    ensures r.Ok? ==> |r.value.stat| == |vert.rows| && |r.value.bnds| == |vert.rows|
    ensures r.Ok? ==> node.NdArray? && |node.rows| > 0 && vert.NdArray? && vert.width == 2 && node.width == 2
    ensures r.Ok? ==>
      var ps := Points(vert.rows);
      var ns := Points(node.rows);
      var edges := EdgeArg(node, edge).rows;
      var veps := Tolerance(ns, ftol);
      && EdgeList(ns, edges)
      && forall i :: 0 <= i < |ps| ==>
           State(r.value.stat[i], r.value.bnds[i]) == Expected(ps[i], ns, edges, veps, SwapAxes(Select(ps, BoxMask(ps, ns, veps))))
  {
    var edges := EdgeArg(node, edge);
    var err := Validate(vert, node, edges);
    if err.Some? {
      return Err(err.value);
    }
    var ps := Points(vert.rows);
    var ns := Points(node.rows);
    assert |edges.rows[0]| == 2;
    assert 0 <= edges.rows[0][0] < |ns|;
    assert EdgeList(ns, edges.rows);
    var veps := Tolerance(ns, ftol);
    var mask := BoxMask(ps, ns, veps);
    var sub := Select(ps, mask);
    var swap := SwapAxes(sub);
    var onode := OrientAll(swap, ns);
    assert EdgeList(onode, edges.rows);
    var stat, bnds := ClassifyBoxed(OrientAll(swap, sub), onode, edges.rows, veps);
    ScatterExpected(ps, ns, edges.rows, veps, swap, stat, bnds);
    r := Ok(Results(Scatter(mask, stat), Scatter(mask, bnds)));
  }
}

=== FILE: label_mask.dfy ===
/**
 * The discrete steps of `label_mask_and_identify_goodd`
 * (module/fc_label_mask_and_identify_goodd_nov20.py): the diamond
 * structuring element, the occurrence threshold, the hand-edited blocks, the
 * dam-point raster, the region filters, the coastline vote, label retention,
 * the storage width and the per-region attributes.
 *
 * Connected-component labelling, dilation, erosion, `regionprops`, the affine
 * transform and the polygon test are library code; their results enter as
 * arguments.
 */
module MaskLabeler {
  import opened Base

  /** A raster, row-major. */
  type Image = seq<seq<int>>

  predicate Shape<T>(img: seq<seq<T>>, h: nat, w: nat)
  {
    |img| == h && forall r :: 0 <= r < h ==> |img[r]| == w
  }

  function Abs(n: int): nat { if n < 0 then -n else n }

  // ---------------------------------------------------------------------
  // Structuring element

  /** (i, j) lies in the diamond of radius r centred at (r, r). */
  predicate InDiamond(r: nat, i: int, j: int)
  {
    Abs(i - r) + Abs(j - r) <= r
  }

  /** `strel_disk_4(r)`: the (2r+1) x (2r+1) diamond, 1 inside and 0 outside. */
  method StrelDisk4(r: nat) returns (se: Image)
    ensures Shape(se, 2 * r + 1, 2 * r + 1)
    ensures forall i, j :: 0 <= i < 2 * r + 1 && 0 <= j < 2 * r + 1 ==>
      se[i][j] == if InDiamond(r, i, j) then 1 else 0
  {
    var size := 2 * r + 1;
    se := seq(size, _ => seq(size, _ => 0));
    var i := 0;
    while i < size
      invariant 0 <= i <= size
      invariant Shape(se, size, size)
      invariant forall a, b :: 0 <= a < size && 0 <= b < size ==>
        se[a][b] == if a < i && InDiamond(r, a, b) then 1 else 0
    {
      var j := 0;
      while j < size
        invariant 0 <= j <= size
        invariant Shape(se, size, size)
        invariant forall a, b :: 0 <= a < size && 0 <= b < size ==>
          se[a][b] == if (a < i || (a == i && b < j)) && InDiamond(r, a, b) then 1 else 0
      {
        if Abs(i - r) + Abs(j - r) <= r {
          se := se[i := se[i][j := 1]];
        }
        j := j + 1;
      }
      i := i + 1;
    }
  }

  /** The diamond is symmetric under transposition and both reflections; it
      holds the centre and the four axis tips but no corner when r > 0. */
  lemma DiamondShape(r: nat, i: int, j: int)
    ensures InDiamond(r, i, j) == InDiamond(r, j, i)
    ensures InDiamond(r, i, j) == InDiamond(r, 2 * r - i, j)
    ensures InDiamond(r, i, j) == InDiamond(r, i, 2 * r - j)
    ensures InDiamond(r, r, r) && InDiamond(r, 0, r) && InDiamond(r, r, 0)
    ensures r > 0 ==> !InDiamond(r, 0, 0) && !InDiamond(r, 2 * r, 2 * r)
  {
  }

  // ---------------------------------------------------------------------
  // Step 1: occurrence threshold and hand edits

  /** Zeroes values below 75 and the no-data value 255, then clamps what is left to 1. */
  function ThresholdPixel(v: int): (r: int)
    ensures r == 0 || r == 1
    ensures r == 1 <==> 75 <= v && v != 255
  {
    var v1 := if v < 75 || v == 255 then 0 else v;
    if v1 > 1 then 1 else v1
  }

  function Threshold(img: Image): (r: Image)
    ensures |r| == |img|
    ensures forall i :: 0 <= i < |img| ==> |r[i]| == |img[i]|
    ensures forall i, j :: 0 <= i < |img| && 0 <= j < |img[i]| ==>
      (r[i][j] == 0 || r[i][j] == 1) && (r[i][j] == 1 <==> 75 <= img[i][j] && img[i][j] != 255)
  {
    seq(|img|, i requires 0 <= i < |img| => seq(|img[i]|, j requires 0 <= j < |img[i]| => ThresholdPixel(img[i][j])))
  }

  /** A half-open block of rows [r0, r1) and columns [c0, c1). */
  datatype Block = Block(r0: nat, r1: nat, c0: nat, c1: nat)

  predicate InBlock(b: Block, i: int, j: int)
  {
    b.r0 <= i < b.r1 && b.c0 <= j < b.c1
  }

  /** The three blocks cleared by hand when `edit == 1`. */
  const EditBlocks: seq<Block> := [
    Block(13924, 14008, 22545, 22635),
    Block(30698, 30883, 27495, 27911),
    Block(28528, 29102, 29695, 30535)
  ]

  /** `img[r0:r1, c0:c1] = 0` (slices past the edge are cut short). */
  function ZeroBlock(img: Image, b: Block): (r: Image)
    ensures |r| == |img|
    ensures forall i :: 0 <= i < |img| ==> |r[i]| == |img[i]|
    ensures forall i, j :: 0 <= i < |img| && 0 <= j < |img[i]| ==>
      r[i][j] == if InBlock(b, i, j) then 0 else img[i][j]
  {
    seq(|img|, i requires 0 <= i < |img| =>
      seq(|img[i]|, j requires 0 <= j < |img[i]| => if InBlock(b, i, j) then 0 else img[i][j]))
  }

  /** Clears each block in turn. */
  function ZeroBlocks(img: Image, bs: seq<Block>): (r: Image)
    decreases |bs|
  {
    if bs == [] then img else ZeroBlocks(ZeroBlock(img, bs[0]), bs[1..])
  }

  predicate InSomeBlock(bs: seq<Block>, i: int, j: int)
  {
    exists k :: 0 <= k < |bs| && InBlock(bs[k], i, j)
  }

  /** After the edits a pixel is 0 inside any block and unchanged elsewhere. */
  lemma {:induction false} ZeroBlocksEffect(img: Image, bs: seq<Block>)
    ensures |ZeroBlocks(img, bs)| == |img|
    ensures forall i :: 0 <= i < |img| ==> |ZeroBlocks(img, bs)[i]| == |img[i]|
    ensures forall i, j :: 0 <= i < |img| && 0 <= j < |img[i]| ==>
      ZeroBlocks(img, bs)[i][j] == if InSomeBlock(bs, i, j) then 0 else img[i][j]
    decreases |bs|
  {
    if bs != [] {
      var img1 := ZeroBlock(img, bs[0]);
      ZeroBlocksEffect(img1, bs[1..]);
      forall i, j | 0 <= i < |img| && 0 <= j < |img[i]|
        ensures ZeroBlocks(img, bs)[i][j] == if InSomeBlock(bs, i, j) then 0 else img[i][j]
      {
        if InSomeBlock(bs[1..], i, j) {
          var k :| 0 <= k < |bs[1..]| && InBlock(bs[1..][k], i, j);
          assert InBlock(bs[k + 1], i, j);
        }
        if InSomeBlock(bs, i, j) && !InBlock(bs[0], i, j) {
          var k :| 0 <= k < |bs| && InBlock(bs[k], i, j);
          assert InBlock(bs[1..][k - 1], i, j);
        }
      }
    }
  }

  /** Step 1 of the labeler: threshold, then the hand edits when `edit == 1`. */
  function OccurrenceMask(img: Image, edit: int): (r: Image)
  {
    var t := Threshold(img);
    if edit == 1 then ZeroBlocks(t, EditBlocks) else t
  }

  /** The water mask is 0/1 and a pixel is water exactly when its occurrence passes and no edit clears it. */
  lemma OccurrenceMaskPixels(img: Image, edit: int, i: nat, j: nat)
    requires i < |img| && j < |img[i]|
    ensures |OccurrenceMask(img, edit)| == |img| && |OccurrenceMask(img, edit)[i]| == |img[i]|
    ensures OccurrenceMask(img, edit)[i][j] == 0 || OccurrenceMask(img, edit)[i][j] == 1
    ensures OccurrenceMask(img, edit)[i][j] == 1 <==>
      75 <= img[i][j] && img[i][j] != 255 && !(edit == 1 && InSomeBlock(EditBlocks, i, j))
  {
    ZeroBlocksEffect(Threshold(img), EditBlocks);
  }

  // ---------------------------------------------------------------------
  // Step 2: dam points

  /** A raster cell. */
  datatype Cell = Cell(row: int, col: int)

  /** Projected dam positions (column, row as reals) floored to cells. */
  function DamCells(cols: seq<real>, rows: seq<real>): (r: seq<Cell>)
    requires |cols| == |rows|
    ensures |r| == |cols|
    ensures forall k :: 0 <= k < |r| ==> r[k].col as real <= cols[k] < r[k].col as real + 1.0
    ensures forall k :: 0 <= k < |r| ==> r[k].row as real <= rows[k] < r[k].row as real + 1.0
  {
    seq(|cols|, k requires 0 <= k < |cols| => Cell(rows[k].Floor, cols[k].Floor))
  }

  predicate InRaster(c: Cell, h: nat, w: nat)
  {
    0 <= c.col < w && 0 <= c.row < h
  }

  /** The dam cells inside an h x w raster, in their original order. */
  function ValidCells(cells: seq<Cell>, h: nat, w: nat): (r: seq<Cell>)
    ensures forall c :: c in r <==> c in cells && InRaster(c, h, w)
    ensures |r| <= |cells|
    decreases |cells|
  {
    if cells == [] then []
    else (if InRaster(cells[0], h, w) then [cells[0]] else []) + ValidCells(cells[1..], h, w)
  }

  /** `r_mask[rows, cols] = 1` on a zero h x w raster. */
  function DamRaster(cells: seq<Cell>, h: nat, w: nat): (r: Image)
    requires forall k :: 0 <= k < |cells| ==> InRaster(cells[k], h, w)
    ensures Shape(r, h, w)
    ensures forall i, j :: 0 <= i < h && 0 <= j < w ==>
      (r[i][j] == 0 || r[i][j] == 1) && (r[i][j] == 1 <==> Cell(i, j) in cells)
    decreases |cells|
  {
    if cells == [] then seq(h, _ => seq(w, _ => 0))
    else
      var prev := DamRaster(cells[..|cells| - 1], h, w);
      var c := cells[|cells| - 1];
      assert InRaster(c, h, w);
      assert forall x :: x in cells <==> x in cells[..|cells| - 1] || x == c by {
        assert cells == cells[..|cells| - 1] + [c];
      }
      prev[c.row := prev[c.row][c.col := 1]]
  }

  /** `np.isin(labels, idx)` as a 0/1 raster. */
  function InLabels(labels: Image, idx: seq<int>): (r: Image)
    ensures |r| == |labels|
    ensures forall i :: 0 <= i < |labels| ==> |r[i]| == |labels[i]|
    ensures forall i, j :: 0 <= i < |labels| && 0 <= j < |labels[i]| ==>
      (r[i][j] == 0 || r[i][j] == 1) && (r[i][j] == 1 <==> labels[i][j] in idx)
  {
    seq(|labels|, i requires 0 <= i < |labels| =>
      seq(|labels[i]|, j requires 0 <= j < |labels[i]| => if labels[i][j] in idx then 1 else 0))
  }

  // ---------------------------------------------------------------------
  // Region filters (records as `regionprops` returns them)

  /** What the labeler reads from a `regionprops` record. */
  datatype Region = Region(id: nat, area: nat, extent: real, maxIntensity: int)

  /** Labels of the dilated regions that touch a dilated dam cell (maximum intensity 1). */
  function DamRegions(stats: seq<Region>): (idx: seq<nat>)
    ensures forall l :: l in idx <==> exists k :: 0 <= k < |stats| && stats[k].id == l && stats[k].maxIntensity == 1
    ensures |idx| <= |stats|
    decreases |stats|
  {
    if stats == [] then []
    else
      var rest := DamRegions(stats[1..]);
      assert forall k :: 1 <= k < |stats| ==> stats[k] == stats[1..][k - 1];
      (if stats[0].maxIntensity == 1 then [stats[0].id] else []) + rest
  }

  /** The size filter's test. */
  predicate LargeEnough(g: Region)
  {
    g.extent > 0.05 && g.area > 20
  }

  /** Labels of the eroded regions that pass the size filter. */
  function SizeFilter(stats: seq<Region>): (idx: seq<nat>)
    ensures forall l :: l in idx <==> exists k :: 0 <= k < |stats| && stats[k].id == l && LargeEnough(stats[k])
    ensures |idx| <= |stats|
    decreases |stats|
  {
    if stats == [] then []
    else
      var rest := SizeFilter(stats[1..]);
      assert forall k :: 1 <= k < |stats| ==> stats[k] == stats[1..][k - 1];
      (if LargeEnough(stats[0]) then [stats[0].id] else []) + rest
  }

  // ---------------------------------------------------------------------
  // Coastline vote

  /** Boundary sampling step: every 6th pixel of a region above 5000 pixels, else every 3rd. */
  function SampleStride(n: nat): (s: nat)
    ensures s == 3 || s == 6
    ensures s == 6 <==> n > 5000
  {
    if n > 5000 then 6 else 3
  }

  /** `xs[::s]`: one element in every s, starting with the first, so
      |r| is the ceiling of |xs| / s. */
  function EveryNth<T>(xs: seq<T>, s: nat): (r: seq<T>)
    requires s > 0
    ensures |r| == 0 <==> |xs| == 0
    ensures |r| > 0 ==> (|r| - 1) * s < |xs| <= |r| * s
    ensures forall k :: 0 <= k < |r| ==> k * s < |xs| && r[k] == xs[k * s]
    decreases |xs|
  {
    if xs == [] then []
    else if |xs| <= s then [xs[0]]
    else
      var rest := EveryNth(xs[s..], s);
      EveryNthStep(xs, s, rest);
      [xs[0]] + rest
  }

  /** One more element in front of the sample of `xs[s..]`. */
  lemma EveryNthStep<T>(xs: seq<T>, s: nat, rest: seq<T>)
    requires 0 < s < |xs|
    requires |rest| > 0 && (|rest| - 1) * s < |xs| - s <= |rest| * s
    requires forall k :: 0 <= k < |rest| ==> k * s < |xs| - s && rest[k] == xs[s..][k * s]
    ensures var r := [xs[0]] + rest;
      && (|r| - 1) * s < |xs| <= |r| * s
      && forall k :: 0 <= k < |r| ==> k * s < |xs| && r[k] == xs[k * s]
  {
    var r := [xs[0]] + rest;
    MulSucc(|rest| - 1, s);
    MulSucc(|rest|, s);
    forall k | 0 <= k < |r|
      ensures k * s < |xs| && r[k] == xs[k * s]
    {
      if k > 0 {
        MulSucc(k - 1, s);
        assert r[k] == rest[k - 1] == xs[s..][(k - 1) * s];
      }
    }
  }

  lemma MulSucc(k: nat, s: nat)
    ensures (k + 1) * s == k * s + s
  {
  }

  /** Sampling keeps the first pixel, so a non-empty region yields a non-empty sample. */
  lemma SampleNonEmpty<T>(coords: seq<T>)
    requires |coords| > 0
    ensures |EveryNth(coords, SampleStride(|coords|))| > 0
    ensures EveryNth(coords, SampleStride(|coords|))[0] == coords[0]
  {
  }

  /** How many non-empty candidate polygons contain the point (`basins += in_poly`). */
  function Hits<P, Q>(q: Q, polys: seq<P>, isEmpty: P -> bool, contains: (P, Q) -> bool): (n: nat)
    ensures n <= |polys|
    ensures n > 0 <==> exists k :: 0 <= k < |polys| && !isEmpty(polys[k]) && contains(polys[k], q)
    decreases |polys|
  {
    if polys == [] then 0
    else
      var rest := Hits(q, polys[1..], isEmpty, contains);
      assert forall k :: 1 <= k < |polys| ==> polys[k] == polys[1..][k - 1];
      (if !isEmpty(polys[0]) && contains(polys[0], q) then 1 else 0) + rest
  }

  /** `basins[basins > 1] = 1`. */
  function Clamp01(n: nat): (r: nat)
    ensures r <= 1 && (r == 1 <==> n > 0)
  {
    if n > 1 then 1 else n
  }

  function SumNat(s: seq<nat>): nat
  {
    if s == [] then 0 else s[0] + SumNat(s[1..])
  }

  /** Per-point coverage after the clamp. */
  function Basins<P, Q>(pts: seq<Q>, polys: seq<P>, isEmpty: P -> bool, contains: (P, Q) -> bool): (b: seq<nat>)
    ensures |b| == |pts|
    ensures forall i :: 0 <= i < |pts| ==> (b[i] <= 1 &&
      (b[i] == 1 <==> exists k :: 0 <= k < |polys| && !isEmpty(polys[k]) && contains(polys[k], pts[i])))
  {
    seq(|pts|, i requires 0 <= i < |pts| => Clamp01(Hits(pts[i], polys, isEmpty, contains)))
  }

  /** Some non-empty candidate polygon contains the point. */
  predicate Covered<P, Q>(q: Q, polys: seq<P>, isEmpty: P -> bool, contains: (P, Q) -> bool)
  {
    exists k :: 0 <= k < |polys| && !isEmpty(polys[k]) && contains(polys[k], q)
  }

  /** The positions of the sampled points that some non-empty candidate polygon contains. */
  function CoveredPoints<P, Q>(pts: seq<Q>, polys: seq<P>, isEmpty: P -> bool, contains: (P, Q) -> bool): set<nat>
  {
    set i: nat | i < |pts| && Covered(pts[i], polys, isEmpty, contains)
  }

  /** A region is coastline-backed (`test_ocean == 1`) when it has candidate
      polygons and at least 90% of its sampled pixels lie in one of them;
      `0.9 * n` is taken as exactly 9n/10. */
  function CoastVote<P, Q>(pts: seq<Q>, polys: seq<P>, isEmpty: P -> bool, contains: (P, Q) -> bool): (keep: bool)
    ensures keep <==> polys != [] && 10 * |CoveredPoints(pts, polys, isEmpty, contains)| >= 9 * |pts|
  {
    if polys == [] then false
    else
      var covered := SumNat(Basins(pts, polys, isEmpty, contains));
      BasinsCount(pts, polys, isEmpty, contains);
      !(10 * covered < 9 * |pts|)
  }

  /** The sum of the clamped `basins` counts the covered sample points. */
  lemma BasinsCount<P, Q>(pts: seq<Q>, polys: seq<P>, isEmpty: P -> bool, contains: (P, Q) -> bool)
    ensures SumNat(Basins(pts, polys, isEmpty, contains)) == |CoveredPoints(pts, polys, isEmpty, contains)|
  {
    var b := Basins(pts, polys, isEmpty, contains);
    SumNatPrefix(b, |b|);
    assert b[..|b|] == b;
    assert OnesBelow(b, |b|) == CoveredPoints(pts, polys, isEmpty, contains);
  }

  /** The positions below `n` that hold a 1. */
  function OnesBelow(b: seq<nat>, n: nat): set<nat>
  {
    set i: nat | i < n && i < |b| && b[i] == 1
  }

  /** A prefix of a 0/1 sequence sums to the number of its ones. */
  lemma {:induction false} SumNatPrefix(b: seq<nat>, n: nat)
    requires n <= |b| && forall i :: 0 <= i < |b| ==> b[i] <= 1
    ensures SumNat(b[..n]) == |OnesBelow(b, n)|
    decreases n
  {
    if n > 0 {
      SumNatPrefix(b, n - 1);
      assert b[..n] == b[..n - 1] + [b[n - 1]];
      SumNatAppend(b[..n - 1], [b[n - 1]]);
      assert SumNat([b[n - 1]]) == b[n - 1];
      assert n - 1 !in OnesBelow(b, n - 1);
      if b[n - 1] == 1 {
        assert OnesBelow(b, n) == OnesBelow(b, n - 1) + {n - 1};
      } else {
        assert OnesBelow(b, n) == OnesBelow(b, n - 1);
      }
    }
  }

  lemma {:induction false} SumNatAppend(a: seq<nat>, c: seq<nat>)
    ensures SumNat(a + c) == SumNat(a) + SumNat(c)
  {
    if a == [] {
      assert a + c == c;
    } else {
      assert (a + c)[1..] == a[1..] + c;
      SumNatAppend(a[1..], c);
    }
  }

  lemma SumNatBound(s: seq<nat>)
    requires forall i :: 0 <= i < |s| ==> s[i] <= 1
    ensures SumNat(s) <= |s|
  {
    if s != [] {
      SumNatBound(s[1..]);
    }
  }

  lemma SumNatOnes(s: seq<nat>)
    requires forall i :: 0 <= i < |s| ==> s[i] == 1
    ensures SumNat(s) == |s|
  {
    if s != [] {
      SumNatOnes(s[1..]);
    }
  }

  /** The covered count never exceeds the sample, and a region whose every sampled
      pixel is inside a non-empty candidate polygon is kept. */
  lemma CoastVoteCovered<P, Q>(pts: seq<Q>, polys: seq<P>, isEmpty: P -> bool, contains: (P, Q) -> bool)
    requires polys != []
    requires forall i :: 0 <= i < |pts| ==>
      exists k :: 0 <= k < |polys| && !isEmpty(polys[k]) && contains(polys[k], pts[i])
    ensures CoastVote(pts, polys, isEmpty, contains)
  {
    SumNatOnes(Basins(pts, polys, isEmpty, contains));
  }

  /** A non-empty sample none of whose pixels is covered is not kept. */
  lemma CoastVoteUncovered<P, Q>(pts: seq<Q>, polys: seq<P>, isEmpty: P -> bool, contains: (P, Q) -> bool)
    requires |pts| > 0
    requires forall i, k :: 0 <= i < |pts| && 0 <= k < |polys| ==> isEmpty(polys[k]) || !contains(polys[k], pts[i])
    ensures !CoastVote(pts, polys, isEmpty, contains)
  {
    var b := Basins(pts, polys, isEmpty, contains);
    assert forall i :: 0 <= i < |b| ==> b[i] == 0;
    SumNatZero(b);
  }

  lemma SumNatZero(s: seq<nat>)
    requires forall i :: 0 <= i < |s| ==> s[i] == 0
    ensures SumNat(s) == 0
  {
    if s != [] {
      SumNatZero(s[1..]);
    }
  }

  /** `np.where(test_ocean == 1)[0] + 1`: region k of a fresh labelling has label k+1. */
  function VotedLabels(votes: seq<bool>): (idx: seq<nat>)
    ensures forall l :: l in idx <==> 1 <= l <= |votes| && votes[l - 1]
    decreases |votes|
  {
    if votes == [] then []
    else
      var m := |votes| - 1;
      var prev := VotedLabels(votes[..m]);
      assert forall k :: 0 <= k < m ==> votes[..m][k] == votes[k];
      prev + (if votes[m] then [m + 1] else [])
  }

  // ---------------------------------------------------------------------
  // Label retention

  /** `mask_l[~np.isin(mask_l, idx)] = 0`. */
  function RetainLabels(labels: Image, idx: seq<nat>): (r: Image)
    ensures |r| == |labels|
    ensures forall i :: 0 <= i < |labels| ==> |r[i]| == |labels[i]|
    ensures forall i, j :: 0 <= i < |labels| && 0 <= j < |labels[i]| ==>
      (r[i][j] == labels[i][j] || r[i][j] == 0) && (r[i][j] != 0 <==> labels[i][j] != 0 && labels[i][j] in idx)
  {
    seq(|labels|, i requires 0 <= i < |labels| =>
      seq(|labels[i]|, j requires 0 <= j < |labels[i]| => if labels[i][j] in idx then labels[i][j] else 0))
  }

  /** `mask_l[~eroded] = 0`, `eroded` being the library's erosion of `mask_l > 0`. */
  function ApplyErosion(labels: Image, eroded: seq<seq<bool>>): (r: Image)
    requires Shape(eroded, |labels|, if |labels| == 0 then 0 else |labels[0]|)
    requires forall i :: 0 <= i < |labels| ==> |labels[i]| == |eroded[i]|
    ensures |r| == |labels|
    ensures forall i :: 0 <= i < |labels| ==> |r[i]| == |labels[i]|
    ensures forall i, j :: 0 <= i < |labels| && 0 <= j < |labels[i]| ==>
      r[i][j] == if eroded[i][j] then labels[i][j] else 0
  {
    seq(|labels|, i requires 0 <= i < |labels| =>
      seq(|labels[i]|, j requires 0 <= j < |labels[i]| => if eroded[i][j] then labels[i][j] else 0))
  }

  /** The coastline and erosion steps together: a pixel keeps its label from
      the size-filtered labelling exactly when its region won the vote and the
      pixel survives the erosion; every other pixel becomes 0. */
  lemma KeptPixelsKeepLabel(labels: Image, votes: seq<bool>, eroded: seq<seq<bool>>, i: nat, j: nat)
    requires Shape(eroded, |labels|, if |labels| == 0 then 0 else |labels[0]|)
    requires forall a :: 0 <= a < |labels| ==> |labels[a]| == |eroded[a]|
    requires i < |labels| && j < |labels[i]|
    ensures var out := ApplyErosion(RetainLabels(labels, VotedLabels(votes)), eroded);
      && (out[i][j] == labels[i][j] || out[i][j] == 0)
      && (out[i][j] != 0 <==> 1 <= labels[i][j] <= |votes| && votes[labels[i][j] - 1] && eroded[i][j])
  {
  }

  // ---------------------------------------------------------------------
  // Storage width and attributes

  /** Bits of the unsigned type the labels are stored in: uint8, uint16 or uint32 by the largest label. */
  function StorageBits(m: nat): (bits: nat)
    ensures bits == 8 || bits == 16 || bits == 32
    ensures m < 0x1_0000_0000 ==> m < Capacity(bits)
    ensures bits > 8 ==> m >= Capacity(8)
    ensures bits > 16 ==> m >= Capacity(16)
  {
    CapacityValues();
    if m < 256 then 8 else if m < 65536 then 16 else 32
  }

  /** 2^bits, the number of values an unsigned integer of that width holds. */
  function Capacity(bits: nat): nat
  {
    if bits == 0 then 1 else 2 * Capacity(bits - 1)
  }

  lemma CapacityValues()
    ensures Capacity(8) == 0x100 && Capacity(16) == 0x1_0000 && Capacity(32) == 0x1_0000_0000
  {
    assert Capacity(4) == 16;
    assert Capacity(8) == 0x100;
    assert Capacity(12) == 0x1000;
    assert Capacity(16) == 0x1_0000;
    assert Capacity(20) == 0x10_0000;
    assert Capacity(24) == 0x100_0000;
    assert Capacity(28) == 0x1000_0000;
  }

  /** 30 m x 30 m pixels in km^2 (`10**-6 * 30 * 30 * area`): 0.0009 km^2 per
      pixel, so the area adds over disjoint pixel sets. */
  function LakeArea(pixels: nat): (km2: real)
    ensures km2 == 9.0 * pixels as real / 10000.0
  {
    (1.0 / 1000000.0) * 30.0 * 30.0 * pixels as real
  }

  /** The positional per-region lists returned to the caller: entry k describes
      the k-th region `regionprops` lists (ascending label), not label k+1. */
  datatype Attributes = Attributes(id: nat, lakeArea: real, extent: real, gooddRes: Float)

  function RegionAttributes(stats: seq<Region>): (r: seq<Attributes>)
    ensures |r| == |stats|
    ensures forall k :: 0 <= k < |stats| ==>
      r[k].id == stats[k].id && r[k].extent == stats[k].extent &&
      r[k].lakeArea == LakeArea(stats[k].area) && r[k].gooddRes == Num(stats[k].maxIntensity as real)
  {
    seq(|stats|, k requires 0 <= k < |stats| =>
      Attributes(stats[k].id, LakeArea(stats[k].area), stats[k].extent, Num(stats[k].maxIntensity as real)))
  }
}

=== FILE: mask_metadata.dfy ===
/**
 * Parsing a surface-water raster tile name into longitude/latitude fields
 * (module/fc_get_mask_metadata_func_nov20.py).
 *
 * A tile name looks like `occurrence_110E_50Nv1_4_2021.tif`: the longitude
 * ends at the match of `0E_` (or `0W_`), which must sit at position 11, 12
 * or 13 for a 1-, 2- or 3-digit longitude; the latitude is the one or two
 * characters before `Nv` (or `Sv`) counted from that match.
 */
module MaskMetadata {
  import opened Base

  /** `pat` occurs in `s` starting at `i`. */
  predicate OccursAt(s: string, pat: string, i: int)
  {
    0 <= i && i + |pat| <= |s| && s[i..i + |pat|] == pat
  }

  /** Python `str.find` from position `start`. */
  function FindFrom(s: string, pat: string, start: nat): (r: int)
    requires |pat| > 0
    ensures r == -1 || (start <= r && OccursAt(s, pat, r))
    ensures forall i :: start <= i && (r == -1 || i < r) ==> !OccursAt(s, pat, i)
    decreases |s| - start
  {
    if start + |pat| > |s| then -1
    else if s[start..start + |pat|] == pat then start
    else FindFrom(s, pat, start + 1)
  }

  /** Python `str.find`: the first index where `pat` occurs, or -1. */
  function Find(s: string, pat: string): (r: int)
    requires |pat| > 0
    ensures r == -1 || OccursAt(s, pat, r)
    ensures forall i :: 0 <= i && (r == -1 || i < r) ==> !OccursAt(s, pat, i)
  {
    FindFrom(s, pat, 0)
  }

  predicate IsDigit(c: char)
  {
    '0' <= c <= '9'
  }

  predicate AllDigits(s: string)
  {
    forall i :: 0 <= i < |s| ==> IsDigit(s[i])
  }

  /** The decimal value of a string of ASCII digits. */
  function DigitsValue(s: string): (n: nat)
    requires AllDigits(s)
    decreases |s|
  {
    if s == [] then 0
    else DigitsValue(s[..|s| - 1]) * 10 + (s[|s| - 1] as int - '0' as int)
  }

  /** A decimal string's value is below 10^|s|, and is a multiple of ten when it ends in '0'. */
  lemma {:induction false} DigitsValueBounds(s: string)
    requires AllDigits(s)
    ensures DigitsValue(s) < Pow10(|s|)
    ensures |s| > 0 && s[|s| - 1] == '0' ==> DigitsValue(s) % 10 == 0
    decreases |s|
  {
    if s != [] {
      var p := s[..|s| - 1];
      assert AllDigits(p) by {
        assert forall i :: 0 <= i < |p| ==> p[i] == s[i];
      }
      DigitsValueBounds(p);
      var v, d := DigitsValue(p), s[|s| - 1] as int - '0' as int;
      assert DigitsValue(s) == v * 10 + d && 0 <= d <= 9;
      assert Pow10(|s|) == 10 * Pow10(|p|);
      assert d == 0 ==> (v * 10 + d) % 10 == 0;
    }
  }

  function Pow10(k: nat): (p: nat)
    ensures p >= 1
  {
    if k == 0 then 1 else 10 * Pow10(k - 1)
  }

  datatype MetadataError = NotAnInteger(text: string)

  /** Python `int(text)` on the substrings the parser extracts. Only plain ASCII
      digit strings are accepted; everything else raises ValueError. */
  function ParseInt(text: string): (r: Result<int, MetadataError>)
    ensures r.Ok? <==> |text| > 0 && AllDigits(text)
    ensures r.Ok? ==> r.value == DigitsValue(text)
  {
    if |text| > 0 && AllDigits(text) then Ok(DigitsValue(text)) else Err(NotAnInteger(text))
  }

  /** The fields the parser may set; an absent key is `None`. */
  datatype MaskMetadata = MaskMetadata(
    name: string,
    ew: Option<char>,
    lon: Option<int>,
    lonstr: Option<string>,
    ns: Option<char>,
    lat: Option<int>,
    latstr: Option<string>)

  /** The longitude digits implied by a `0E_`/`0W_` match at `k`: the matched
      '0' and the characters between it and position 11, or nothing when the
      match is not at 11, 12 or 13. */
  function LonText(name: string, k: nat): (t: Option<string>)
    requires k < |name|
    ensures t.Some? <==> 11 <= k <= 13
    ensures t.Some? ==> t.value == name[11..k + 1]
  {
    if k == 11 then Some(name[k..k + 1])
    else if k == 12 then Some(name[k - 1..k + 1])
    else if k == 13 then Some(name[k - 2..k + 1])
    else None
  }

  /** Left-pads with '0' to `width` characters. */
  function ZeroPad(t: string, width: nat): (r: string)
    ensures |r| == if |t| < width then width else |t|
    decreases width - |t|
  {
    if |t| >= width then t else ZeroPad(['0'] + t, width)
  }

  /** Padding keeps the original string at the end and puts only '0' before it. */
  lemma {:induction false} ZeroPadShape(t: string, width: nat)
    ensures var r := ZeroPad(t, width);
      && r[|r| - |t|..] == t
      && forall i :: 0 <= i < |r| - |t| ==> r[i] == '0'
    decreases width - |t|
  {
    if |t| < width {
      var u := ['0'] + t;
      ZeroPadShape(u, width);
      var r := ZeroPad(u, width);
      assert r[|r| - |t|..] == r[|r| - |u|..][1..];
      assert r[|r| - |u|..][0] == u[0];
    }
  }

  /** Zero-padding does not change a decimal value. */
  lemma {:induction false} ZeroPadValue(t: string, width: nat)
    requires AllDigits(t)
    ensures AllDigits(ZeroPad(t, width))
    ensures DigitsValue(ZeroPad(t, width)) == DigitsValue(t)
    decreases width - |t|
  {
    if |t| < width {
      LeadingZero(t);
      ZeroPadValue(['0'] + t, width);
    }
  }

  lemma {:induction false} LeadingZero(t: string)
    requires AllDigits(t)
    ensures AllDigits(['0'] + t)
    ensures DigitsValue(['0'] + t) == DigitsValue(t)
    decreases |t|
  {
    var z := ['0'] + t;
    if t != [] {
      assert z[..|z| - 1] == ['0'] + t[..|t| - 1];
      LeadingZero(t[..|t| - 1]);
    } else {
      assert z[..|z| - 1] == [];
    }
  }

  /** What a parsed longitude means: the ASCII digits from position 11 up to
      the matched '0' at `k` (so `k` is 11, 12 or 13), their value, and the same
      digits left-padded with '0' to three characters. */
  predicate LongitudeFrom(name: string, k: int, lon: int, lonstr: string)
  {
    && 11 <= k <= 13 && k < |name|
    && AllDigits(name[11..k + 1])
    && lon == DigitsValue(name[11..k + 1])
    && |lonstr| == 3
    && AllDigits(lonstr)
    && DigitsValue(lonstr) == lon
    && lonstr[13 - k..] == name[11..k + 1]
    && forall i :: 0 <= i < 13 - k ==> lonstr[i] == '0'
  }

  /** What a parsed latitude means: the ASCII digits of the suffix `s` from
      offset 3 up to the `Nv`/`Sv` match at `j` (4 or 5), their value, and the
      same digits left-padded with '0' to two characters. */
  predicate LatitudeFrom(s: string, j: int, lat: int, latstr: string)
  {
    && (j == 4 || j == 5) && j <= |s|
    && AllDigits(s[3..j])
    && lat == DigitsValue(s[3..j])
    && |latstr| == 2
    && AllDigits(latstr)
    && DigitsValue(latstr) == lat
    && latstr[5 - j..] == s[3..j]
  }

  lemma PaddedLongitude(name: string, k: int)
    requires 11 <= k <= 13 && k < |name| && AllDigits(name[11..k + 1])
    ensures LongitudeFrom(name, k, DigitsValue(name[11..k + 1]), ZeroPad(name[11..k + 1], 3))
  {
    ZeroPadValue(name[11..k + 1], 3);
    ZeroPadShape(name[11..k + 1], 3);
  }

  lemma PaddedLatitude(s: string, j: int)
    requires (j == 4 || j == 5) && j <= |s| && AllDigits(s[3..j])
    ensures LatitudeFrom(s, j, DigitsValue(s[3..j]), ZeroPad(s[3..j], 2))
  {
    ZeroPadValue(s[3..j], 2);
    ZeroPadShape(s[3..j], 2);
  }

  /** Sets `ew`, `lon` and `lonstr` for a match of `0<ew>_` at `k`
      (module/fc_get_mask_metadata_func_nov20.py:7-17 and 21-31). */
  function WithLongitude(md: MaskMetadata, ew: char, k: nat): (r: Result<MaskMetadata, MetadataError>)
    requires k < |md.name|
    ensures r.Err? ==> 11 <= k <= 13
    ensures r.Ok? ==> r.value == md.(ew := Some(ew), lon := r.value.lon, lonstr := r.value.lonstr)
    ensures r.Ok? ==> (r.value.lon.Some? <==> 11 <= k <= 13)
    ensures r.Ok? && r.value.lon.Some? ==>
      r.value.lonstr.Some? && LongitudeFrom(md.name, k, r.value.lon.value, r.value.lonstr.value)
    ensures r.Ok? && r.value.lon.None? ==> r.value.lonstr == md.lonstr && md.lon == None
    requires md.lon == None && md.lonstr == None
  {
    var md1 := md.(ew := Some(ew));
    match LonText(md.name, k)
    case None => Ok(md1)
    case Some(t) =>
      match ParseInt(t)
      case Err(e) => Err(e)
      case Ok(v) =>
        PaddedLongitude(md.name, k);
        Ok(md1.(lon := Some(v), lonstr := Some(ZeroPad(t, 3))))
  }

  /** Sets `ns`, `lat` and `latstr` for a match of `<letter>v` at offset `k`
      of the suffix `s` that starts at the longitude match (lines 39-56). */
  function WithLatitude(md: MaskMetadata, s: string, letter: char, k: int): (r: Result<MaskMetadata, MetadataError>)
    requires k == -1 || (0 <= k < |s|)
    ensures r.Err? ==> k == 4 || k == 5
    ensures r.Ok? && k == -1 ==> r.value == md
    ensures r.Ok? && k != -1 ==> r.value.ns == Some(letter)
    ensures r.Ok? ==> r.value == md.(ns := r.value.ns, lat := r.value.lat, latstr := r.value.latstr)
    ensures r.Ok? && (k == 4 || k == 5) ==>
      r.value.lat.Some? && r.value.latstr.Some? && LatitudeFrom(s, k, r.value.lat.value, r.value.latstr.value)
    ensures r.Ok? && k != 4 && k != 5 ==> r.value.lat == md.lat && r.value.latstr == md.latstr
  {
    if k == -1 then Ok(md)
    else
      var md1 := md.(ns := Some(letter));
      if k == 4 || k == 5 then
        var t := s[3..k];
        match ParseInt(t)
        case Err(e) => Err(e)
        case Ok(v) =>
          PaddedLatitude(s, k);
          Ok(md1.(lat := Some(v), latstr := Some(ZeroPad(t, 2))))
      else Ok(md1)
  }

  /** Where the longitude match is: the first `0E_`, or else the first `0W_`. */
  function MatchPos(name: string): int
  {
    if Find(name, "0E_") != -1 then Find(name, "0E_") else Find(name, "0W_")
  }

  /** `get_mask_metadata_func_nov20`: the whole parse. `0W_` is searched for only
      when `0E_` is absent; the latitude is searched for in the suffix starting at
      the longitude match, `Nv` first and then `Sv`, so `Sv` wins when both occur.
      A Python `int()` of a non-numeric substring is the error case. */
  function ParseTileName(name: string): (r: Result<MaskMetadata, MetadataError>)
    ensures r.Ok? ==> r.value.name == name
    ensures r.Ok? ==> (r.value.ew == Some('E') <==> Find(name, "0E_") != -1)
    ensures r.Ok? ==> (r.value.ew == Some('W') <==> Find(name, "0E_") == -1 && Find(name, "0W_") != -1)
    ensures Find(name, "0E_") == -1 && Find(name, "0W_") == -1 ==>
      r == Ok(MaskMetadata(name, None, None, None, None, None, None))
  {
    var empty := MaskMetadata(name, None, None, None, None, None, None);
    var e := Find(name, "0E_");
    var w := if e == -1 then Find(name, "0W_") else -1;
    if e == -1 && w == -1 then Ok(empty)
    else
      var start: nat := if e != -1 then e else w;
      var lonResult := WithLongitude(empty, if e != -1 then 'E' else 'W', start);
      match lonResult
      case Err(err) => Err(err)
      case Ok(md) =>
        var s := name[start..];
        match WithLatitude(md, s, 'N', Find(s, "Nv"))
        case Err(err) => Err(err)
        case Ok(md2) => WithLatitude(md2, s, 'S', Find(s, "Sv"))
  }

  /** A longitude is parsed exactly when the match sits at 11, 12 or 13, and
      then it is read from the characters 11..match. */
  lemma ParsedLongitude(name: string)
    requires ParseTileName(name).Ok?
    ensures var r := ParseTileName(name);
      && (r.value.lon.Some? <==> r.value.ew.Some? && 11 <= MatchPos(name) <= 13)
      && (r.value.lon.Some? ==>
            r.value.lonstr.Some? && LongitudeFrom(name, MatchPos(name), r.value.lon.value, r.value.lonstr.value))
  {
  }

  /** The hemisphere letter and latitude come from the suffix starting at the
      longitude match; `Sv` is looked at after `Nv` and overrides it. */
  lemma ParsedLatitude(name: string)
    requires ParseTileName(name).Ok? && ParseTileName(name).value.ew.Some?
    ensures var r := ParseTileName(name);
      var s := name[MatchPos(name)..];
      && (r.value.ns == Some('S') <==> Find(s, "Sv") != -1)
      && (r.value.ns == Some('N') <==> Find(s, "Sv") == -1 && Find(s, "Nv") != -1)
      && (r.value.ns == None <==> Find(s, "Sv") == -1 && Find(s, "Nv") == -1)
      && (r.value.lat.Some? <==> Find(s, "Sv") in {4, 5} || Find(s, "Nv") in {4, 5})
      && (r.value.lat.Some? ==>
            (r.value.latstr.Some? &&
             LatitudeFrom(s, if Find(s, "Sv") in {4, 5} then Find(s, "Sv") else Find(s, "Nv"),
                          r.value.lat.value, r.value.latstr.value)))
  {
  }

  /** The last longitude digit is the matched '0', so a parsed longitude is a
      multiple of ten below 1000. */
  lemma ParsedLongitudeRange(name: string)
    requires ParseTileName(name).Ok? && ParseTileName(name).value.lon.Some?
    ensures ParseTileName(name).value.lon.value % 10 == 0
    ensures 0 <= ParseTileName(name).value.lon.value < 1000
  {
    ParsedLongitude(name);
    var r := ParseTileName(name);
    LongitudeRange(name, MatchPos(name), r.value.lon.value, r.value.lonstr.value);
  }

  /** Digits ending in the matched '0', at most three of them. */
  lemma LongitudeRange(name: string, k: int, lon: int, lonstr: string)
    requires LongitudeFrom(name, k, lon, lonstr)
    requires OccursAt(name, "0E_", k) || OccursAt(name, "0W_", k)
    ensures lon % 10 == 0 && 0 <= lon < 1000
  {
    assert name[k..k + 3][0] == '0';
    var t := name[11..k + 1];
    assert t[|t| - 1] == name[k];
    DigitsValueBounds(t);
    assert Pow10(1) == 10 && Pow10(2) == 100 && Pow10(3) == 1000;
  }

  /** The canonical tile name: an 11-character prefix, the longitude digits,
      `E_`/`W_`, the latitude digits, `Nv`/`Sv`, and the rest of the name. */
  function TileName(prefix: string, lonDigits: string, ew: char, latDigits: string, ns: char, rest: string): string
  {
    prefix + lonDigits + [ew, '_'] + latDigits + [ns, 'v'] + rest
  }

  /** `Find` returns the first occurrence, so an occurrence with nothing before it is the answer. */
  lemma FindIs(s: string, pat: string, k: int)
    requires |pat| > 0 && OccursAt(s, pat, k)
    requires forall i :: 0 <= i < k ==> !OccursAt(s, pat, i)
    ensures Find(s, pat) == k
  {
  }

  /** A pattern that occurs nowhere is not found. */
  lemma FindNone(s: string, pat: string)
    requires |pat| > 0
    requires forall i :: 0 <= i ==> !OccursAt(s, pat, i)
    ensures Find(s, pat) == -1
  {
  }

  /** One differing character rules an occurrence out. */
  lemma NoOccurrence(s: string, pat: string, i: int, j: int)
    requires 0 <= i && 0 <= j < |pat| && i + j < |s| && s[i + j] != pat[j]
    ensures !OccursAt(s, pat, i)
  {
    if i + |pat| <= |s| {
      assert s[i..i + |pat|][j] == s[i + j];
    }
  }

  /** A pattern absent from `rest` does not occur inside the tail `rest` of `s`. */
  lemma SuffixNoOccurrence(s: string, rest: string, pat: string, i: int)
    requires |pat| > 0 && |s| >= |rest| && s[|s| - |rest|..] == rest
    requires Find(rest, pat) == -1 && i >= |s| - |rest|
    ensures !OccursAt(s, pat, i)
  {
    if OccursAt(s, pat, i) {
      OccursInSuffix(s, rest, pat, i);
    }
  }

  /** An occurrence inside the tail `rest` of `s` is an occurrence in `rest`. */
  lemma OccursInSuffix(s: string, rest: string, pat: string, i: int)
    requires |s| >= |rest| && s[|s| - |rest|..] == rest
    requires OccursAt(s, pat, i) && i >= |s| - |rest|
    ensures OccursAt(rest, pat, i - (|s| - |rest|))
  {
    var d := |s| - |rest|;
    assert rest[i - d..i - d + |pat|] == s[i..i + |pat|];
  }

  /** The conditions under which a canonical tile name parses back to its parts:
      the prefix and the trailing text hold none of the patterns the parser looks for. */
  predicate WellFormedParts(prefix: string, lonDigits: string, ew: char, latDigits: string, ns: char, rest: string)
  {
    && |prefix| == 11 && Find(prefix, "0E_") == -1 && Find(prefix, "0W_") == -1
    && 1 <= |lonDigits| <= 3 && AllDigits(lonDigits) && lonDigits[|lonDigits| - 1] == '0'
    && (ew == 'E' || ew == 'W')
    && 1 <= |latDigits| <= 2 && AllDigits(latDigits)
    && (ns == 'N' || ns == 'S')
    && (ew == 'W' ==> Find(rest, "0E_") == -1)
    && Find(rest, "Nv") == -1 && Find(rest, "Sv") == -1
  }

  /** The character at each position of a canonical name, region by region. */
  lemma TileNameAt(prefix: string, lonDigits: string, ew: char, latDigits: string, ns: char, rest: string, i: int)
    requires 0 <= i < |TileName(prefix, lonDigits, ew, latDigits, ns, rest)|
    ensures var name := TileName(prefix, lonDigits, ew, latDigits, ns, rest);
      var a := |prefix| + |lonDigits|;
      var b := a + 2 + |latDigits|;
      && (i < |prefix| ==> name[i] == prefix[i])
      && (|prefix| <= i < a ==> name[i] == lonDigits[i - |prefix|])
      && (i == a ==> name[i] == ew)
      && (i == a + 1 ==> name[i] == '_')
      && (a + 2 <= i < b ==> name[i] == latDigits[i - (a + 2)])
      && (i == b ==> name[i] == ns)
      && (i == b + 1 ==> name[i] == 'v')
      && (i >= b + 2 ==> name[i] == rest[i - (b + 2)])
  {
  }

  /** Before the last longitude digit of a canonical name neither `0E_` nor
      `0W_` occurs. */
  lemma LonMatchFirst(prefix: string, lonDigits: string, ew: char, latDigits: string, ns: char, rest: string, q: string)
    requires WellFormedParts(prefix, lonDigits, ew, latDigits, ns, rest)
    requires q == "0E_" || q == "0W_"
    ensures forall i :: 0 <= i < 10 + |lonDigits| ==> !OccursAt(TileName(prefix, lonDigits, ew, latDigits, ns, rest), q, i)
  {
    var name := TileName(prefix, lonDigits, ew, latDigits, ns, rest);
    forall i | 0 <= i < 10 + |lonDigits|
      ensures !OccursAt(name, q, i)
    {
      if i + 3 <= 11 {
        TileNameAt(prefix, lonDigits, ew, latDigits, ns, rest, i);
        TileNameAt(prefix, lonDigits, ew, latDigits, ns, rest, i + 1);
        TileNameAt(prefix, lonDigits, ew, latDigits, ns, rest, i + 2);
        assert name[i..i + 3] == prefix[i..i + 3];
        assert !OccursAt(prefix, q, i);
      } else if i >= 10 {
        TileNameAt(prefix, lonDigits, ew, latDigits, ns, rest, i + 1);
        NoOccurrence(name, q, i, 1);
      } else {
        TileNameAt(prefix, lonDigits, ew, latDigits, ns, rest, i + 2);
        NoOccurrence(name, q, i, 2);
      }
    }
  }

  /** A canonical western name contains no `0E_` at all. */
  lemma WestHasNoEast(prefix: string, lonDigits: string, ew: char, latDigits: string, ns: char, rest: string)
    requires WellFormedParts(prefix, lonDigits, ew, latDigits, ns, rest) && ew == 'W'
    ensures forall i :: 0 <= i ==> !OccursAt(TileName(prefix, lonDigits, ew, latDigits, ns, rest), "0E_", i)
  {
    var name := TileName(prefix, lonDigits, ew, latDigits, ns, rest);
    var k := 10 + |lonDigits|;
    var b := k + 3 + |latDigits|;
    var d := |name| - |rest|;
    assert d == b + 2;
    assert name[d..] == rest;
    LonMatchFirst(prefix, lonDigits, ew, latDigits, ns, rest, "0E_");
    forall i | k <= i < d
      ensures !OccursAt(name, "0E_", i)
    {
      if i <= b {
        TileNameAt(prefix, lonDigits, ew, latDigits, ns, rest, i + 1);
        NoOccurrence(name, "0E_", i, 1);
      } else {
        TileNameAt(prefix, lonDigits, ew, latDigits, ns, rest, i);
        NoOccurrence(name, "0E_", i, 0);
      }
    }
    forall i | i >= d
      ensures !OccursAt(name, "0E_", i)
    {
      SuffixNoOccurrence(name, rest, "0E_", i);
    }
  }

  /** The longitude match of a canonical name is its last longitude digit. */
  lemma TileNameMatch(prefix: string, lonDigits: string, ew: char, latDigits: string, ns: char, rest: string)
    requires WellFormedParts(prefix, lonDigits, ew, latDigits, ns, rest)
    ensures var name := TileName(prefix, lonDigits, ew, latDigits, ns, rest);
      && (ew == 'E' ==> Find(name, "0E_") == 10 + |lonDigits|)
      && (ew == 'W' ==> Find(name, "0E_") == -1 && Find(name, "0W_") == 10 + |lonDigits|)
  {
    var name := TileName(prefix, lonDigits, ew, latDigits, ns, rest);
    var k := 10 + |lonDigits|;
    var pat := ['0', ew, '_'];
    assert name[k..k + 3] == pat by {
      TileNameAt(prefix, lonDigits, ew, latDigits, ns, rest, k);
      TileNameAt(prefix, lonDigits, ew, latDigits, ns, rest, k + 1);
      TileNameAt(prefix, lonDigits, ew, latDigits, ns, rest, k + 2);
    }
    LonMatchFirst(prefix, lonDigits, ew, latDigits, ns, rest, pat);
    FindIs(name, pat, k);
    if ew == 'W' {
      WestHasNoEast(prefix, lonDigits, ew, latDigits, ns, rest);
      FindNone(name, "0E_");
    }
  }

  /** In the suffix starting at the longitude match, the hemisphere letter
      follows the latitude digits at offset 3 + |latDigits|, and the other
      hemisphere's pattern does not occur. */
  lemma SuffixLatitudeMatch(ew: char, latDigits: string, ns: char, rest: string)
    requires ew == 'E' || ew == 'W'
    requires 1 <= |latDigits| <= 2 && AllDigits(latDigits) && (ns == 'N' || ns == 'S')
    requires Find(rest, "Nv") == -1 && Find(rest, "Sv") == -1
    ensures var s := ['0', ew, '_'] + latDigits + [ns, 'v'] + rest;
      && s[3..3 + |latDigits|] == latDigits
      && (ns == 'N' ==> Find(s, "Nv") == 3 + |latDigits| && Find(s, "Sv") == -1)
      && (ns == 'S' ==> Find(s, "Nv") == -1 && Find(s, "Sv") == 3 + |latDigits|)
  {
    var s := ['0', ew, '_'] + latDigits + [ns, 'v'] + rest;
    var M := |latDigits|;
    assert s[3..3 + M] == latDigits;
    var d := |s| - |rest|;
    assert s[d..] == rest;
    forall i, q | 0 <= i && (q == "Nv" || q == "Sv") && (i != 3 + M || q != [ns, 'v'])
      ensures !OccursAt(s, q, i)
    {
      if i >= d {
        SuffixNoOccurrence(s, rest, q, i);
      } else if i < 3 {
        NoOccurrence(s, q, i, 0);
      } else if i < 3 + M {
        assert s[i] == latDigits[i - 3];
        NoOccurrence(s, q, i, 0);
      } else if i == 3 + M {
        assert s[i] == ns && s[i + 1] == 'v';
        NoOccurrence(s, q, i, 0);
      } else {
        assert s[i] == 'v';
        NoOccurrence(s, q, i, 0);
      }
    }
    assert s[3 + M..3 + M + 2] == [ns, 'v'];
    if ns == 'N' {
      FindIs(s, "Nv", 3 + M);
      FindNone(s, "Sv");
    } else {
      FindNone(s, "Nv");
      FindIs(s, "Sv", 3 + M);
    }
  }

  /** The suffix of a canonical name from its longitude match. */
  lemma TileNameSuffix(prefix: string, lonDigits: string, ew: char, latDigits: string, ns: char, rest: string)
    requires |lonDigits| >= 1 && lonDigits[|lonDigits| - 1] == '0'
    ensures TileName(prefix, lonDigits, ew, latDigits, ns, rest)[|prefix| + |lonDigits| - 1..]
      == ['0', ew, '_'] + latDigits + [ns, 'v'] + rest
  {
    var name := TileName(prefix, lonDigits, ew, latDigits, ns, rest);
    var L := |lonDigits|;
    assert lonDigits == lonDigits[..L - 1] + ['0'];
    assert name == (prefix + lonDigits[..L - 1]) + (['0', ew, '_'] + latDigits + [ns, 'v'] + rest);
  }

  /** The parse of a name whose longitude match is at `k` with letter `ew`, in terms of its steps. */
  lemma ParseSteps(name: string, ew: char, k: nat)
    requires k < |name|
    requires (ew == 'E' && Find(name, "0E_") == k) || (ew == 'W' && Find(name, "0E_") == -1 && Find(name, "0W_") == k)
    ensures var empty := MaskMetadata(name, None, None, None, None, None, None);
      var s := name[k..];
      ParseTileName(name) ==
        match WithLongitude(empty, ew, k)
        case Err(err) => Err(err)
        case Ok(md) =>
          match WithLatitude(md, s, 'N', Find(s, "Nv"))
          case Err(err) => Err(err)
          case Ok(md2) => WithLatitude(md2, s, 'S', Find(s, "Sv"))
  {
  }

  /** The longitude step on a name whose characters 11..k are the digits `t`. */
  lemma LongitudeStep(name: string, ew: char, k: nat, t: string)
    requires 11 <= k <= 13 && k < |name| && name[11..k + 1] == t && AllDigits(t)
    ensures WithLongitude(MaskMetadata(name, None, None, None, None, None, None), ew, k)
      == Ok(MaskMetadata(name, Some(ew), Some(DigitsValue(t)), Some(ZeroPad(t, 3)), None, None, None))
  {
  }

  /** The latitude step on a suffix whose characters 3..j are the digits `t`. */
  lemma LatitudeStep(md: MaskMetadata, s: string, letter: char, j: int, t: string)
    requires (j == 4 || j == 5) && j < |s| && s[3..j] == t && AllDigits(t)
    ensures WithLatitude(md, s, letter, j)
      == Ok(md.(ns := Some(letter), lat := Some(DigitsValue(t)), latstr := Some(ZeroPad(t, 2))))
  {
  }

  /** The parse of a name in terms of where its patterns occur and which digits they enclose. */
  lemma ParseFromMatches(name: string, ew: char, k: nat, t: string, ns: char, u: string)
    requires 11 <= k <= 13 && k < |name| && name[11..k + 1] == t && AllDigits(t)
    requires (ew == 'E' && Find(name, "0E_") == k) || (ew == 'W' && Find(name, "0E_") == -1 && Find(name, "0W_") == k)
    requires (|u| == 1 || |u| == 2) && 3 + |u| < |name[k..]| && name[k..][3..3 + |u|] == u && AllDigits(u)
    requires ns == 'N' ==> Find(name[k..], "Nv") == 3 + |u| && Find(name[k..], "Sv") == -1
    requires ns == 'S' ==> Find(name[k..], "Nv") == -1 && Find(name[k..], "Sv") == 3 + |u|
    requires ns == 'N' || ns == 'S'
    ensures ParseTileName(name) == Ok(MaskMetadata(name,
        Some(ew), Some(DigitsValue(t)), Some(ZeroPad(t, 3)),
        Some(ns), Some(DigitsValue(u)), Some(ZeroPad(u, 2))))
  {
    var s := name[k..];
    ParseSteps(name, ew, k);
    LongitudeStep(name, ew, k, t);
    var md := MaskMetadata(name, Some(ew), Some(DigitsValue(t)), Some(ZeroPad(t, 3)), None, None, None);
    LatitudeStep(md, s, ns, 3 + |u|, u);
  }

  /** Round trip: a canonical tile name parses to exactly the parts it was
      built from, the longitude and latitude zero-padded to three and two digits. */
  lemma TileNameRoundTrip(prefix: string, lonDigits: string, ew: char, latDigits: string, ns: char, rest: string)
    requires WellFormedParts(prefix, lonDigits, ew, latDigits, ns, rest)
    ensures var name := TileName(prefix, lonDigits, ew, latDigits, ns, rest);
      ParseTileName(name) == Ok(MaskMetadata(name,
        Some(ew), Some(DigitsValue(lonDigits)), Some(ZeroPad(lonDigits, 3)),
        Some(ns), Some(DigitsValue(latDigits)), Some(ZeroPad(latDigits, 2))))
  {
    var name := TileName(prefix, lonDigits, ew, latDigits, ns, rest);
    var k := 10 + |lonDigits|;
    TileNameMatch(prefix, lonDigits, ew, latDigits, ns, rest);
    TileNameSuffix(prefix, lonDigits, ew, latDigits, ns, rest);
    SuffixLatitudeMatch(ew, latDigits, ns, rest);
    assert name[11..k + 1] == lonDigits;
    ParseFromMatches(name, ew, k, lonDigits, ns, latDigits);
  }
}

=== FILE: merit_heights.dfy ===
/**
 * Addressing the reference elevation (MERIT Hydro) tiles for a surface-water
 * tile, building the 2x2 mosaic, and the per-region trimmed statistics
 * (module/fc_get_merit_heights_nov20.py).
 */
module MeritHeights {
  import opened Base
  import opened Stats
  import MaskMetadata

  datatype MeritError =
    | MissingKey(key: string)    // a `KeyError` on the metadata dict
    | ShapeMismatch              // `np.concatenate` of arrays whose shapes do not line up
    | EmptyRegion                // `np.percentile` of an empty array

  /** The metadata fields the lookup uses, after the `lat == 0` fix-up. */
  datatype TileRequest = TileRequest(ew: char, lon: int, ns: char, lat: int)

  /** Reads `lon`, `lat` and `ew` (in that order, each a possible `KeyError`);
      a zero latitude forces the southern hemisphere, otherwise `ns` must be present. */
  function Resolve(md: MaskMetadata.MaskMetadata): (r: Result<TileRequest, MeritError>)
    ensures r.Ok? <==> md.lon.Some? && md.lat.Some? && md.ew.Some? && (md.lat.value == 0 || md.ns.Some?)
    ensures md.lon.None? ==> r == Err(MissingKey("lon"))
    ensures md.lon.Some? && md.lat.None? ==> r == Err(MissingKey("lat"))
    ensures r.Ok? ==> r.value.lon == md.lon.value && r.value.lat == md.lat.value && r.value.ew == md.ew.value
    ensures r.Ok? && r.value.lat == 0 ==> r.value.ns == 'S'
    ensures r.Ok? && r.value.lat != 0 ==> r.value.ns == md.ns.value
  {
    if md.lon.None? then Err(MissingKey("lon"))
    else if md.lat.None? then Err(MissingKey("lat"))
    else
      var ns := if md.lat.value == 0 then Some('S') else md.ns;
      if md.ew.None? then Err(MissingKey("ew"))
      else if ns.None? then Err(MissingKey("ns"))
      else Ok(TileRequest(md.ew.value, md.lon.value, ns.value, md.lat.value))
  }

  function Clamp(x: int, lo: int, hi: int): (r: int)
    requires lo <= hi
    ensures lo <= r <= hi
    ensures lo <= x <= hi ==> r == x
  {
    if x < lo then lo else if x > hi then hi else x
  }

  /** The longitude of the folder holding a tile, as the chain of comparisons
      in the source computes it: western bands have inclusive upper bounds
      (w030 for lon <= 30), eastern bands exclusive ones (e000 for lon < 30).
      Any letter other than 'W' takes the eastern branch. */
  function FolderLonDegrees(ew: char, lon: int): (d: int)
    ensures d % 30 == 0
    ensures ew == 'W' ==> 30 <= d <= 180
    ensures ew != 'W' ==> 0 <= d <= 150
  {
    if ew == 'W' then
      if lon <= 30 then 30
      else if lon <= 60 then 60
      else if lon <= 90 then 90
      else if lon <= 120 then 120
      else if lon <= 150 then 150
      else 180
    else
      if lon < 30 then 0
      else if lon < 60 then 30
      else if lon < 90 then 60
      else if lon < 120 then 90
      else if lon < 150 then 120
      else 150
  }

  /** The comparison chain is the 30-degree band of the longitude, clamped to
      the six folders of each hemisphere. */
  lemma FolderLonReference(ew: char, lon: int)
    ensures ew == 'W' ==> FolderLonDegrees(ew, lon) == 30 * Clamp((lon + 29) / 30, 1, 6)
    ensures ew != 'W' ==> FolderLonDegrees(ew, lon) == 30 * Clamp(lon / 30, 0, 5)
  {
  }

  /** The folder band never decreases as the longitude grows. */
  lemma FolderLonMonotone(ew: char, lon1: int, lon2: int)
    requires lon1 <= lon2
    ensures FolderLonDegrees(ew, lon1) <= FolderLonDegrees(ew, lon2)
  {
    FolderLonReference(ew, lon1);
    FolderLonReference(ew, lon2);
    if ew == 'W' {
      DivMonotone(lon1 + 29, lon2 + 29, 30);
    } else {
      DivMonotone(lon1, lon2, 30);
    }
  }

  lemma DivMonotone(a: int, b: int, n: int)
    requires a <= b && n > 0
    ensures a / n <= b / n
  {
    if a / n > b / n {
      assert (a / n) * n <= a;
      assert b < (b / n) * n + n;
      assert (b / n + 1) * n <= (a / n) * n by {
        MulMonotone(b / n + 1, a / n, n);
      }
    }
  }

  lemma MulMonotone(x: int, y: int, n: int)
    requires x <= y && n > 0
    ensures x * n <= y * n
  {
  }

  /** The latitude of the folder holding a tile: n60 above 60, n30 above 30,
      else n00 in the north; s30 below 30, else s60 in the south. Any letter
      other than 'N' takes the southern branch. */
  function FolderLatDegrees(ns: char, lat: int): (d: int)
    ensures d % 30 == 0
    ensures ns == 'N' ==> 0 <= d <= 60
    ensures ns != 'N' ==> 30 <= d <= 60
  {
    if ns == 'N' then
      if lat > 60 then 60 else if lat > 30 then 30 else 0
    else
      if lat < 30 then 30 else 60
  }

  /** The comparison chain is the 30-degree band of the latitude, clamped to
      the three northern or two southern folders. */
  lemma FolderLatReference(ns: char, lat: int)
    ensures ns == 'N' ==> FolderLatDegrees(ns, lat) == 30 * Clamp((lat - 1) / 30, 0, 2)
    ensures ns != 'N' ==> FolderLatDegrees(ns, lat) == 30 * Clamp(lat / 30 + 1, 1, 2)
  {
  }

  /** The latitude band never decreases as the latitude grows. */
  lemma FolderLatMonotone(ns: char, lat1: int, lat2: int)
    requires lat1 <= lat2
    ensures FolderLatDegrees(ns, lat1) <= FolderLatDegrees(ns, lat2)
  {
    FolderLatReference(ns, lat1);
    FolderLatReference(ns, lat2);
    if ns == 'N' {
      DivMonotone(lat1 - 1, lat2 - 1, 30);
    } else {
      DivMonotone(lat1, lat2, 30);
    }
  }

  /** The character of a decimal digit. */
  function DigitChar(d: nat): (c: char)
    requires d < 10
    ensures MaskMetadata.IsDigit(c) && c as int - '0' as int == d
  {
    "0123456789"[d]
  }

  /** The decimal digits of `n`, without leading zeros (Python `str(n)`). */
  function Digits(n: nat): (r: string)
    ensures |r| >= 1
    ensures MaskMetadata.AllDigits(r)
    decreases n
  {
    var last := [DigitChar(n % 10)];
    if n < 10 then last else Digits(n / 10) + last
  }

  /** Reading the digits back gives the number, and only zero starts with '0'. */
  lemma {:induction false} DigitsRoundTrip(n: nat)
    ensures MaskMetadata.DigitsValue(Digits(n)) == n
    ensures Digits(n)[0] == '0' ==> n == 0
    decreases n
  {
    var last := [DigitChar(n % 10)];
    if n >= 10 {
      var front := Digits(n / 10);
      DigitsRoundTrip(n / 10);
      assert (front + last)[..|front + last| - 1] == front;
      assert (front + last)[0] == front[0];
    }
  }

  /** Python `f"{n:0<width>d}"`: zero-padded to `width` characters, the sign
      counting towards the width (so -5 with width 3 is "-05"). */
  function FormatInt(n: int, width: nat): (r: string)
    ensures |r| >= width && |r| >= 1
    ensures n >= 0 ==> MaskMetadata.AllDigits(r)
    ensures n < 0 ==> |r| >= 2 && r[0] == '-' && MaskMetadata.AllDigits(r[1..])
  {
    if n < 0 then
      var w: nat := if width == 0 then 0 else width - 1;
      var r := "-" + MaskMetadata.ZeroPad(Digits(-n), w);
      MaskMetadata.ZeroPadValue(Digits(-n), w);
      assert r[1..] == MaskMetadata.ZeroPad(Digits(-n), w);
      r
    else
      MaskMetadata.ZeroPadValue(Digits(n), width);
      MaskMetadata.ZeroPad(Digits(n), width)
  }

  /** The formatted digits read back as the number (after the sign, for a negative one). */
  lemma FormatIntValue(n: int, width: nat)
    ensures n >= 0 ==> MaskMetadata.DigitsValue(FormatInt(n, width)) == n
    ensures n < 0 ==> MaskMetadata.DigitsValue(FormatInt(n, width)[1..]) == -n
  {
    var m: nat := if n < 0 then -n else n;
    var w: nat := if n >= 0 then width else if width == 0 then 0 else width - 1;
    DigitsRoundTrip(m);
    MaskMetadata.ZeroPadValue(Digits(m), w);
    if n < 0 {
      assert FormatInt(n, width)[1..] == MaskMetadata.ZeroPad(Digits(m), w);
    }
  }

  /** `format_lon_lat`: lower-case hemisphere letter, two-digit latitude,
      lower-case east/west letter, three-digit longitude, `_elv.tif`. */
  function TileFileName(lon: int, ew: char, lat: int, ns: char): (r: string)
    ensures |r| >= 15 && r[0] == ns && r[|r| - 8..] == "_elv.tif"
  {
    [ns] + FormatInt(lat, 2) + [ew] + FormatInt(lon, 3) + "_elv.tif"
  }

  /** For a latitude below 100 and a longitude below 1000 the file name is
      exactly 15 characters, and its digit fields read back as the numbers. */
  lemma TileFileNameFields(lon: int, ew: char, lat: int, ns: char)
    requires 0 <= lat < 100 && 0 <= lon < 1000
    ensures var r := TileFileName(lon, ew, lat, ns);
      && |r| == 15 && r[0] == ns && r[3] == ew && r[7..] == "_elv.tif"
      && MaskMetadata.AllDigits(r[1..3]) && MaskMetadata.DigitsValue(r[1..3]) == lat
      && MaskMetadata.AllDigits(r[4..7]) && MaskMetadata.DigitsValue(r[4..7]) == lon
  {
    assert MaskMetadata.Pow10(2) == 100 && MaskMetadata.Pow10(3) == 1000;
    FormatWidth(lat, 2);
    FormatWidth(lon, 3);
    FormatIntValue(lat, 2);
    FormatIntValue(lon, 3);
    TileLayout(ns, FormatInt(lat, 2), ew, FormatInt(lon, 3));
  }

  /** Where the pieces of a tile file name sit. */
  lemma TileLayout(ns: char, a: string, ew: char, b: string)
    ensures var r := [ns] + a + [ew] + b + "_elv.tif";
      && r[0] == ns && r[1 + |a|] == ew
      && r[1..1 + |a|] == a && r[2 + |a|..2 + |a| + |b|] == b && r[2 + |a| + |b|..] == "_elv.tif"
  {
    var r := [ns] + a + [ew] + b + "_elv.tif";
    assert r[1..1 + |a|] == a;
    assert r[2 + |a|..2 + |a| + |b|] == b;
    assert r[2 + |a| + |b|..] == "_elv.tif";
  }

  /** `format_lon_lat` zero-pads a negative longitude with its sign inside the
      width: longitude 0 with offset -5 is written `-05`. */
  lemma NegativeLongitudeName(ew: char, lat: int, ns: char)
    requires 0 <= lat < 100
    ensures |TileFileName(-5, ew, lat, ns)| == 15 && TileFileName(-5, ew, lat, ns)[4..7] == "-05"
  {
    assert MaskMetadata.Pow10(2) == 100;
    FormatWidth(lat, 2);
    FormatMinusFive();
    TileLayout(ns, FormatInt(lat, 2), ew, FormatInt(-5, 3));
  }

  lemma FormatMinusFive()
    ensures FormatInt(-5, 3) == "-05"
  {
    assert Digits(5) == "5";
    assert MaskMetadata.ZeroPad("5", 2) == MaskMetadata.ZeroPad("05", 2) == "05";
  }

  /** A number with at most `width` digits formats to exactly `width` characters. */
  lemma FormatWidth(n: int, width: nat)
    requires width >= 1 && 0 <= n < MaskMetadata.Pow10(width)
    ensures |FormatInt(n, width)| == width
  {
    DigitsLength(n, width);
  }

  /** A number below 10^k has at most k digits. */
  lemma {:induction false} DigitsLength(n: nat, k: nat)
    requires k >= 1 && n < MaskMetadata.Pow10(k)
    ensures |Digits(n)| <= k
    decreases n
  {
    assert MaskMetadata.Pow10(1) == 10;
    if n >= 10 {
      DigitsLength(n / 10, k - 1);
    }
  }

  /** The folder `elv_<lat band><lon band>`, e.g. `elv_n30e090`. */
  function FolderName(req: TileRequest): (r: string)
    ensures |r| >= 11
  {
    var a := FormatInt(FolderLatDegrees(req.ns, req.lat), 2);
    var b := FormatInt(FolderLonDegrees(req.ew, req.lon), 3);
    "elv_" + [if req.ns == 'N' then 'n' else 's'] + a + [if req.ew == 'W' then 'w' else 'e'] + b
  }

  /** The folder name is 11 characters whose digit fields are the two bands. */
  lemma FolderNameFields(req: TileRequest)
    ensures var r := FolderName(req);
      && |r| == 11 && r[..4] == "elv_"
      && r[4] == (if req.ns == 'N' then 'n' else 's') && r[7] == (if req.ew == 'W' then 'w' else 'e')
      && MaskMetadata.AllDigits(r[5..7]) && MaskMetadata.DigitsValue(r[5..7]) == FolderLatDegrees(req.ns, req.lat)
      && MaskMetadata.AllDigits(r[8..11]) && MaskMetadata.DigitsValue(r[8..11]) == FolderLonDegrees(req.ew, req.lon)
  {
    FolderLayout(if req.ns == 'N' then 'n' else 's', FolderLatDegrees(req.ns, req.lat),
                 if req.ew == 'W' then 'w' else 'e', FolderLonDegrees(req.ew, req.lon));
  }

  lemma FolderLayout(nsc: char, latDeg: int, ewc: char, lonDeg: int)
    requires 0 <= latDeg < 100 && 0 <= lonDeg < 1000
    ensures var r := "elv_" + [nsc] + FormatInt(latDeg, 2) + [ewc] + FormatInt(lonDeg, 3);
      && |r| == 11 && r[..4] == "elv_" && r[4] == nsc && r[7] == ewc
      && MaskMetadata.AllDigits(r[5..7]) && MaskMetadata.DigitsValue(r[5..7]) == latDeg
      && MaskMetadata.AllDigits(r[8..11]) && MaskMetadata.DigitsValue(r[8..11]) == lonDeg
  {
    assert MaskMetadata.Pow10(2) == 100 && MaskMetadata.Pow10(3) == 1000;
    FormatWidth(latDeg, 2);
    FormatWidth(lonDeg, 3);
    FormatIntValue(latDeg, 2);
    FormatIntValue(lonDeg, 3);
    FolderSlots(nsc, FormatInt(latDeg, 2), ewc, FormatInt(lonDeg, 3));
  }

  /** Where the pieces of a folder name sit. */
  lemma FolderSlots(nsc: char, a: string, ewc: char, b: string)
    requires |a| == 2 && |b| == 3
    ensures var r := "elv_" + [nsc] + a + [ewc] + b;
      && |r| == 11 && r[..4] == "elv_" && r[4] == nsc && r[7] == ewc && r[5..7] == a && r[8..11] == b
  {
    var r := "elv_" + [nsc] + a + [ewc] + b;
    assert r[5..7] == a;
    assert r[8..11] == b;
  }

  /** `read_elev_file`'s file name for one offset: the offsets are added to the
      raw degree values whatever the hemisphere. */
  function NeighbourFile(req: TileRequest, dlon: int, dlat: int): (r: string)
    ensures |r| >= 15 && r[|r| - 8..] == "_elv.tif"
  {
    TileFileName(req.lon + dlon, if req.ew == 'W' then 'w' else 'e', req.lat + dlat, if req.ns == 'N' then 'n' else 's')
  }

  /** The neighbour's name carries the lower-case hemisphere letters and the
      shifted degrees, so a neighbour with a two-digit latitude and a
      three-digit longitude reads back as exactly that tile. */
  lemma NeighbourFileFields(req: TileRequest, dlon: int, dlat: int)
    requires 0 <= req.lat + dlat < 100 && 0 <= req.lon + dlon < 1000
    ensures var r := NeighbourFile(req, dlon, dlat);
      && |r| == 15 && r[0] == (if req.ns == 'N' then 'n' else 's') && r[3] == (if req.ew == 'W' then 'w' else 'e')
      && MaskMetadata.DigitsValue(r[1..3]) == req.lat + dlat
      && MaskMetadata.DigitsValue(r[4..7]) == req.lon + dlon
  {
    TileFileNameFields(req.lon + dlon, if req.ew == 'W' then 'w' else 'e', req.lat + dlat, if req.ns == 'N' then 'n' else 's');
  }

  /** A raster: `h` rows of `w` cells. */
  datatype RasterData = RasterData(h: nat, w: nat, px: seq<seq<Float>>)

  predicate Rectangular(g: RasterData)
  {
    |g.px| == g.h && forall i :: 0 <= i < g.h ==> |g.px[i]| == g.w
  }

  /** A numpy 2-D array is always rectangular. */
  type Raster = g: RasterData | Rectangular(g) witness RasterData(0, 0, [])

  /** The value used for a tile that does not exist. */
  const NoData: real := -9999.0

  const TileSize: nat := 6000

  /** The 6000x6000 array of -9999 that stands in for a missing tile. */
  function MissingTile(): (g: Raster)
    ensures g.h == TileSize && g.w == TileSize
    ensures forall i, j :: 0 <= i < TileSize && 0 <= j < TileSize ==> g.px[i][j] == Num(NoData)
  {
    RasterData(TileSize, TileSize, seq(TileSize, _ => seq(TileSize, _ => Num(NoData))))
  }

  /** `read_elev_file`: the tile if the file exists (`fileExists` and `read` stand
      for `os.path.exists` and the raster read), else the fill. */
  function ReadElev(fileExists: string -> bool, read: string -> Raster, name: string): (g: Raster)
    ensures fileExists(name) ==> g == read(name)
    ensures !fileExists(name) ==> g == MissingTile()
  {
    if fileExists(name) then read(name) else MissingTile()
  }

  /** `np.concatenate(..., axis=1)`: side by side, rows must agree. */
  function HConcat(a: Raster, b: Raster): (r: Result<Raster, MeritError>)
    ensures r.Ok? <==> a.h == b.h
    ensures r.Ok? ==> r.value.h == a.h && r.value.w == a.w + b.w
  {
    if a.h != b.h then Err(ShapeMismatch)
    else Ok(RasterData(a.h, a.w + b.w, seq(a.h, i requires 0 <= i < a.h => a.px[i] + b.px[i])))
  }

  /** `np.concatenate(..., axis=0)`: one above the other, columns must agree. */
  function VConcat(a: Raster, b: Raster): (r: Result<Raster, MeritError>)
    ensures r.Ok? <==> a.w == b.w
    ensures r.Ok? ==> r.value.h == a.h + b.h && r.value.w == a.w
  {
    if a.w != b.w then Err(ShapeMismatch)
    else
      var px := a.px + b.px;
      assert forall i :: 0 <= i < a.h + b.h ==> |px[i]| == a.w by {
        forall i | 0 <= i < a.h + b.h
          ensures |px[i]| == a.w
        {
          if i >= a.h {
            assert px[i] == b.px[i - a.h];
          }
        }
      }
      Ok(RasterData(a.h + b.h, a.w, px))
  }

  /** The mosaic of four tiles `elev1`..`elev4`: the top half is
      [elev4 | elev3], the bottom half [elev2 | elev1]. */
  function Mosaic(e1: Raster, e2: Raster, e3: Raster, e4: Raster): (r: Result<Raster, MeritError>)
    ensures r.Ok? <==> e4.h == e3.h && e2.h == e1.h && e4.w + e3.w == e2.w + e1.w
  {
    match HConcat(e2, e1)
    case Err(e) => Err(e)
    case Ok(bottom) =>
      match HConcat(e4, e3)
      case Err(e) => Err(e)
      case Ok(top) => VConcat(top, bottom)
  }

  /** Four equally sized tiles make a mosaic twice as tall and wide, with each
      tile in its quadrant: (0,+5) top left, (-5,+5) top right, (0,+10) bottom
      left, (-5,+10) bottom right. */
  lemma MosaicQuadrants(e1: Raster, e2: Raster, e3: Raster, e4: Raster, i: nat, j: nat)
    requires e1.h == e2.h == e3.h == e4.h && e1.w == e2.w == e3.w == e4.w
    requires i < e1.h && j < e1.w
    ensures var m := Mosaic(e1, e2, e3, e4);
      && m.Ok? && m.value.h == 2 * e1.h && m.value.w == 2 * e1.w
      && m.value.px[i][j] == e4.px[i][j]
      && m.value.px[i][e1.w + j] == e3.px[i][j]
      && m.value.px[e1.h + i][j] == e2.px[i][j]
      && m.value.px[e1.h + i][e1.w + j] == e1.px[i][j]
  {
    MosaicTopLeft(e1, e2, e3, e4, i, j);
    MosaicTopRight(e1, e2, e3, e4, i, j);
    MosaicBottomLeft(e1, e2, e3, e4, i, j);
    MosaicBottomRight(e1, e2, e3, e4, i, j);
  }

  lemma MosaicTopLeft(e1: Raster, e2: Raster, e3: Raster, e4: Raster, i: nat, j: nat)
    requires e1.h == e2.h == e3.h == e4.h && e1.w == e2.w == e3.w == e4.w
    requires i < e1.h && j < e1.w
    ensures var m := Mosaic(e1, e2, e3, e4);
      && m.Ok? && m.value.h == 2 * e1.h && m.value.w == 2 * e1.w
      && m.value.px[i][j] == e4.px[i][j]
  {
    var bottom := HConcat(e2, e1).value;
    var top := HConcat(e4, e3).value;
    var m := VConcat(top, bottom).value;
    assert Mosaic(e1, e2, e3, e4) == Ok(m);
    HConcatAt(e4, e3, i, j);
    VConcatAt(top, bottom, i, j);
  }

  lemma MosaicTopRight(e1: Raster, e2: Raster, e3: Raster, e4: Raster, i: nat, j: nat)
    requires e1.h == e2.h == e3.h == e4.h && e1.w == e2.w == e3.w == e4.w
    requires i < e1.h && j < e1.w
    ensures var m := Mosaic(e1, e2, e3, e4);
      && m.Ok? && m.value.h == 2 * e1.h && m.value.w == 2 * e1.w
      && m.value.px[i][e1.w + j] == e3.px[i][j]
  {
    var bottom := HConcat(e2, e1).value;
    var top := HConcat(e4, e3).value;
    var m := VConcat(top, bottom).value;
    assert Mosaic(e1, e2, e3, e4) == Ok(m);
    HConcatAt(e4, e3, i, e1.w + j);
    VConcatAt(top, bottom, i, e1.w + j);
  }

  lemma MosaicBottomLeft(e1: Raster, e2: Raster, e3: Raster, e4: Raster, i: nat, j: nat)
    requires e1.h == e2.h == e3.h == e4.h && e1.w == e2.w == e3.w == e4.w
    requires i < e1.h && j < e1.w
    ensures var m := Mosaic(e1, e2, e3, e4);
      && m.Ok? && m.value.h == 2 * e1.h && m.value.w == 2 * e1.w
      && m.value.px[e1.h + i][j] == e2.px[i][j]
  {
    var bottom := HConcat(e2, e1).value;
    var top := HConcat(e4, e3).value;
    var m := VConcat(top, bottom).value;
    assert Mosaic(e1, e2, e3, e4) == Ok(m);
    HConcatAt(e2, e1, i, j);
    VConcatBottom(top, bottom, i, j);
  }

  lemma MosaicBottomRight(e1: Raster, e2: Raster, e3: Raster, e4: Raster, i: nat, j: nat)
    requires e1.h == e2.h == e3.h == e4.h && e1.w == e2.w == e3.w == e4.w
    requires i < e1.h && j < e1.w
    ensures var m := Mosaic(e1, e2, e3, e4);
      && m.Ok? && m.value.h == 2 * e1.h && m.value.w == 2 * e1.w
      && m.value.px[e1.h + i][e1.w + j] == e1.px[i][j]
  {
    var bottom := HConcat(e2, e1).value;
    var top := HConcat(e4, e3).value;
    var m := VConcat(top, bottom).value;
    assert Mosaic(e1, e2, e3, e4) == Ok(m);
    HConcatAt(e2, e1, i, e1.w + j);
    VConcatBottom(top, bottom, i, e1.w + j);
  }

  /** One cell of a side-by-side concatenation. */
  lemma HConcatAt(a: Raster, b: Raster, i: nat, j: nat)
    requires a.h == b.h && i < a.h && j < a.w + b.w
    ensures HConcat(a, b).Ok?
    ensures HConcat(a, b).value.px[i][j] == if j < a.w then a.px[i][j] else b.px[i][j - a.w]
  {
    if j >= a.w {
      assert HConcat(a, b).value.px[i][a.w + (j - a.w)] == b.px[i][j - a.w];
    }
  }

  /** A cell of the lower part of a vertical concatenation. */
  lemma VConcatBottom(a: Raster, b: Raster, i: nat, j: nat)
    requires a.w == b.w && i < b.h && j < b.w
    ensures VConcat(a, b).Ok? && VConcat(a, b).value.px[a.h + i][j] == b.px[i][j]
  {
  }

  /** One cell of a vertical concatenation. */
  lemma VConcatAt(a: Raster, b: Raster, i: nat, j: nat)
    requires a.w == b.w && i < a.h + b.h && j < a.w
    ensures VConcat(a, b).Ok?
    ensures VConcat(a, b).value.px[i][j] == if i < a.h then a.px[i][j] else b.px[i - a.h][j]
  {
    if i >= a.h {
      assert VConcat(a, b).value.px[a.h + (i - a.h)][j] == b.px[i - a.h][j];
    }
  }

  /** None of the four neighbour files exists. */
  predicate NoNeighbourFiles(req: TileRequest, fileExists: string -> bool)
  {
    && !fileExists(NeighbourFile(req, -5, 10)) && !fileExists(NeighbourFile(req, 0, 10))
    && !fileExists(NeighbourFile(req, -5, 5)) && !fileExists(NeighbourFile(req, 0, 5))
  }

  /** `read_elev_file` at the offsets (-5,+10), (0,+10), (-5,+5), (0,+5) in that
      order, and the mosaic of the four; the offsets are the same in every hemisphere. */
  function RequestMosaic(req: TileRequest, fileExists: string -> bool, read: string -> Raster): (r: Result<Raster, MeritError>)
    ensures NoNeighbourFiles(req, fileExists) ==>
      && r.Ok? && r.value.h == 2 * TileSize && r.value.w == 2 * TileSize
      && forall i, j :: 0 <= i < 2 * TileSize && 0 <= j < 2 * TileSize ==> r.value.px[i][j] == Num(NoData)
  {
    var e1 := NeighbourTile(req, fileExists, read, -5, 10);
    var e2 := NeighbourTile(req, fileExists, read, 0, 10);
    var e3 := NeighbourTile(req, fileExists, read, -5, 5);
    var e4 := NeighbourTile(req, fileExists, read, 0, 5);
    if NoNeighbourFiles(req, fileExists) then
      FillMosaic();
      Mosaic(e1, e2, e3, e4)
    else
      Mosaic(e1, e2, e3, e4)
  }

  /** `read_elev_file(dlon, dlat)`: the tile at the given offsets, or the fill. */
  function NeighbourTile(req: TileRequest, fileExists: string -> bool, read: string -> Raster, dlon: int, dlat: int): (g: Raster)
    ensures !fileExists(NeighbourFile(req, dlon, dlat)) ==> g == MissingTile()
  {
    ReadElev(fileExists, read, NeighbourFile(req, dlon, dlat))
  }

  /** With four equally sized tiles the request succeeds and each neighbour
      lands in its quadrant: (0,+5) top left, (-5,+5) top right, (0,+10)
      bottom left, (-5,+10) bottom right. */
  lemma RequestMosaicQuadrants(req: TileRequest, fileExists: string -> bool, read: string -> Raster, i: nat, j: nat)
    requires var t := NeighbourTile(req, fileExists, read, 0, 5);
      && NeighbourTile(req, fileExists, read, -5, 5).h == t.h && NeighbourTile(req, fileExists, read, -5, 5).w == t.w
      && NeighbourTile(req, fileExists, read, 0, 10).h == t.h && NeighbourTile(req, fileExists, read, 0, 10).w == t.w
      && NeighbourTile(req, fileExists, read, -5, 10).h == t.h && NeighbourTile(req, fileExists, read, -5, 10).w == t.w
      && i < t.h && j < t.w
    ensures var t := NeighbourTile(req, fileExists, read, 0, 5);
      var m := RequestMosaic(req, fileExists, read);
      && m.Ok? && m.value.h == 2 * t.h && m.value.w == 2 * t.w
      && m.value.px[i][j] == t.px[i][j]
      && m.value.px[i][t.w + j] == NeighbourTile(req, fileExists, read, -5, 5).px[i][j]
      && m.value.px[t.h + i][j] == NeighbourTile(req, fileExists, read, 0, 10).px[i][j]
      && m.value.px[t.h + i][t.w + j] == NeighbourTile(req, fileExists, read, -5, 10).px[i][j]
  {
    var e1 := NeighbourTile(req, fileExists, read, -5, 10);
    var e2 := NeighbourTile(req, fileExists, read, 0, 10);
    var e3 := NeighbourTile(req, fileExists, read, -5, 5);
    var e4 := NeighbourTile(req, fileExists, read, 0, 5);
    assert RequestMosaic(req, fileExists, read) == Mosaic(e1, e2, e3, e4);
    MosaicQuadrants(e1, e2, e3, e4, i, j);
  }

  /** Four missing tiles make a 12000x12000 mosaic of the fill value. */
  lemma FillMosaic()
    ensures var m := Mosaic(MissingTile(), MissingTile(), MissingTile(), MissingTile());
      && m.Ok? && m.value.h == 2 * TileSize && m.value.w == 2 * TileSize
      && forall i, j :: 0 <= i < 2 * TileSize && 0 <= j < 2 * TileSize ==> m.value.px[i][j] == Num(NoData)
  {
    var t := MissingTile();
    var m := Mosaic(t, t, t, t);
    MosaicQuadrants(t, t, t, t, 0, 0);
    forall i, j | 0 <= i < 2 * TileSize && 0 <= j < 2 * TileSize
      ensures m.value.px[i][j] == Num(NoData)
    {
      var i0 := if i < TileSize then i else i - TileSize;
      var j0 := if j < TileSize then j else j - TileSize;
      MosaicQuadrants(t, t, t, t, i0, j0);
    }
  }

  /** Elevation statistics of one region; all NaN when nothing usable remains. */
  datatype ElevRecord = ElevRecord(height: Float, std: Float, mean: Float)

  const NaNRecord := ElevRecord(NaN, NaN, NaN)

  predicate HasNaN(px: seq<Float>)
  {
    exists i :: 0 <= i < |px| && px[i].NaN?
  }

  /** The finite values of a NaN-free array. */
  function Values(px: seq<Float>): (xs: seq<real>)
    requires !HasNaN(px)
    ensures |xs| == |px|
    ensures forall i :: 0 <= i < |px| ==> px[i] == Num(xs[i])
  {
    seq(|px|, i requires 0 <= i < |px| => px[i].v)
  }

  /** One region's statistics: `np.percentile` of an empty array raises; with a
      NaN anywhere both deciles are NaN, no comparison holds, and the trimmed
      set is empty; otherwise the median, population standard deviation and
      mean of the values within [p10, p90], or the NaN record when none is. */
  function ElevStats(px: seq<Float>, sqrt: real -> real): (r: Result<ElevRecord, MeritError>)
    ensures r.Err? <==> |px| == 0
    ensures r.Ok? && HasNaN(px) ==> r.value == NaNRecord
    ensures r.Ok? ==> (r.value.height.NaN? <==> r.value.mean.NaN?) && (r.value.height.NaN? <==> r.value.std.NaN?)
  {
    if |px| == 0 then Err(EmptyRegion)
    else if HasNaN(px) then Ok(NaNRecord)
    else
      var xs := Values(px);
      var t := DecileTrim(xs);
      if |t| == 0 then Ok(NaNRecord)
      else Ok(ElevRecord(Num(Median(t)), Num(sqrt(Variance(t))), Num(Mean(t))))
  }

  /** A finite height and mean come from a NaN-free region and lie between
      its 10th and 90th percentiles. */
  lemma ElevStatsWithinDeciles(px: seq<Float>, sqrt: real -> real)
    requires ElevStats(px, sqrt).Ok? && ElevStats(px, sqrt).value.height.Num?
    ensures !HasNaN(px)
    ensures P10(Values(px)) <= ElevStats(px, sqrt).value.height.v <= P90(Values(px))
    ensures P10(Values(px)) <= ElevStats(px, sqrt).value.mean.v <= P90(Values(px))
  {
    var t := DecileTrim(Values(px));
    MeanBounds(t);
  }

  /** Without NaN, a region of one pixel or of at least three has finite statistics. */
  lemma ElevStatsDefined(px: seq<Float>, sqrt: real -> real)
    requires !HasNaN(px) && (|px| == 1 || |px| >= 3)
    ensures ElevStats(px, sqrt).Ok? && ElevStats(px, sqrt).value.height.Num?
  {
    TrimNonEmpty(Values(px));
  }

  /** A region of exactly two different values loses both to the trim and gets the NaN record. */
  lemma ElevStatsTwoDistinct(px: seq<Float>, sqrt: real -> real)
    requires |px| == 2 && px[0].Num? && px[1].Num? && px[0] != px[1]
    ensures ElevStats(px, sqrt) == Ok(NaNRecord)
  {
    TrimTwoDistinct(Values(px));
  }

  /** A region lying wholly on missing tiles reports the fill value -9999 as its height. */
  lemma ElevStatsConstant(px: seq<Float>, c: real, sqrt: real -> real)
    requires |px| > 0 && forall i :: 0 <= i < |px| ==> px[i] == Num(c)
    ensures ElevStats(px, sqrt).Ok?
    ensures ElevStats(px, sqrt).value.height == Num(c) && ElevStats(px, sqrt).value.mean == Num(c)
  {
    assert !HasNaN(px);
    var xs := Values(px);
    ConstantTrim(xs, c);
    var t := DecileTrim(xs);
    ConstantCentre(t, c);
  }

  /** Trimming a constant array keeps something, and only that constant. */
  lemma ConstantTrim(xs: seq<real>, c: real)
    requires |xs| > 0 && forall i :: 0 <= i < |xs| ==> xs[i] == c
    ensures |DecileTrim(xs)| > 0
    ensures forall i :: 0 <= i < |DecileTrim(xs)| ==> DecileTrim(xs)[i] == c
  {
    var t := DecileTrim(xs);
    if |xs| == 2 {
      TrimTwoEqual(xs);
    } else {
      TrimNonEmpty(xs);
    }
    forall i | 0 <= i < |t|
      ensures t[i] == c
    {
      assert t[i] in xs;
    }
  }

  /** The median and mean of a constant array are that constant. */
  lemma ConstantCentre(t: seq<real>, c: real)
    requires |t| > 0 && forall i :: 0 <= i < |t| ==> t[i] == c
    ensures Median(t) == c && Mean(t) == c
  {
    MeanBounds(t);
    assert Min(t) == c && Max(t) == c;
  }

  /** The values of a run of per-item results, or the first error among them. */
  function Collect<T, E>(rs: seq<Result<T, E>>): (r: Result<seq<T>, E>)
    ensures r.Ok? ==> |r.value| == |rs|
    decreases |rs|
  {
    if rs == [] then Ok([])
    else
      var rest := Collect(rs[1..]);
      match rs[0]
      case Err(e) => Err(e)
      case Ok(first) =>
        match rest
        case Err(e) => Err(e)
        case Ok(more) => Ok([first] + more)
  }

  /** Collecting succeeds exactly when every item does, and otherwise reports
      the first failure. */
  lemma {:induction false} CollectOk<T, E>(rs: seq<Result<T, E>>)
    ensures Collect(rs).Ok? <==> forall i :: 0 <= i < |rs| ==> rs[i].Ok?
    ensures Collect(rs).Err? ==>
      exists i :: 0 <= i < |rs| && rs[i] == Err(Collect(rs).error) && (forall j :: 0 <= j < i ==> rs[j].Ok?)
    decreases |rs|
  {
    if rs != [] {
      CollectOk(rs[1..]);
      assert forall i :: 1 <= i < |rs| ==> rs[i] == rs[1..][i - 1];
      if rs[0].Ok? && Collect(rs[1..]).Err? {
        var i :| 0 <= i < |rs[1..]| && rs[1..][i] == Err(Collect(rs[1..]).error) && (forall j :: 0 <= j < i ==> rs[1..][j].Ok?);
        assert rs[i + 1] == Err(Collect(rs).error);
        forall j | 0 <= j < i + 1
          ensures rs[j].Ok?
        {
          if j > 0 {
            assert rs[j] == rs[1..][j - 1];
          }
        }
      }
    }
  }

  /** The `i`-th collected value is the `i`-th item's. */
  lemma {:induction false} CollectAt<T, E>(rs: seq<Result<T, E>>, i: nat)
    requires Collect(rs).Ok? && i < |rs|
    ensures Ok(Collect(rs).value[i]) == rs[i]
    decreases i
  {
    if i > 0 {
      assert rs[1..][i - 1] == rs[i];
      CollectAt(rs[1..], i - 1);
    }
  }

  /** `merit_heights`: one record per labelled region, in region order; the
      first empty region ends the loop with its error. */
  function RegionStats(regions: seq<seq<Float>>, sqrt: real -> real): (r: Result<seq<ElevRecord>, MeritError>)
    ensures r.Ok? ==> |r.value| == |regions|
  {
    Collect(seq(|regions|, i requires 0 <= i < |regions| => ElevStats(regions[i], sqrt)))
  }

  /** The lookup fails exactly when some labelled region is empty. */
  lemma RegionStatsOk(regions: seq<seq<Float>>, sqrt: real -> real)
    ensures RegionStats(regions, sqrt).Ok? <==> forall i :: 0 <= i < |regions| ==> |regions[i]| > 0
  {
    var rs := seq(|regions|, i requires 0 <= i < |regions| => ElevStats(regions[i], sqrt));
    CollectOk(rs);
    forall i | 0 <= i < |regions|
      ensures rs[i].Ok? <==> |regions[i]| > 0
    {
      assert rs[i] == ElevStats(regions[i], sqrt);
    }
  }

  /** The `i`-th record is the statistics of the `i`-th region. */
  lemma RegionStatsAt(regions: seq<seq<Float>>, sqrt: real -> real, i: nat)
    requires RegionStats(regions, sqrt).Ok? && i < |regions|
    ensures Ok(RegionStats(regions, sqrt).value[i]) == ElevStats(regions[i], sqrt)
  {
    var rs := seq(|regions|, i requires 0 <= i < |regions| => ElevStats(regions[i], sqrt));
    CollectAt(rs, i);
  }

  /** What `get_merit_heights_nov20` produces besides its records: the folder it
      changes into, and the caller's metadata dict as the call leaves it (the
      `lat == 0` fix-up writes 'S' into that dict, not into a copy). */
  datatype MeritOutput = MeritOutput(folder: string, records: seq<ElevRecord>, metadata: MaskMetadata.MaskMetadata)

  /** The pixel values of each labelled region of the resized mosaic. */
  function MosaicRegions(req: TileRequest, fileExists: string -> bool, read: string -> Raster,
                         resize: Raster -> Raster, regionValues: Raster -> seq<seq<Float>>): seq<seq<Float>>
    requires RequestMosaic(req, fileExists, read).Ok?
  {
    regionValues(resize(RequestMosaic(req, fileExists, read).value))
  }

  /** The whole lookup. The raster file system (`fileExists`, `read`), the
      nearest-neighbour `resize` and the labelled-region extraction of
      `regionprops` (`regionValues`, the pixel values of each labelled region in
      label order) are parameters. */
  function GetMeritHeights(md: MaskMetadata.MaskMetadata, fileExists: string -> bool, read: string -> Raster,
                           resize: Raster -> Raster, regionValues: Raster -> seq<seq<Float>>,
                           sqrt: real -> real): (r: Result<MeritOutput, MeritError>)
    ensures Resolve(md).Err? ==> r.Err? && r.error == Resolve(md).error
    ensures r.Ok? ==> Resolve(md).Ok? && r.value.folder == FolderName(Resolve(md).value)
    ensures r.Ok? ==> RequestMosaic(Resolve(md).value, fileExists, read).Ok?
    ensures r.Ok? ==> |r.value.records| == |MosaicRegions(Resolve(md).value, fileExists, read, resize, regionValues)|
    ensures r.Ok? ==> r.value.metadata == md.(ns := Some(Resolve(md).value.ns))
  {
    match Resolve(md)
    case Err(e) => Err(e)
    case Ok(req) =>
      match RequestMosaic(req, fileExists, read)
      case Err(e) => Err(e)
      case Ok(elev) =>
        var g := resize(elev);
        match RegionStats(regionValues(g), sqrt)
        case Err(e) => Err(e)
        case Ok(recs) =>
          var updated := if md.lat.value == 0 then md.(ns := Some('S')) else md;
          Ok(MeritOutput(FolderName(req), recs, updated))
  }

  /** The lookup succeeds exactly when the metadata resolves, the mosaic
      can be built and every labelled region has a pixel. */
  lemma GetMeritHeightsOk(md: MaskMetadata.MaskMetadata, fileExists: string -> bool, read: string -> Raster,
                          resize: Raster -> Raster, regionValues: Raster -> seq<seq<Float>>, sqrt: real -> real)
    ensures GetMeritHeights(md, fileExists, read, resize, regionValues, sqrt).Ok? <==>
      && Resolve(md).Ok?
      && RequestMosaic(Resolve(md).value, fileExists, read).Ok?
      && forall i :: 0 <= i < |MosaicRegions(Resolve(md).value, fileExists, read, resize, regionValues)| ==>
           |MosaicRegions(Resolve(md).value, fileExists, read, resize, regionValues)[i]| > 0
  {
    if Resolve(md).Ok? && RequestMosaic(Resolve(md).value, fileExists, read).Ok? {
      RegionStatsOk(MosaicRegions(Resolve(md).value, fileExists, read, resize, regionValues), sqrt);
    }
  }

  /** The `i`-th record is the statistics of the `i`-th labelled region of the resized mosaic. */
  lemma GetMeritHeightsRecords(md: MaskMetadata.MaskMetadata, fileExists: string -> bool, read: string -> Raster,
                               resize: Raster -> Raster, regionValues: Raster -> seq<seq<Float>>, sqrt: real -> real, i: nat)
    requires GetMeritHeights(md, fileExists, read, resize, regionValues, sqrt).Ok?
    requires i < |GetMeritHeights(md, fileExists, read, resize, regionValues, sqrt).value.records|
    ensures Ok(GetMeritHeights(md, fileExists, read, resize, regionValues, sqrt).value.records[i])
      == ElevStats(MosaicRegions(Resolve(md).value, fileExists, read, resize, regionValues)[i], sqrt)
  {
    RegionStatsAt(MosaicRegions(Resolve(md).value, fileExists, read, resize, regionValues), sqrt, i);
  }
}

=== FILE: organize.dfy ===
/** The aggregation of per-pass water entries into one record per water body
    (`organize_IS2_data`): grouping by label, the quality gate, the 3-sigma
    filter, the representative point, and the MERIT and geoid attachment. */
module Organize {
  import opened Base
  import opened Sorting
  import opened Stats
  import MaskLabeler
  import MeritHeights
  import WaterData

  /** Why aggregation stops: an `IndexError` on a per-region list, or on the
      raw arrays of an entry that has none. */
  datatype OrganizeError =
    | MissingLabel(maskId: int)
    | NoFootprints(maskId: int)

  // ---------------------------------------------------------------------------
  // Per-region lookups
  // ---------------------------------------------------------------------------

  /** The record of the region carrying `label`, found by its label. */
  function LookupByLabel<T>(labels: seq<int>, vals: seq<T>, key: int): (r: Option<T>)
    requires |labels| == |vals|
    ensures r.Some? <==> key in labels
    ensures r.Some? ==> exists k :: 0 <= k < |labels| && labels[k] == key && r.value == vals[k]
    decreases |labels|
  {
    if labels == [] then None
    else if labels[0] == key then Some(vals[0])
    else
      var r := LookupByLabel(labels[1..], vals[1..], key);
      assert forall k :: 1 <= k < |labels| ==> labels[1..][k - 1] == labels[k] && vals[1..][k - 1] == vals[k];
      assert key in labels[1..] <==> key in labels;
      r
  }

  function AttrLabel(a: MaskLabeler.Attributes): int { a.id as int }

  /** The labels of the per-region attribute records. */
  function AttrLabels(attrs: seq<MaskLabeler.Attributes>): (labels: seq<int>)
    ensures |labels| == |attrs|
    ensures forall k :: 0 <= k < |attrs| ==> labels[k] == attrs[k].id as int
  {
    Map(attrs, AttrLabel)
  }

  /** `lake_area[mask_id]`, `extent[mask_id]`, `goodd_res[mask_id]` and
      `merit_heights[mask_id]`: the raw label used as a position in a list
      that `regionprops` ordered by the labels present. */
  function LookupAsWritten<T>(vals: seq<T>, maskId: int): (r: T)
    requires 0 <= maskId < |vals|
    ensures r in vals
  {
    vals[maskId]
  }

  /** For a labelling whose labels are exactly 1..n (no label removed), the
      positional lookup of label `l` reads the record of label `l + 1`, while
      the lookup by label finds the record of `l` itself. */
  lemma PositionalLookupOffByOne(attrs: seq<MaskLabeler.Attributes>, key: int)
    requires forall k :: 0 <= k < |attrs| ==> attrs[k].id == k + 1
    requires 1 <= key < |attrs|
    ensures LookupAsWritten(attrs, key).id == key + 1
    ensures LookupByLabel(AttrLabels(attrs), attrs, key) == Some(attrs[key - 1])
    ensures LookupByLabel(AttrLabels(attrs), attrs, key).value.id == key
  {
    var labels := AttrLabels(attrs);
    assert labels[key - 1] == key;
    var r := LookupByLabel(labels, attrs, key);
    var k :| 0 <= k < |labels| && labels[k] == key && r.value == attrs[k];
    assert k == key - 1;
  }

  /** Two regions labelled 1 and 2: the positional lookup of body 1 returns
      the area of body 2; the largest label (2) is past the end of the list. */
  lemma PositionalLookupCounterexample()
    ensures var attrs := [MaskLabeler.Attributes(1, 0.5, 0.9, Num(1.0)), MaskLabeler.Attributes(2, 7.0, 0.4, NaN)];
      && LookupAsWritten(attrs, 1).lakeArea == 7.0
      && LookupByLabel(AttrLabels(attrs), attrs, 1) == Some(attrs[0])
      && LookupByLabel(AttrLabels(attrs), attrs, 1).value.lakeArea == 0.5
      && !(2 < |attrs|)
  {
    var attrs := [MaskLabeler.Attributes(1, 0.5, 0.9, Num(1.0)), MaskLabeler.Attributes(2, 7.0, 0.4, NaN)];
    PositionalLookupOffByOne(attrs, 1);
  }

  // ---------------------------------------------------------------------------
  // The gate and the candidate observations of one body
  // ---------------------------------------------------------------------------

  /** The quality gate: a tight, well-sampled pass at a plausible height. */
  predicate Passes(e: WaterData.Entry)
  {
    e.std < 0.25 && e.numPoints >= 3 && -15.0 < e.height < 8000.0
  }

  function MaskIdOf(e: WaterData.Entry): int { e.maskId }

  /** Some entry for body `id` passes the gate. */
  predicate HasPassing(water: seq<WaterData.Entry>, id: int)
  {
    exists e :: e in water && e.maskId == id && Passes(e)
  }

  /** The entries for body `id` that pass the gate, in input order. */
  function Passing(water: seq<WaterData.Entry>, id: int): (r: seq<WaterData.Entry>)
    ensures |r| <= |water|
    ensures forall e :: e in r <==> e in water && e.maskId == id && Passes(e)
    decreases |water|
  {
    if water == [] then []
    else
      var rest := Passing(water[1..], id);
      assert forall e :: e in water <==> e == water[0] || e in water[1..] by {
        assert water == [water[0]] + water[1..];
      }
      if water[0].maskId == id && Passes(water[0]) then [water[0]] + rest else rest
  }

  /** `result['flag']`: set as soon as one entry for the body passes. */
  function Flag(water: seq<WaterData.Entry>, id: int): (f: int)
    decreases |water|
  {
    if water == [] then 0
    else if water[0].maskId == id && Passes(water[0]) then 1
    else Flag(water[1..], id)
  }

  /** The flag is 0 or 1, and 1 exactly when some entry for the body passes,
      that is, exactly when there is something to aggregate. */
  lemma {:induction false} FlagIff(water: seq<WaterData.Entry>, id: int)
    ensures Flag(water, id) == 0 || Flag(water, id) == 1
    ensures Flag(water, id) == 1 <==> HasPassing(water, id)
    ensures Flag(water, id) == 1 <==> |Passing(water, id)| > 0
    decreases |water|
  {
    if water != [] {
      FlagIff(water[1..], id);
      assert forall e :: e in water <==> e == water[0] || e in water[1..] by {
        assert water == [water[0]] + water[1..];
      }
      var p := Passing(water, id);
      if |p| > 0 {
        assert p[0] in p;
      }
    }
  }

  // ---------------------------------------------------------------------------
  // The medoid
  // ---------------------------------------------------------------------------

  datatype Point = Point(x: real, y: real)

  function Footpoint(f: WaterData.Footprint): Point { Point(f.lon, f.lat) }

  /** An entry of `squareform(pdist(points))`: zero on the diagonal, the
      Euclidean distance elsewhere. */
  function Distance(pts: seq<Point>, i: nat, j: nat, sqrt: real -> real): real
    requires i < |pts| && j < |pts|
  {
    if i == j then 0.0
    else sqrt((pts[i].x - pts[j].x) * (pts[i].x - pts[j].x) + (pts[i].y - pts[j].y) * (pts[i].y - pts[j].y))
  }

  /** Row `i` of the distance matrix. */
  function Row(pts: seq<Point>, i: nat, sqrt: real -> real): (r: seq<real>)
    requires i < |pts|
    ensures |r| == |pts|
    ensures forall j :: 0 <= j < |pts| ==> r[j] == Distance(pts, i, j, sqrt)
  {
    seq(|pts|, j requires 0 <= j < |pts| => Distance(pts, i, j, sqrt))
  }

  /** `np.mean(squareform(D), axis=1)`. */
  function MeanDistances(pts: seq<Point>, sqrt: real -> real): (d: seq<real>)
    requires |pts| > 0
    ensures |d| == |pts|
    ensures forall i :: 0 <= i < |pts| ==> d[i] == Mean(Row(pts, i, sqrt))
  {
    seq(|pts|, i requires 0 <= i < |pts| => Mean(Row(pts, i, sqrt)))
  }

  /** `np.argmin(D_mean)`: the position of the medoid. */
  function Medoid(pts: seq<Point>, sqrt: real -> real): (k: nat)
    requires |pts| > 0
    ensures k < |pts|
    ensures |pts| == 1 ==> k == 0
  {
    ArgMin(MeanDistances(pts, sqrt))
  }

  /** The medoid has the least total distance to all points, and is the first
      point that does. */
  lemma MedoidMinimisesTotal(pts: seq<Point>, sqrt: real -> real)
    requires |pts| > 0
    ensures var k := Medoid(pts, sqrt);
      && (forall i :: 0 <= i < |pts| ==> Sum(Row(pts, k, sqrt)) <= Sum(Row(pts, i, sqrt)))
      && (forall i :: 0 <= i < k ==> Sum(Row(pts, k, sqrt)) < Sum(Row(pts, i, sqrt)))
  {
    var k := Medoid(pts, sqrt);
    var d := MeanDistances(pts, sqrt);
    var n := |pts| as real;
    forall i | 0 <= i < |pts|
      ensures Sum(Row(pts, k, sqrt)) <= Sum(Row(pts, i, sqrt))
      ensures i < k ==> Sum(Row(pts, k, sqrt)) < Sum(Row(pts, i, sqrt))
    {
      assert d[k] <= d[i];
      ScaleBack(Sum(Row(pts, k, sqrt)), Sum(Row(pts, i, sqrt)), n);
    }
  }

  /** Dividing by a positive count keeps order both ways. */
  lemma ScaleBack(a: real, b: real, n: real)
    requires n > 0.0
    ensures a / n <= b / n ==> a <= b
    ensures a / n < b / n ==> a < b
  {
    if a > b {
      assert a / n - b / n == (a - b) / n;
    }
    if a >= b {
      assert a / n - b / n == (a - b) / n;
    }
  }

  // ---------------------------------------------------------------------------
  // Observations
  // ---------------------------------------------------------------------------

  /** What one passing entry contributes: height, spread, representative
      point and date. */
  datatype Obs = Obs(height: real, std: real, pt: Point, doy: nat, month: int, year: int)

  function ObsHeight(o: Obs): real { o.height }
  function ObsStd(o: Obs): real { o.std }
  function ObsPoint(o: Obs): Point { o.pt }
  function ObsDoy(o: Obs): nat { o.doy }
  function ObsMonth(o: Obs): int { o.month }
  function ObsYear(o: Obs): int { o.year }

  /** One passing entry's observation: its point is the medoid of its raw
      footprints, so it is one of them. */
  function ObsOf(e: WaterData.Entry, sqrt: real -> real): (o: Obs)
    requires |e.raw| > 0
    ensures o.height == e.height && o.std == e.std
    ensures o.doy == e.ctx.doy && o.month == e.ctx.month && o.year == e.ctx.year
    ensures exists k :: 0 <= k < |e.raw| && o.pt == Footpoint(e.raw[k])
    ensures |e.raw| == 1 ==> o.pt == Footpoint(e.raw[0])
  {
    var pts := Map(e.raw, Footpoint);
    var k := Medoid(pts, sqrt);
    Obs(e.height, e.std, pts[k], e.ctx.doy, e.ctx.month, e.ctx.year)
  }

  /** The observations of a body's passing entries, in order. */
  function ObsList(ps: seq<WaterData.Entry>, sqrt: real -> real): (os: seq<Obs>)
    requires forall e :: e in ps ==> |e.raw| > 0
    ensures |os| == |ps|
    decreases |ps|
  {
    if ps == [] then []
    else
      assert ps[0] in ps;
      assert forall e :: e in ps[1..] ==> e in ps;
      var rest := ObsList(ps[1..], sqrt);
      [ObsOf(ps[0], sqrt)] + rest
  }

  /** The `k`-th observation is that of the `k`-th passing entry. */
  lemma {:induction false} ObsAt(ps: seq<WaterData.Entry>, sqrt: real -> real, k: nat)
    requires forall e :: e in ps ==> |e.raw| > 0
    requires k < |ps|
    ensures ObsList(ps, sqrt)[k] == ObsOf(ps[k], sqrt)
    decreases k
  {
    assert forall e :: e in ps[1..] ==> e in ps;
    if k > 0 {
      ObsAt(ps[1..], sqrt, k - 1);
    }
  }

  // ---------------------------------------------------------------------------
  // The 3-sigma filter
  // ---------------------------------------------------------------------------

  /** `IP`: heights within three population standard deviations of the mean,
      in squared form (the square root of the variance is `np.std`). */
  function ThreeSigmaMask(h: seq<real>): (keep: seq<bool>)
    requires |h| > 0
    ensures |keep| == |h|
    ensures forall i :: 0 <= i < |h| ==> (keep[i] <==> (h[i] - Mean(h)) * (h[i] - Mean(h)) <= 9.0 * Variance(h))
  {
    var m := Mean(h);
    var v := Variance(h);
    seq(|h|, i requires 0 <= i < |h| => (h[i] - m) * (h[i] - m) <= 9.0 * v)
  }

  /** With `sd` the standard deviation, the mask is the source's two-sided
      band `mean - 3*sd <= h <= mean + 3*sd`. */
  lemma ThreeSigmaBand(h: seq<real>, sd: real)
    requires |h| > 0 && sd >= 0.0 && sd * sd == Variance(h)
    ensures forall i :: 0 <= i < |h| ==>
      (ThreeSigmaMask(h)[i] <==> Mean(h) - 3.0 * sd <= h[i] <= Mean(h) + 3.0 * sd)
  {
    forall i | 0 <= i < |h|
      ensures ThreeSigmaMask(h)[i] <==> Mean(h) - 3.0 * sd <= h[i] <= Mean(h) + 3.0 * sd
    {
      SquareWithin(h[i] - Mean(h), 3.0 * sd);
      assert (3.0 * sd) * (3.0 * sd) == 9.0 * (sd * sd);
    }
  }

  /** `d*d <= c*c` exactly when `-c <= d <= c`, for `c >= 0`. */
  lemma SquareWithin(d: real, c: real)
    requires c >= 0.0
    ensures d * d <= c * c <==> -c <= d <= c
  {
    if d > c {
      assert d * d - c * c == (d - c) * (d + c);
      PosMul(d - c, d + c);
    } else if d < -c {
      var a, b := -c - d, c - d;
      PosMul(a, b);
      assert d * d - c * c == a * b;
    } else {
      assert c * c - d * d == (c - d) * (c + d);
      assert (c - d) * (c + d) >= 0.0 by {
        if c - d > 0.0 && c + d > 0.0 {
          PosMul(c - d, c + d);
        }
      }
    }
  }

  /** The filter never empties its input: some height lies within one
      standard deviation of the mean. */
  lemma ThreeSigmaKeepsOne(h: seq<real>)
    requires |h| > 0
    ensures exists k :: 0 <= k < |h| && ThreeSigmaMask(h)[k]
    ensures |Select(h, ThreeSigmaMask(h))| > 0
  {
    var m, v := Mean(h), Variance(h);
    var d := Devs(h, m);
    var k := SomeSquareBelowMean(d);
    var q := d[k] * d[k];
    assert q <= v by {
      var n := |h| as real;
      assert v == SumSq(d) / n;
      DivBounds(q, SumSq(d), SumSq(d) / n, n);
    }
    assert (h[k] - m) * (h[k] - m) == q;
    WithinOneSigmaKept(h, k);
    SelectNonEmpty(h, ThreeSigmaMask(h), k);
  }

  /** A height within one standard deviation of the mean is kept. */
  lemma WithinOneSigmaKept(h: seq<real>, k: nat)
    requires k < |h| && (h[k] - Mean(h)) * (h[k] - Mean(h)) <= Variance(h)
    ensures ThreeSigmaMask(h)[k]
  {
    var v := Variance(h);
    assert v <= 9.0 * v;
  }

  /** With at most ten heights nothing is removed: no value can lie more than
      `sqrt(n - 1)` population standard deviations from the mean. */
  lemma SmallSeriesKeepsAll(h: seq<real>)
    requires 0 < |h| <= 10
    ensures forall i :: 0 <= i < |h| ==> ThreeSigmaMask(h)[i]
    ensures Select(h, ThreeSigmaMask(h)) == h
  {
    forall i | 0 <= i < |h|
      ensures ThreeSigmaMask(h)[i]
    {
      SamuelsonNine(h, i);
    }
    SelectAll(h, ThreeSigmaMask(h));
  }

  /** Samuelson's bound at ten values or fewer: no squared deviation exceeds nine variances. */
  lemma SamuelsonNine(h: seq<real>, i: nat)
    requires |h| <= 10 && i < |h|
    ensures (h[i] - Mean(h)) * (h[i] - Mean(h)) <= 9.0 * Variance(h)
  {
    var d, m, v := h[i] - Mean(h), (|h| - 1) as real, Variance(h);
    Samuelson(h, i);
    assert d * d <= m * v;
    NineBound(d, m, v);
  }

  /** `d*d <= (n-1)*v` with `n - 1 <= 9` and `v >= 0` gives `d*d <= 9*v`. */
  lemma NineBound(d: real, m: real, v: real)
    requires m <= 9.0 && v >= 0.0 && d * d <= m * v
    ensures d * d <= 9.0 * v
  {
    ScaleLe(m, 9.0, v);
  }

  lemma ScaleLe(a: real, b: real, v: real)
    requires a <= b && v >= 0.0
    ensures a * v <= b * v
  {
    assert b * v - a * v == (b - a) * v;
  }

  /** Five heights with one far outlier: the outlier is kept. */
  lemma FiveHeightsKeepOutlier()
    ensures ThreeSigmaMask([10.0, 10.2, 9.8, 10.1, 50.0])[4]
    ensures Select([10.0, 10.2, 9.8, 10.1, 50.0], ThreeSigmaMask([10.0, 10.2, 9.8, 10.1, 50.0])) == [10.0, 10.2, 9.8, 10.1, 50.0]
  {
    SmallSeriesKeepsAll([10.0, 10.2, 9.8, 10.1, 50.0]);
  }

  // ---------------------------------------------------------------------------
  // One body's summary
  // ---------------------------------------------------------------------------

  /** A body's record before the MERIT and geoid fields are attached. */
  datatype Summary = Summary(
    maskId: int, area: real, extent: real, gooddRes: Float,
    medHeight: real, meanHeight: real, heightRange: real, std: real, lon: real, lat: real,
    heights: seq<real>, stds: seq<real>, doys: seq<nat>, months: seq<int>, years: seq<int>, numObs: nat)

  /** The surviving observations of the 3-sigma filter. */
  function Survivors(obs: seq<Obs>): (kept: seq<Obs>)
    requires |obs| > 0
    ensures 0 < |kept| <= |obs|
    ensures forall o :: o in kept ==> o in obs
    ensures Map(kept, ObsHeight) == Select(Map(obs, ObsHeight), ThreeSigmaMask(Map(obs, ObsHeight)))
    ensures |obs| <= 10 ==> kept == obs
  {
    var hs := Map(obs, ObsHeight);
    var keep := ThreeSigmaMask(hs);
    ThreeSigmaKeepsOne(hs);
    SelectMap(obs, keep, ObsHeight);
    assert |obs| <= 10 ==> Select(obs, keep) == obs by {
      if |obs| <= 10 {
        SmallSeriesKeepsAll(hs);
        SelectAll(obs, keep);
      }
    }
    Select(obs, keep)
  }

  /** The representative point: the medoid of the survivors' points, or the
      only one. */
  function Representative(kept: seq<Obs>, sqrt: real -> real): (p: Point)
    requires |kept| > 0
    ensures exists k :: 0 <= k < |kept| && p == kept[k].pt
    ensures |kept| == 1 ==> p == kept[0].pt
  {
    if |kept| > 1 then kept[Medoid(Map(kept, ObsPoint), sqrt)].pt else kept[0].pt
  }

  /** The statistics of the surviving observations of one flagged body. */
  function SummaryOf(id: int, attr: MaskLabeler.Attributes, obs: seq<Obs>, sqrt: real -> real): (s: Summary)
    requires |obs| > 0
    ensures s.maskId == id && s.area == attr.lakeArea && s.extent == attr.extent && s.gooddRes == attr.gooddRes
  {
    var kept := Survivors(obs);
    var kh := Map(kept, ObsHeight);
    var p := Representative(kept, sqrt);
    Summary(id, attr.lakeArea, attr.extent, attr.gooddRes,
            Median(kh), Mean(kh), Max(kh) - Min(kh), Mean(Map(kept, ObsStd)), p.x, p.y,
            kh, Map(kept, ObsStd), Map(kept, ObsDoy), Map(kept, ObsMonth), Map(kept, ObsYear), |kept|)
  }

  /** The summary's lists are parallel, one entry per survivor, and nothing
      is dropped from ten passes or fewer. */
  lemma SummaryCounts(id: int, attr: MaskLabeler.Attributes, obs: seq<Obs>, sqrt: real -> real, s: Summary)
    requires |obs| > 0 && s == SummaryOf(id, attr, obs, sqrt)
    ensures 1 <= s.numObs <= |obs|
    ensures s.numObs == |s.heights| == |s.stds| == |s.doys| == |s.months| == |s.years|
    ensures |obs| <= 10 ==> s.numObs == |obs|
  {
    var kept := Survivors(obs);
    assert s.numObs == |kept|;
  }

  /** The median and mean lie within the surviving heights, the range is
      non-negative, and every surviving height is an observed one. */
  lemma SummaryHeights(id: int, attr: MaskLabeler.Attributes, obs: seq<Obs>, sqrt: real -> real, s: Summary)
    requires |obs| > 0 && s == SummaryOf(id, attr, obs, sqrt)
    ensures |s.heights| > 0 && Min(s.heights) <= s.medHeight <= Max(s.heights)
    ensures |s.heights| > 0 && Min(s.heights) <= s.meanHeight <= Max(s.heights)
    ensures s.heightRange >= 0.0
    ensures forall x :: x in s.heights ==> x in Map(obs, ObsHeight)
  {
    var kept := Survivors(obs);
    var kh := Map(kept, ObsHeight);
    assert s.heights == kh && s.meanHeight == Mean(kh);
    MeanBounds(kh);
    forall x | x in kh
      ensures x in Map(obs, ObsHeight)
    {
      var j :| 0 <= j < |kh| && kh[j] == x;
      assert kept[j] in obs;
      var t :| 0 <= t < |obs| && obs[t] == kept[j];
      assert Map(obs, ObsHeight)[t] == x;
    }
  }

  /** The representative point is the point of one of the observations. */
  lemma SummaryPoint(id: int, attr: MaskLabeler.Attributes, obs: seq<Obs>, sqrt: real -> real, s: Summary)
    requires |obs| > 0 && s == SummaryOf(id, attr, obs, sqrt)
    ensures exists k :: 0 <= k < |obs| && Point(s.lon, s.lat) == obs[k].pt
  {
    var kept := Survivors(obs);
    var p := Representative(kept, sqrt);
    assert Point(s.lon, s.lat) == p;
    var j :| 0 <= j < |kept| && p == kept[j].pt;
    assert kept[j] in obs;
    var t :| 0 <= t < |obs| && obs[t] == kept[j];
  }

  // ---------------------------------------------------------------------------
  // The loop over bodies
  // ---------------------------------------------------------------------------

  /** Does some passing entry for the body have no raw footprints? */
  predicate SomeEmptyRaw(ps: seq<WaterData.Entry>)
  {
    exists e :: e in ps && |e.raw| == 0
  }

  /** A flagged body waiting for its statistics: its attributes and its
      passing entries. */
  datatype Pending = Pending(id: int, attr: MaskLabeler.Attributes, ps: seq<WaterData.Entry>)

  /** Something to aggregate, and every raw array non-empty. */
  predicate Ready(p: Pending)
  {
    |p.ps| > 0 && forall e :: e in p.ps ==> |e.raw| > 0
  }

  /** One body: the attribute lookup, then its passing entries; `None` when
      nothing passes (the flag stays 0 and the record is dropped). */
  function Candidate(water: seq<WaterData.Entry>, id: int, attrs: seq<MaskLabeler.Attributes>)
    : (r: Result<Option<Pending>, OrganizeError>)
    ensures r == Err(MissingLabel(id)) <==> id !in AttrLabels(attrs)
    ensures r == Err(NoFootprints(id)) <==> id in AttrLabels(attrs) && SomeEmptyRaw(Passing(water, id))
    ensures r.Err? ==> r == Err(MissingLabel(id)) || r == Err(NoFootprints(id))
    ensures r.Ok? ==> (r.value.Some? <==> Flag(water, id) == 1)
    ensures r.Ok? && r.value.Some? ==>
      r.value.value.id == id && r.value.value.ps == Passing(water, id) && Ready(r.value.value)
    ensures r.Ok? && r.value.Some? ==>
      exists k :: 0 <= k < |attrs| && attrs[k].id as int == id && r.value.value.attr == attrs[k]
  {
    FlagIff(water, id);
    match LookupByLabel(AttrLabels(attrs), attrs, id)
    case None => Err(MissingLabel(id))
    case Some(attr) =>
      var ps := Passing(water, id);
      if SomeEmptyRaw(ps) then Err(NoFootprints(id))
      else if |ps| == 0 then Ok(None)
      else Ok(Some(Pending(id, attr, ps)))
  }

  /** The bodies in the given order; the first failing lookup ends the loop. */
  function Candidates(ids: seq<int>, water: seq<WaterData.Entry>, attrs: seq<MaskLabeler.Attributes>)
    : (r: Result<seq<Pending>, OrganizeError>)
    ensures r.Ok? ==> |r.value| <= |ids|
    decreases |ids|
  {
    if ids == [] then Ok([])
    else
      assert forall x :: x in ids <==> x == ids[0] || x in ids[1..] by {
        assert ids == [ids[0]] + ids[1..];
      }
      match Candidate(water, ids[0], attrs)
      case Err(e) => Err(e)
      case Ok(c) =>
        match Candidates(ids[1..], water, attrs)
        case Err(e) => Err(e)
        case Ok(rest) =>
          if c.Some? then
            var all := [c.value] + rest;
            Ok(all)
          else Ok(rest)
  }

  /** Each pending body is flagged and ready to summarise. */
  lemma CandidatesReady(ids: seq<int>, water: seq<WaterData.Entry>, attrs: seq<MaskLabeler.Attributes>,
                        ps: seq<Pending>)
    requires Candidates(ids, water, attrs) == Ok(ps)
    ensures forall k :: 0 <= k < |ps| ==> ps[k].id in ids && Flag(water, ps[k].id) == 1 && Ready(ps[k])
    ensures forall k :: 0 <= k < |ps| ==> ps[k].ps == Passing(water, ps[k].id)
  {
    forall k | 0 <= k < |ps|
      ensures ps[k].id in ids && Flag(water, ps[k].id) == 1 && Ready(ps[k])
      ensures ps[k].ps == Passing(water, ps[k].id)
    {
      CandidatesFrom(ids, water, attrs, ps);
      assert Candidate(water, ps[k].id, attrs) == Ok(Some(ps[k]));
    }
  }

  /** One step of the loop over bodies: the first body's candidate is found
      and either heads the pending bodies or is skipped. */
  lemma CandidatesCons(ids: seq<int>, water: seq<WaterData.Entry>, attrs: seq<MaskLabeler.Attributes>,
                       ps: seq<Pending>) returns (rest: seq<Pending>)
    requires ids != [] && Candidates(ids, water, attrs) == Ok(ps)
    ensures Candidates(ids[1..], water, attrs) == Ok(rest)
    ensures Candidate(water, ids[0], attrs).Ok?
    ensures Candidate(water, ids[0], attrs).value.None? ==> ps == rest
    ensures Candidate(water, ids[0], attrs).value.Some? ==>
      ps == [Candidate(water, ids[0], attrs).value.value] + rest && ps[0].id == ids[0]
  {
    rest := Candidates(ids[1..], water, attrs).value;
  }

  /** The loop succeeds exactly when every body's lookup does, and a failure
      is the first failing body's error. */
  lemma {:induction false} CandidatesOkIff(ids: seq<int>, water: seq<WaterData.Entry>,
                                           attrs: seq<MaskLabeler.Attributes>)
    ensures Candidates(ids, water, attrs).Ok? <==> forall id :: id in ids ==> Candidate(water, id, attrs).Ok?
    ensures Candidates(ids, water, attrs).Err? ==>
      exists id :: id in ids && Candidate(water, id, attrs) == Err(Candidates(ids, water, attrs).error)
    decreases |ids|
  {
    if ids != [] {
      CandidatesOkIff(ids[1..], water, attrs);
      assert forall x :: x in ids <==> x == ids[0] || x in ids[1..] by {
        assert ids == [ids[0]] + ids[1..];
      }
    }
  }

  /** Each pending body is the candidate of one of the given labels. */
  lemma {:induction false} CandidatesFrom(ids: seq<int>, water: seq<WaterData.Entry>,
                                          attrs: seq<MaskLabeler.Attributes>, ps: seq<Pending>)
    requires Candidates(ids, water, attrs) == Ok(ps)
    ensures forall k :: 0 <= k < |ps| ==>
      ps[k].id in ids && Candidate(water, ps[k].id, attrs) == Ok(Some(ps[k]))
    decreases |ids|
  {
    if ids != [] {
      var rest := CandidatesCons(ids, water, attrs, ps);
      CandidatesFrom(ids[1..], water, attrs, rest);
      forall k | 0 <= k < |ps|
        ensures ps[k].id in ids && Candidate(water, ps[k].id, attrs) == Ok(Some(ps[k]))
      {
        if ps == rest || k > 0 {
          var t := if ps == rest then k else k - 1;
          assert ps[k] == rest[t];
          assert ps[k].id in ids[1..];
        }
      }
    }
  }

  /** A body below every later one, put in front of ascending bodies. */
  lemma ConsAscending(p: Pending, rest: seq<Pending>, ps: seq<Pending>)
    requires ps == [p] + rest
    requires forall k :: 0 <= k < |rest| ==> p.id < rest[k].id
    requires forall i, j :: 0 <= i < j < |rest| ==> rest[i].id < rest[j].id
    ensures forall i, j :: 0 <= i < j < |ps| ==> ps[i].id < ps[j].id
  {
    forall i, j | 0 <= i < j < |ps|
      ensures ps[i].id < ps[j].id
    {
      assert ps[j] == rest[j - 1];
      if i > 0 {
        assert ps[i] == rest[i - 1];
      }
    }
  }

  /** The first label is below every label drawn from the rest. */
  lemma HeadBelowRest(ids: seq<int>, rest: seq<Pending>, first: int)
    requires StrictlyIncreasing(ids) && ids != [] && first == ids[0]
    requires forall k :: 0 <= k < |rest| ==> rest[k].id in ids[1..]
    ensures forall k :: 0 <= k < |rest| ==> first < rest[k].id
  {
    forall k | 0 <= k < |rest|
      ensures first < rest[k].id
    {
      assert rest[k].id in ids[1..];
      var t :| 0 <= t < |ids[1..]| && ids[1..][t] == rest[k].id;
      assert ids[t + 1] == rest[k].id;
    }
  }

  /** Ascending labels give ascending pending bodies. */
  lemma {:induction false} CandidatesAscending(ids: seq<int>, water: seq<WaterData.Entry>,
                                               attrs: seq<MaskLabeler.Attributes>, ps: seq<Pending>)
    requires Candidates(ids, water, attrs) == Ok(ps)
    requires StrictlyIncreasing(ids)
    ensures forall i, j :: 0 <= i < j < |ps| ==> ps[i].id < ps[j].id
    decreases |ids|
  {
    if ids != [] {
      var rest := CandidatesCons(ids, water, attrs, ps);
      assert StrictlyIncreasing(ids[1..]);
      CandidatesAscending(ids[1..], water, attrs, rest);
      if ps != rest {
        CandidatesFrom(ids[1..], water, attrs, rest);
        HeadBelowRest(ids, rest, ps[0].id);
        ConsAscending(ps[0], rest, ps);
      }
    }
  }

  /** The flagged body at position `i` of the labels gets a pending entry. */
  lemma {:induction false} CandidatesAt(ids: seq<int>, water: seq<WaterData.Entry>,
                                        attrs: seq<MaskLabeler.Attributes>, ps: seq<Pending>, i: nat)
    requires Candidates(ids, water, attrs) == Ok(ps)
    requires i < |ids| && Flag(water, ids[i]) == 1
    ensures exists k :: 0 <= k < |ps| && ps[k].id == ids[i]
    decreases i
  {
    var rest := CandidatesCons(ids, water, attrs, ps);
    if i > 0 {
      assert ids[1..][i - 1] == ids[i];
      CandidatesAt(ids[1..], water, attrs, rest, i - 1);
      var k :| 0 <= k < |rest| && rest[k].id == ids[i];
      if ps != rest {
        assert ps[k + 1] == rest[k];
      }
    }
  }

  /** Every flagged body gets a pending entry. */
  lemma CandidatesComplete(ids: seq<int>, water: seq<WaterData.Entry>,
                           attrs: seq<MaskLabeler.Attributes>, ps: seq<Pending>, id: int)
    requires Candidates(ids, water, attrs) == Ok(ps)
    requires id in ids && Flag(water, id) == 1
    ensures exists k :: 0 <= k < |ps| && ps[k].id == id
  {
    var i :| 0 <= i < |ids| && ids[i] == id;
    CandidatesAt(ids, water, attrs, ps, i);
  }

  /** The statistics of one flagged body. */
  function SummaryOfPending(p: Pending, sqrt: real -> real): (s: Summary)
    requires Ready(p)
    ensures s.maskId == p.id
  {
    SummaryOf(p.id, p.attr, ObsList(p.ps, sqrt), sqrt)
  }

  /** The statistics of every flagged body, in order. */
  function Summarize(ps: seq<Pending>, sqrt: real -> real): (ss: seq<Summary>)
    requires forall k :: 0 <= k < |ps| ==> Ready(ps[k])
    ensures |ss| == |ps|
    decreases |ps|
  {
    if ps == [] then []
    else
      var rest := Summarize(ps[1..], sqrt);
      [SummaryOfPending(ps[0], sqrt)] + rest
  }

  /** The `k`-th summary is that of the `k`-th flagged body. */
  lemma {:induction false} SummarizeAt(ps: seq<Pending>, sqrt: real -> real, k: nat)
    requires forall k :: 0 <= k < |ps| ==> Ready(ps[k])
    requires k < |ps|
    ensures Summarize(ps, sqrt)[k] == SummaryOfPending(ps[k], sqrt)
    decreases k
  {
    if k > 0 {
      SummarizeAt(ps[1..], sqrt, k - 1);
    }
  }

  /** Summarising keeps each body's label in place. */
  lemma SummarizeIds(ps: seq<Pending>, sqrt: real -> real, ss: seq<Summary>)
    requires forall k :: 0 <= k < |ps| ==> Ready(ps[k])
    requires ss == Summarize(ps, sqrt)
    ensures |ss| == |ps| && forall k :: 0 <= k < |ps| ==> ss[k].maskId == ps[k].id
  {
    forall k | 0 <= k < |ps|
      ensures ss[k].maskId == ps[k].id
    {
      SummarizeAt(ps, sqrt, k);
    }
  }

  // ---------------------------------------------------------------------------
  // MERIT and geoid
  // ---------------------------------------------------------------------------

  /** `lons[lons < 0] += 360`: longitudes into [0, 360). */
  function NormalizeLon(lon: real): (r: real)
    ensures r == lon || r == lon + 360.0
    ensures -360.0 <= lon ==> 0.0 <= r
    ensures lon < 360.0 ==> r < 360.0
  {
    if lon < 0.0 then lon + 360.0 else lon
  }

  /** Longitudes already in [0, 360) are left alone, so shifting twice is
      shifting once. */
  lemma NormalizeLonIdempotent(lon: real)
    requires -360.0 <= lon < 360.0
    ensures NormalizeLon(NormalizeLon(lon)) == NormalizeLon(lon)
    ensures 0.0 <= lon ==> NormalizeLon(lon) == lon
  {
  }

  /** `geoidheight_batch`: the stub returns a zero offset for every point. */
  function GeoidOffsets(lats: seq<real>, lons: seq<real>): (r: seq<real>)
    requires |lats| == |lons|
    ensures |r| == |lats|
    ensures forall i :: 0 <= i < |r| ==> r[i] == 0.0
  {
    seq(|lats|, i requires 0 <= i < |lats| => 0.0)
  }

  /** `merit['height'] + offset` on a float that may be NaN. */
  function AddOffset(f: Float, off: real): (r: Float)
    ensures r.NaN? <==> f.NaN?
    ensures f.Num? ==> r.v - f.v == off
  {
    match f
    case NaN => NaN
    case Num(v) => Num(v + off)
  }

  /** An output record: the summary and the MERIT fields. */
  datatype Record = Record(s: Summary, meritHeight: Float, meritStd: Float, geoidOffset: real)

  function SummaryLat(s: Summary): real { s.lat }
  function SummaryLon(s: Summary): real { s.lon }

  /** The MERIT lookup for each summary, with its geoid offset. `meritLabels`
      are the labels of the regions `merit` was computed from. */
  function AttachFrom(ss: seq<Summary>, offs: seq<real>, merit: seq<MeritHeights.ElevRecord>,
                      meritLabels: seq<int>): (r: Result<seq<Record>, OrganizeError>)
    requires |offs| == |ss| && |meritLabels| == |merit|
    ensures r.Ok? <==> forall k :: 0 <= k < |ss| ==> ss[k].maskId in meritLabels
    ensures r.Ok? ==> |r.value| == |ss|
    ensures r.Ok? ==> forall k :: 0 <= k < |ss| ==>
      && r.value[k].s == ss[k] && r.value[k].geoidOffset == offs[k]
      && exists j :: 0 <= j < |merit| && meritLabels[j] == ss[k].maskId
           && r.value[k].meritHeight == AddOffset(merit[j].height, offs[k]) && r.value[k].meritStd == merit[j].std
    decreases |ss|
  {
    if ss == [] then Ok([])
    else
      assert forall k :: 1 <= k < |ss| ==> ss[1..][k - 1] == ss[k] && offs[1..][k - 1] == offs[k];
      match LookupByLabel(meritLabels, merit, ss[0].maskId)
      case None => Err(MissingLabel(ss[0].maskId))
      case Some(m) =>
        match AttachFrom(ss[1..], offs[1..], merit, meritLabels)
        case Err(e) => Err(e)
        case Ok(rest) =>
          var all := [Record(ss[0], AddOffset(m.height, offs[0]), m.std, offs[0])] + rest;
          assert forall k :: 1 <= k < |all| ==> all[k] == rest[k - 1];
          Ok(all)
  }

  /** The final pass over the flagged records: negative longitudes shifted for
      the geoid lookup, then the MERIT height plus offset. */
  function Attach(ss: seq<Summary>, merit: seq<MeritHeights.ElevRecord>, meritLabels: seq<int>)
    : (r: Result<seq<Record>, OrganizeError>)
    requires |meritLabels| == |merit|
    ensures r.Ok? <==> forall k :: 0 <= k < |ss| ==> ss[k].maskId in meritLabels
    ensures r.Ok? ==> |r.value| == |ss|
    ensures r.Ok? ==> forall k :: 0 <= k < |ss| ==>
      && r.value[k].s == ss[k] && r.value[k].geoidOffset == 0.0
      && exists j :: 0 <= j < |merit| && meritLabels[j] == ss[k].maskId
           && r.value[k].meritHeight == merit[j].height && r.value[k].meritStd == merit[j].std
  {
    var offs := GeoidOffsets(Map(ss, SummaryLat), Map(Map(ss, SummaryLon), NormalizeLon));
    var r := AttachFrom(ss, offs, merit, meritLabels);
    assert forall f :: AddOffset(f, 0.0) == f;
    r
  }

  // ---------------------------------------------------------------------------
  // The whole aggregation
  // ---------------------------------------------------------------------------

  /** `organize_IS2_data`, with the per-region lists looked up by label. */
  function OrganizeData(water: seq<WaterData.Entry>, merit: seq<MeritHeights.ElevRecord>, meritLabels: seq<int>,
                        attrs: seq<MaskLabeler.Attributes>, sqrt: real -> real): (r: Result<seq<Record>, OrganizeError>)
    requires |meritLabels| == |merit|
  {
    var ids := Unique(Map(water, MaskIdOf));
    match Candidates(ids, water, attrs)
    case Err(e) => Err(e)
    case Ok(ps) =>
      CandidatesReady(ids, water, attrs, ps);
      Attach(Summarize(ps, sqrt), merit, meritLabels)
  }

  /** Every entry's label is among the labels gathered from the entries. */
  lemma WaterIdsCover(water: seq<WaterData.Entry>, ids: seq<int>)
    requires ids == Unique(Map(water, MaskIdOf))
    ensures forall e :: e in water ==> e.maskId in ids
  {
    forall e | e in water
      ensures e.maskId in ids
    {
      var t :| 0 <= t < |water| && water[t] == e;
      assert Map(water, MaskIdOf)[t] == e.maskId;
    }
  }

  /** Every gathered label is some entry's label. */
  lemma WaterIdsFrom(water: seq<WaterData.Entry>, ids: seq<int>)
    requires ids == Unique(Map(water, MaskIdOf))
    ensures forall id :: id in ids ==> exists e :: e in water && e.maskId == id
  {
    forall id | id in ids
      ensures exists e :: e in water && e.maskId == id
    {
      var t :| 0 <= t < |water| && Map(water, MaskIdOf)[t] == id;
      assert water[t] in water;
    }
  }

  /** The aggregation in its two stages: the pending bodies, then one record
      per pending body, failing when a pending body has no MERIT record. */
  lemma OrganizeStages(water: seq<WaterData.Entry>, merit: seq<MeritHeights.ElevRecord>, meritLabels: seq<int>,
                       attrs: seq<MaskLabeler.Attributes>, sqrt: real -> real, r: Result<seq<Record>, OrganizeError>)
    returns (ps: seq<Pending>)
    requires |meritLabels| == |merit|
    requires r == OrganizeData(water, merit, meritLabels, attrs, sqrt)
    ensures Candidates(Unique(Map(water, MaskIdOf)), water, attrs).Err? ==>
      r == Err(Candidates(Unique(Map(water, MaskIdOf)), water, attrs).error)
    ensures Candidates(Unique(Map(water, MaskIdOf)), water, attrs).Ok? ==>
      && Candidates(Unique(Map(water, MaskIdOf)), water, attrs) == Ok(ps)
      && (r.Ok? <==> forall k :: 0 <= k < |ps| ==> ps[k].id in meritLabels)
    ensures r.Ok? ==> |r.value| == |ps| && forall k :: 0 <= k < |ps| ==> r.value[k].s.maskId == ps[k].id
  {
    var ids := Unique(Map(water, MaskIdOf));
    var c := Candidates(ids, water, attrs);
    if c.Ok? {
      ps := c.value;
      CandidatesReady(ids, water, attrs, ps);
      var ss := Summarize(ps, sqrt);
      SummarizeIds(ps, sqrt, ss);
      assert r == Attach(ss, merit, meritLabels);
    } else {
      ps := [];
    }
  }

  /** The first stage fails exactly when some entry's body has no attribute
      record or some passing entry has no raw footprints. */
  lemma WaterCandidates(water: seq<WaterData.Entry>, attrs: seq<MaskLabeler.Attributes>, ids: seq<int>)
    requires ids == Unique(Map(water, MaskIdOf))
    ensures Candidates(ids, water, attrs).Ok? <==>
      && (forall e :: e in water ==> e.maskId in AttrLabels(attrs))
      && (forall e :: e in water && Passes(e) ==> |e.raw| > 0)
  {
    WaterIdsCover(water, ids);
    WaterIdsFrom(water, ids);
    CandidatesOkIff(ids, water, attrs);
    if Candidates(ids, water, attrs).Ok? {
      forall e | e in water && Passes(e)
        ensures |e.raw| > 0
      {
        assert Candidate(water, e.maskId, attrs).Ok?;
        assert e in Passing(water, e.maskId);
      }
      forall e | e in water
        ensures e.maskId in AttrLabels(attrs)
      {
        assert Candidate(water, e.maskId, attrs).Ok?;
      }
    } else {
      var id :| id in ids && Candidate(water, id, attrs).Err?;
      if id in AttrLabels(attrs) {
        var e :| e in Passing(water, id) && |e.raw| == 0;
      }
    }
  }

  /** Every pending body has a MERIT record exactly when every body with a
      passing entry does. */
  lemma PendingMerit(ids: seq<int>, water: seq<WaterData.Entry>, attrs: seq<MaskLabeler.Attributes>,
                     ps: seq<Pending>, meritLabels: seq<int>)
    requires forall e :: e in water ==> e.maskId in ids
    requires Candidates(ids, water, attrs) == Ok(ps)
    ensures (forall k :: 0 <= k < |ps| ==> ps[k].id in meritLabels) <==>
            (forall e :: e in water && Passes(e) ==> e.maskId in meritLabels)
  {
    CandidatesReady(ids, water, attrs, ps);
    if forall k :: 0 <= k < |ps| ==> ps[k].id in meritLabels {
      forall e | e in water && Passes(e)
        ensures e.maskId in meritLabels
      {
        FlagIff(water, e.maskId);
        CandidatesComplete(ids, water, attrs, ps, e.maskId);
      }
    } else {
      var k :| 0 <= k < |ps| && ps[k].id !in meritLabels;
      FlagIff(water, ps[k].id);
    }
  }

  /** Which runs fail: a body with no attribute record, a passing entry with
      no raw footprints, or a flagged body with no MERIT record. */
  lemma OrganizeErrors(water: seq<WaterData.Entry>, merit: seq<MeritHeights.ElevRecord>, meritLabels: seq<int>,
                       attrs: seq<MaskLabeler.Attributes>, sqrt: real -> real, r: Result<seq<Record>, OrganizeError>)
    requires |meritLabels| == |merit|
    requires r == OrganizeData(water, merit, meritLabels, attrs, sqrt)
    ensures r.Ok? <==>
      && (forall e :: e in water ==> e.maskId in AttrLabels(attrs))
      && (forall e :: e in water && Passes(e) ==> |e.raw| > 0 && e.maskId in meritLabels)
  {
    var ids := Unique(Map(water, MaskIdOf));
    var ps := OrganizeStages(water, merit, meritLabels, attrs, sqrt, r);
    WaterIdsCover(water, ids);
    WaterCandidates(water, attrs, ids);
    if Candidates(ids, water, attrs).Ok? {
      PendingMerit(ids, water, attrs, ps, meritLabels);
    }
  }

  /** Records come in ascending label order. */
  lemma OrganizeAscending(water: seq<WaterData.Entry>, merit: seq<MeritHeights.ElevRecord>, meritLabels: seq<int>,
                          attrs: seq<MaskLabeler.Attributes>, sqrt: real -> real, r: Result<seq<Record>, OrganizeError>)
    requires |meritLabels| == |merit|
    requires r == OrganizeData(water, merit, meritLabels, attrs, sqrt)
    ensures r.Ok? ==> forall i, j :: 0 <= i < j < |r.value| ==> r.value[i].s.maskId < r.value[j].s.maskId
  {
    var ids := Unique(Map(water, MaskIdOf));
    var ps := OrganizeStages(water, merit, meritLabels, attrs, sqrt, r);
    if r.Ok? {
      CandidatesAscending(ids, water, attrs, ps);
    }
  }

  /** Every body with a passing entry has a pending body. */
  lemma CandidatesFlagged(ids: seq<int>, water: seq<WaterData.Entry>, attrs: seq<MaskLabeler.Attributes>,
                          ps: seq<Pending>)
    requires forall e :: e in water ==> e.maskId in ids
    requires Candidates(ids, water, attrs) == Ok(ps)
    ensures forall e :: e in water && Passes(e) ==> exists k :: 0 <= k < |ps| && ps[k].id == e.maskId
  {
    forall e | e in water && Passes(e)
      ensures exists k :: 0 <= k < |ps| && ps[k].id == e.maskId
    {
      FlagIff(water, e.maskId);
      CandidatesComplete(ids, water, attrs, ps, e.maskId);
    }
  }

  /** Records that follow the pending bodies one for one are all for bodies
      with a passing entry. */
  lemma RecordsFlagged(ids: seq<int>, water: seq<WaterData.Entry>, attrs: seq<MaskLabeler.Attributes>,
                       ps: seq<Pending>, rs: seq<Record>)
    requires Candidates(ids, water, attrs) == Ok(ps)
    requires |rs| == |ps| && forall k :: 0 <= k < |ps| ==> rs[k].s.maskId == ps[k].id
    ensures forall k :: 0 <= k < |rs| ==> HasPassing(water, rs[k].s.maskId)
  {
    CandidatesReady(ids, water, attrs, ps);
    forall k | 0 <= k < |rs|
      ensures HasPassing(water, rs[k].s.maskId)
    {
      assert Flag(water, ps[k].id) == 1;
      FlagIff(water, ps[k].id);
    }
  }

  /** ... and every body with a passing entry has one of those records. */
  lemma RecordsCover(ids: seq<int>, water: seq<WaterData.Entry>, attrs: seq<MaskLabeler.Attributes>,
                     ps: seq<Pending>, rs: seq<Record>)
    requires forall e :: e in water ==> e.maskId in ids
    requires Candidates(ids, water, attrs) == Ok(ps)
    requires |rs| == |ps| && forall k :: 0 <= k < |ps| ==> rs[k].s.maskId == ps[k].id
    ensures forall e :: e in water && Passes(e) ==> exists k :: 0 <= k < |rs| && rs[k].s.maskId == e.maskId
  {
    CandidatesFlagged(ids, water, attrs, ps);
    forall e | e in water && Passes(e)
      ensures exists k :: 0 <= k < |rs| && rs[k].s.maskId == e.maskId
    {
      var k :| 0 <= k < |ps| && ps[k].id == e.maskId;
      assert rs[k].s.maskId == e.maskId;
    }
  }

  /** Every record is for a body with a passing entry. */
  lemma OrganizeFlaggedOnly(water: seq<WaterData.Entry>, merit: seq<MeritHeights.ElevRecord>, meritLabels: seq<int>,
                            attrs: seq<MaskLabeler.Attributes>, sqrt: real -> real, r: Result<seq<Record>, OrganizeError>)
    requires |meritLabels| == |merit|
    requires r == OrganizeData(water, merit, meritLabels, attrs, sqrt)
    ensures r.Ok? ==> forall k :: 0 <= k < |r.value| ==>
      HasPassing(water, r.value[k].s.maskId)
  {
    var ids := Unique(Map(water, MaskIdOf));
    var ps := OrganizeStages(water, merit, meritLabels, attrs, sqrt, r);
    if r.Ok? {
      RecordsFlagged(ids, water, attrs, ps, r.value);
    }
  }

  /** Every body with a passing entry gets a record. */
  lemma OrganizeComplete(water: seq<WaterData.Entry>, merit: seq<MeritHeights.ElevRecord>, meritLabels: seq<int>,
                         attrs: seq<MaskLabeler.Attributes>, sqrt: real -> real, r: Result<seq<Record>, OrganizeError>)
    requires |meritLabels| == |merit|
    requires r == OrganizeData(water, merit, meritLabels, attrs, sqrt)
    ensures r.Ok? ==> forall e :: e in water && Passes(e) ==>
      exists k :: 0 <= k < |r.value| && r.value[k].s.maskId == e.maskId
  {
    var ids := Unique(Map(water, MaskIdOf));
    var ps := OrganizeStages(water, merit, meritLabels, attrs, sqrt, r);
    if r.Ok? {
      WaterIdsCover(water, ids);
      RecordsCover(ids, water, attrs, ps, r.value);
    }
  }

  /** What a summary says about the passing entries it was built from: list
      lengths agree, the median and mean lie within the kept heights, the
      range is non-negative, at most ten passes are all kept, and the
      representative point is a raw footprint of a passing entry. */
  predicate Describes(s: Summary, ps: seq<WaterData.Entry>)
  {
    && 1 <= s.numObs <= |ps|
    && s.numObs == |s.heights| == |s.stds| == |s.doys| == |s.months| == |s.years|
    && (|ps| <= 10 ==> s.numObs == |ps|)
    && Min(s.heights) <= s.medHeight <= Max(s.heights)
    && Min(s.heights) <= s.meanHeight <= Max(s.heights)
    && s.heightRange >= 0.0
    && exists e, j :: e in ps && 0 <= j < |e.raw| && s.lon == e.raw[j].lon && s.lat == e.raw[j].lat
  }

  /** One flagged body's summary describes its passing entries. */
  lemma PendingDescribed(p: Pending, sqrt: real -> real, s: Summary)
    requires Ready(p)
    requires s == SummaryOfPending(p, sqrt)
    ensures Describes(s, p.ps)
  {
    var os := ObsList(p.ps, sqrt);
    SummaryCounts(p.id, p.attr, os, sqrt, s);
    SummaryHeights(p.id, p.attr, os, sqrt, s);
    RepresentativeIsFootprint(p, sqrt, s);
  }

  /** Each record describes its body's passing entries, and carries the
      body's MERIT height unchanged (the geoid offset is zero). */
  lemma OrganizeRecords(water: seq<WaterData.Entry>, merit: seq<MeritHeights.ElevRecord>, meritLabels: seq<int>,
                        attrs: seq<MaskLabeler.Attributes>, sqrt: real -> real, r: Result<seq<Record>, OrganizeError>)
    requires |meritLabels| == |merit|
    requires r == OrganizeData(water, merit, meritLabels, attrs, sqrt)
    ensures r.Ok? ==> forall k :: 0 <= k < |r.value| ==>
      && Describes(r.value[k].s, Passing(water, r.value[k].s.maskId))
      && r.value[k].geoidOffset == 0.0
      && exists j :: 0 <= j < |merit| && meritLabels[j] == r.value[k].s.maskId && r.value[k].meritHeight == merit[j].height
  {
    var ids := Unique(Map(water, MaskIdOf));
    var c := Candidates(ids, water, attrs);
    if r.Ok? {
      var ps := c.value;
      CandidatesReady(ids, water, attrs, ps);
      var ss := Summarize(ps, sqrt);
      assert r == Attach(ss, merit, meritLabels);
      SummariesDescribe(water, ps, sqrt, ss);
    }
  }

  /** Each summary of the pending bodies describes its body's passing entries. */
  lemma SummariesDescribe(water: seq<WaterData.Entry>, ps: seq<Pending>, sqrt: real -> real, ss: seq<Summary>)
    requires forall k :: 0 <= k < |ps| ==> Ready(ps[k]) && ps[k].ps == Passing(water, ps[k].id)
    requires ss == Summarize(ps, sqrt)
    ensures forall k :: 0 <= k < |ss| ==> Describes(ss[k], Passing(water, ss[k].maskId))
  {
    forall k | 0 <= k < |ss|
      ensures Describes(ss[k], Passing(water, ss[k].maskId))
    {
      var p := ps[k];
      SummarizeAt(ps, sqrt, k);
      assert ss[k].maskId == p.id;
      PendingDescribed(p, sqrt, ss[k]);
    }
  }

  /** The representative point of a flagged body is a raw footprint of one of
      its passing entries. */
  lemma RepresentativeIsFootprint(p: Pending, sqrt: real -> real, s: Summary)
    requires Ready(p)
    requires s == SummaryOf(p.id, p.attr, ObsList(p.ps, sqrt), sqrt)
    ensures exists e, j :: e in p.ps && 0 <= j < |e.raw| && s.lon == e.raw[j].lon && s.lat == e.raw[j].lat
  {
    var os := ObsList(p.ps, sqrt);
    SummaryPoint(p.id, p.attr, os, sqrt, s);
    var k :| 0 <= k < |os| && Point(s.lon, s.lat) == os[k].pt;
    ObsAt(p.ps, sqrt, k);
    var e := p.ps[k];
    var j :| 0 <= j < |e.raw| && os[k].pt == Footpoint(e.raw[j]);
  }
}

=== FILE: sorting.dfy ===
/**
 * Sorting by a real-valued key (numpy `sort`/`argsort`) and the sorted,
 * duplicate-free values of an integer array (numpy `unique`).
 */
module Sorting {

  /** `s` is in non-decreasing order of `key`. */
  predicate SortedBy<T>(s: seq<T>, key: T -> real)
  {
    forall i, j :: 0 <= i < j < |s| ==> key(s[i]) <= key(s[j])
  }

  /** Inserts `x` before the first element of `s` whose key is not below its own. */
  function InsertBy<T(==)>(x: T, s: seq<T>, key: T -> real): (r: seq<T>)
    ensures multiset(r) == multiset(s) + multiset{x}
    ensures |r| == |s| + 1
  {
    if s == [] then [x]
    else if key(x) <= key(s[0]) then [x] + s
    else
      var tail := InsertBy(x, s[1..], key);
      assert s == [s[0]] + s[1..];
      [s[0]] + tail
  }

  /** Inserting into a sorted sequence keeps it sorted. */
  lemma {:induction false} InsertBySorted<T>(x: T, s: seq<T>, key: T -> real)
    requires SortedBy(s, key)
    ensures SortedBy(InsertBy(x, s, key), key)
  {
    if s != [] && key(x) > key(s[0]) {
      var tail := InsertBy(x, s[1..], key);
      InsertBySorted(x, s[1..], key);
      var r := InsertBy(x, s, key);
      assert r == [s[0]] + tail;
      forall i, j | 0 <= i < j < |r|
        ensures key(r[i]) <= key(r[j])
      {
        assert r[j] == tail[j - 1];
        if i > 0 {
          assert r[i] == tail[i - 1];
        } else if tail[j - 1] != x {
          assert tail[j - 1] in multiset(s[1..]) by {
            assert tail[j - 1] in multiset(tail);
          }
          var k :| 0 <= k < |s[1..]| && s[1..][k] == tail[j - 1];
          assert s[k + 1] == tail[j - 1];
        }
      }
    }
  }

  /** Insertion sort by `key`: a permutation of `s` in key order. */
  function SortBy<T(==)>(s: seq<T>, key: T -> real): (r: seq<T>)
    ensures SortedBy(r, key)
    ensures multiset(r) == multiset(s)
    ensures |r| == |s|
  {
    if s == [] then []
    else
      var rest := SortBy(s[1..], key);
      assert s == [s[0]] + s[1..];
      InsertBySorted(s[0], rest, key);
      InsertBy(s[0], rest, key)
  }

  /** The identity key, for sorting plain reals. */
  function Id(x: real): real { x }

  /** `np.sort` of a real array. */
  function Sort(s: seq<real>): (r: seq<real>)
    ensures SortedBy(r, Id)
    ensures multiset(r) == multiset(s)
    ensures |r| == |s|
  {
    SortBy(s, Id)
  }

  /** Every element of a permutation is an element of the original. */
  lemma PermutationMembers<T>(a: seq<T>, b: seq<T>, i: nat)
    requires multiset(a) == multiset(b)
    requires i < |a|
    ensures a[i] in b
  {
    assert a[i] in multiset(a);
  }

  /** Strictly increasing: sorted with no repeated value. */
  predicate StrictlyIncreasing(s: seq<int>)
  {
    forall i, j :: 0 <= i < j < |s| ==> s[i] < s[j]
  }

  /** Inserts `x` into a strictly increasing sequence unless it is already there. */
  function InsertUnique(x: int, s: seq<int>): (r: seq<int>)
    requires StrictlyIncreasing(s)
    ensures StrictlyIncreasing(r)
    ensures forall e :: e in r <==> e in s || e == x
    ensures |r| <= |s| + 1
  {
    if s == [] then [x]
    else if x < s[0] then [x] + s
    else if x == s[0] then s
    else
      var tail := InsertUnique(x, s[1..]);
      assert forall i :: 0 <= i < |tail| ==> tail[i] in tail;
      assert forall e :: e in s[1..] ==> s[0] < e;
      [s[0]] + tail
  }

  /** `np.unique`: the distinct values of `s` in ascending order. */
  function Unique(s: seq<int>): (r: seq<int>)
    ensures StrictlyIncreasing(r)
    ensures forall e :: e in r <==> e in s
    ensures |r| <= |s|
  {
    if s == [] then []
    else
      var rest := Unique(s[1..]);
      assert forall e :: e in s <==> e == s[0] || e in s[1..];
      InsertUnique(s[0], rest)
  }
}

=== FILE: stats.dfy ===
/**
 * The numpy statistics the pipeline relies on, stated over `real`:
 * sum, mean, population variance (`np.std` squared), min/max, argmin,
 * `np.percentile` with its default linear interpolation, `np.median`,
 * and the inter-decile trim used for elevations and altimetry heights.
 * Floating-point rounding is not modelled.
 */
module Stats {
  import opened Base
  import opened Sorting

  function Sum(s: seq<real>): real
  {
    if s == [] then 0.0 else s[0] + Sum(s[1..])
  }

  /** Sum of squares; never negative. */
  function SumSq(s: seq<real>): (r: real)
    ensures r >= 0.0
  {
    if s == [] then 0.0 else s[0] * s[0] + SumSq(s[1..])
  }

  /** `np.mean`. */
  function Mean(s: seq<real>): real
    requires |s| > 0
  {
    Sum(s) / (|s| as real)
  }

  /** Deviations of every element from `c`. */
  function Devs(s: seq<real>, c: real): (d: seq<real>)
    ensures |d| == |s|
    ensures forall i :: 0 <= i < |s| ==> d[i] == s[i] - c
  {
    if s == [] then [] else [s[0] - c] + Devs(s[1..], c)
  }

  /** Population variance (the square of `np.std`, which divides by n); never negative. */
  function Variance(s: seq<real>): (v: real)
    requires |s| > 0
    ensures v >= 0.0
  {
    SumSq(Devs(s, Mean(s))) / (|s| as real)
  }

  /** `np.min`: an element of `s` no larger than any other. */
  function Min(s: seq<real>): (m: real)
    requires |s| > 0
    ensures m in s
    ensures forall i :: 0 <= i < |s| ==> m <= s[i]
  {
    if |s| == 1 then s[0]
    else
      var rest := Min(s[1..]);
      assert forall i :: 1 <= i < |s| ==> s[i] == s[1..][i - 1];
      if s[0] <= rest then s[0] else rest
  }

  /** `np.max`: an element of `s` no smaller than any other. */
  function Max(s: seq<real>): (m: real)
    requires |s| > 0
    ensures m in s
    ensures forall i :: 0 <= i < |s| ==> s[i] <= m
  {
    if |s| == 1 then s[0]
    else
      var rest := Max(s[1..]);
      assert forall i :: 1 <= i < |s| ==> s[i] == s[1..][i - 1];
      if s[0] >= rest then s[0] else rest
  }

  /** `np.argmin`: the first position holding the minimum. */
  function ArgMin(s: seq<real>): (k: nat)
    requires |s| > 0
    ensures k < |s|
    ensures forall i :: 0 <= i < |s| ==> s[k] <= s[i]
    ensures forall i :: 0 <= i < k ==> s[k] < s[i]
  {
    if |s| == 1 then 0
    else
      var rest := ArgMin(s[1..]);
      assert forall i :: 1 <= i < |s| ==> s[i] == s[1..][i - 1];
      if s[0] <= s[1..][rest] then 0 else rest + 1
  }

  /** Lower interpolation index of the q-th percentile of n values. */
  function PctLo(n: nat, q: real): (lo: nat)
    requires n > 0 && 0.0 <= q <= 100.0
    ensures lo < n
    ensures lo as real <= q / 100.0 * ((n - 1) as real) < lo as real + 1.0
  {
    var idx := q / 100.0 * ((n - 1) as real);
    MulUnit((n - 1) as real, q / 100.0, idx);
    var lo := idx.Floor;
    assert lo as real <= (n - 1) as real;
    lo
  }

  /** Upper interpolation index: one past the lower, clipped to the last value. */
  function PctHi(n: nat, q: real): (hi: nat)
    requires n > 0 && 0.0 <= q <= 100.0
    ensures PctLo(n, q) <= hi < n
  {
    var lo := PctLo(n, q);
    if lo + 1 < n then lo + 1 else n - 1
  }

  /** Linear interpolation between `a` and `b` at fraction `t`. */
  function Lerp(a: real, b: real, t: real): (r: real)
    requires a <= b && 0.0 <= t <= 1.0
    ensures a <= r <= b
    ensures a < b && 0.0 < t < 1.0 ==> a < r < b
  {
    var c := b - a;
    var w := c * t;
    MulUnit(c, t, w);
    a + w
  }

  /** `np.percentile(s, q)` with numpy's default 'linear' method: sort, then
      interpolate between the two order statistics around q/100 * (n-1). */
  function Percentile(s: seq<real>, q: real): (p: real)
    requires |s| > 0 && 0.0 <= q <= 100.0
    ensures Sort(s)[PctLo(|s|, q)] <= p <= Sort(s)[PctHi(|s|, q)]
    ensures Min(s) <= p <= Max(s)
  {
    var t := Sort(s);
    PermutationMembers(t, s, PctLo(|s|, q));
    PermutationMembers(t, s, PctHi(|s|, q));
    SortedPercentile(t, q)
  }

  /** Percentile of an already sorted sequence. */
  function SortedPercentile(t: seq<real>, q: real): (p: real)
    requires |t| > 0 && 0.0 <= q <= 100.0
    requires SortedBy(t, Id)
    ensures t[PctLo(|t|, q)] <= p <= t[PctHi(|t|, q)]
  {
    var n := |t|;
    var lo := PctLo(n, q);
    var hi := PctHi(n, q);
    var frac := q / 100.0 * ((n - 1) as real) - lo as real;
    assert Id(t[lo]) <= Id(t[hi]);
    Lerp(t[lo], t[hi], frac)
  }

  /** `np.median`: the middle order statistic, or the mean of the two middle ones. */
  function Median(s: seq<real>): (m: real)
    requires |s| > 0
    ensures Min(s) <= m <= Max(s)
  {
    var t := Sort(s);
    var n := |s|;
    PermutationMembers(t, s, n / 2);
    if n % 2 == 1 then t[n / 2]
    else
      PermutationMembers(t, s, n / 2 - 1);
      (t[n / 2 - 1] + t[n / 2]) / 2.0
  }

  /** The 10th and 90th percentiles. */
  function P10(s: seq<real>): real
    requires |s| > 0
  {
    Percentile(s, 10.0)
  }

  function P90(s: seq<real>): real
    requires |s| > 0
  {
    Percentile(s, 90.0)
  }

  /** The keep-mask of the inter-decile trim: `(s >= p10) & (s <= p90)`. */
  function DecileMask(s: seq<real>): (keep: seq<bool>)
    requires |s| > 0
    ensures |keep| == |s|
    ensures forall i :: 0 <= i < |s| ==> (keep[i] <==> P10(s) <= s[i] <= P90(s))
  {
    var lo := P10(s);
    var hi := P90(s);
    seq(|s|, i requires 0 <= i < |s| => lo <= s[i] && s[i] <= hi)
  }

  /** The values of `s` inside the inter-decile range, in their original order. */
  function DecileTrim(s: seq<real>): (r: seq<real>)
    requires |s| > 0
    ensures |r| == CountTrue(DecileMask(s)) && |r| <= |s|
    ensures forall x :: x in r ==> x in s && P10(s) <= x <= P90(s)
    ensures forall x :: x in s && P10(s) <= x <= P90(s) ==> x in r
  {
    TrimSelect(s, DecileMask(s), P10(s), P90(s));
    forall x | x in s && P10(s) <= x <= P90(s)
      ensures x in Select(s, DecileMask(s))
    {
      SelectMember(s, DecileMask(s), x);
    }
    Select(s, DecileMask(s))
  }

  /** Everything a decile mask selects lies between the two bounds. */
  lemma {:induction false} TrimSelect(s: seq<real>, keep: seq<bool>, lo: real, hi: real)
    requires |keep| == |s|
    requires forall i :: 0 <= i < |s| ==> (keep[i] <==> lo <= s[i] <= hi)
    ensures forall x :: x in Select(s, keep) ==> lo <= x <= hi
    decreases |s|
  {
    if s != [] {
      TrimSelect(s[1..], keep[1..], lo, hi);
    }
  }

  /** With one value, or three or more, the inter-decile trim keeps at least one
      value: the order statistic at the lower 90th-percentile index lies between
      the two percentiles. */
  lemma {:induction false} TrimNonEmpty(s: seq<real>)
    requires |s| == 1 || |s| >= 3
    ensures |DecileTrim(s)| > 0
  {
    var t := Sort(s);
    var lo90 := PctLo(|s|, 90.0);
    DecileOrderStatistic(s);
    PermutationMembers(t, s, lo90);
    var j :| 0 <= j < |s| && s[j] == t[lo90];
    assert DecileMask(s)[j];
    SelectNonEmpty(s, DecileMask(s), j);
  }

  /** The order statistic at the lower 90th-percentile index lies between the
      10th and 90th percentiles. */
  lemma {:induction false} DecileOrderStatistic(s: seq<real>)
    requires |s| == 1 || |s| >= 3
    ensures P10(s) <= Sort(s)[PctLo(|s|, 90.0)] <= P90(s)
  {
    P10Below(s);
  }

  /** The 10th percentile is at most the order statistic at the lower
      90th-percentile index. */
  lemma {:induction false} P10Below(s: seq<real>)
    requires |s| == 1 || |s| >= 3
    ensures P10(s) <= Sort(s)[PctLo(|s|, 90.0)]
  {
    DecileIndices(|s|);
    SortedLe(Sort(s), PctHi(|s|, 10.0), PctLo(|s|, 90.0));
  }

  /** In a sorted sequence an earlier element is no larger. */
  lemma SortedLe(t: seq<real>, i: nat, j: nat)
    requires SortedBy(t, Id) && i <= j < |t|
    ensures t[i] <= t[j]
  {
    if i < j {
      assert Id(t[i]) <= Id(t[j]);
    }
  }

  /** With one value, or three or more, the upper index of the 10th percentile
      does not pass the lower index of the 90th. */
  lemma {:induction false} DecileIndices(n: nat)
    requires n == 1 || n >= 3
    ensures PctHi(n, 10.0) <= PctLo(n, 90.0)
  {
    var m := (n - 1) as real;
    var lo10 := PctLo(n, 10.0);
    var lo90 := PctLo(n, 90.0);
    if n >= 3 {
      assert 0.9 * m - 0.1 * m == 0.8 * m >= 1.6;
      assert lo10 as real <= 10.0 / 100.0 * m;
      assert 90.0 / 100.0 * m < lo90 as real + 1.0;
    }
  }

  /** Sorting two values swaps them when they are out of order. */
  lemma {:induction false} SortTwo(s: seq<real>)
    requires |s| == 2
    ensures Sort(s) == if s[0] <= s[1] then s else [s[1], s[0]]
  {
    assert s[1..][1..] == [];
    assert SortBy(s[1..], Id) == [s[1]];
    assert s == [s[0], s[1]];
  }

  /** With two sorted distinct values, a percentile strictly between 0 and 100
      lies strictly between them. */
  lemma {:induction false} PercentileTwoStrict(s: seq<real>, q: real)
    requires |s| == 2 && 0.0 < q < 100.0
    requires Sort(s)[0] < Sort(s)[1]
    ensures Sort(s)[0] < Percentile(s, q) < Sort(s)[1]
  {
    var t := Sort(s);
    var idx := q / 100.0 * 1.0;
    assert 0.0 < idx < 1.0;
    assert PctLo(2, q) == 0;
    assert PctHi(2, q) == 1;
    assert Percentile(s, q) == SortedPercentile(t, q);
    assert SortedPercentile(t, q) == Lerp(t[0], t[1], idx - 0.0);
  }

  /** Two distinct values trim to nothing: both fall strictly outside [p10, p90]. */
  lemma {:induction false} TrimTwoDistinct(s: seq<real>)
    requires |s| == 2 && s[0] != s[1]
    ensures DecileTrim(s) == []
  {
    SortTwo(s);
    var t := Sort(s);
    assert t[0] < t[1];
    assert s[0] == t[0] || s[0] == t[1];
    assert s[1] == t[0] || s[1] == t[1];
    PercentileTwoStrict(s, 10.0);
    PercentileTwoStrict(s, 90.0);
    var keep := DecileMask(s);
    assert !keep[0] && !keep[1];
    assert Select(s, keep) == Select(s[1..], keep[1..]);
  }

  /** Two equal values survive the trim. */
  lemma {:induction false} TrimTwoEqual(s: seq<real>)
    requires |s| == 2 && s[0] == s[1]
    ensures DecileTrim(s) == s
  {
    SortTwo(s);
    assert P10(s) == s[0] && P90(s) == s[0];
    SelectAll(s, DecileMask(s));
  }

  /** The mean lies between the minimum and the maximum. */
  lemma {:induction false} MeanBounds(s: seq<real>)
    requires |s| > 0
    ensures Min(s) <= Mean(s) <= Max(s)
  {
    var lo, hi, x, n := Min(s), Max(s), Sum(s), |s| as real;
    assert lo <= x / n <= hi by {
      SumBounds(s, lo, hi);
      DivBounds(lo, x, hi, n);
    }
    assert Mean(s) == x / n;
  }

  lemma {:induction false} DivBounds(lo: real, x: real, hi: real, n: real)
    requires n > 0.0 && lo * n <= x <= hi * n
    ensures lo <= x / n <= hi
  {
    assert x / n * n == x;
    if x / n < lo {
      MulStrict(x / n, lo, n);
    }
    if x / n > hi {
      MulStrict(hi, x / n, n);
    }
  }

  lemma {:induction false} MulStrict(a: real, b: real, n: real)
    requires n > 0.0 && a < b
    ensures a * n < b * n
  {
    assert b * n - a * n == (b - a) * n;
  }

  /** Scaling by a fraction in [0, 1] keeps a non-negative value in [0, c]
      (strictly inside when both the value and the fraction are strictly inside). */
  lemma {:induction false} MulUnit(c: real, t: real, w: real)
    requires c >= 0.0 && 0.0 <= t <= 1.0 && (w == c * t || w == t * c)
    ensures 0.0 <= w <= c
    ensures c > 0.0 && 0.0 < t < 1.0 ==> 0.0 < w < c
  {
    assert c * t == t * c;
    assert c - c * t == c * (1.0 - t);
    NonNegMul(c, t);
    NonNegMul(c, 1.0 - t);
    if c > 0.0 && 0.0 < t < 1.0 {
      PosMul(c, t);
      PosMul(c, 1.0 - t);
    }
  }

  lemma {:induction false} NonNegMul(a: real, b: real)
    requires a >= 0.0 && b >= 0.0
    ensures a * b >= 0.0
  {
  }

  lemma {:induction false} PosMul(a: real, b: real)
    requires a > 0.0 && b > 0.0
    ensures a * b > 0.0
  {
  }

  lemma {:induction false} SumBounds(s: seq<real>, lo: real, hi: real)
    requires forall i :: 0 <= i < |s| ==> lo <= s[i] <= hi
    ensures lo * (|s| as real) <= Sum(s) <= hi * (|s| as real)
  {
    if s != [] {
      SumBounds(s[1..], lo, hi);
    }
  }

  lemma {:induction false} SumConcat(a: seq<real>, b: seq<real>)
    ensures Sum(a + b) == Sum(a) + Sum(b)
  {
    if a == [] {
      assert a + b == b;
    } else {
      assert (a + b)[1..] == a[1..] + b;
      SumConcat(a[1..], b);
    }
  }

  lemma {:induction false} SumSqConcat(a: seq<real>, b: seq<real>)
    ensures SumSq(a + b) == SumSq(a) + SumSq(b)
  {
    if a == [] {
      assert a + b == b;
    } else {
      assert (a + b)[1..] == a[1..] + b;
      SumSqConcat(a[1..], b);
    }
  }

  /** Deviations from c sum to Sum(s) - n*c. */
  lemma {:induction false} DevsSum(s: seq<real>, c: real)
    ensures Sum(Devs(s, c)) == Sum(s) - (|s| as real) * c
  {
    if s != [] {
      DevsSum(s[1..], c);
    }
  }

  /** Cauchy-Schwarz in the form (sum a)^2 <= n * (sum of squares). */
  lemma {:induction false} CauchySchwarz(a: seq<real>)
    ensures Sum(a) * Sum(a) <= (|a| as real) * SumSq(a)
  {
    var sa, qa, n := Sum(a), SumSq(a), |a| as real;
    if a == [] {
      assert sa == 0.0 && n == 0.0;
      assert sa * sa == n * qa;
    } else {
      var rest := a[1..];
      CauchySchwarz(rest);
      var x, S, Q, m := a[0], Sum(rest), SumSq(rest), |rest| as real;
      assert sa == x + S && qa == x * x + Q && n == m + 1.0;
      if m == 0.0 {
        assert S == 0.0 && Q == 0.0;
        assert sa * sa == n * qa;
      } else {
        CauchySchwarzStep(x, S, Q, m, sa, qa, n);
      }
    }
  }

  /** The inductive step of Cauchy-Schwarz, as plain algebra. */
  lemma {:induction false} CauchySchwarzStep(x: real, S: real, Q: real, m: real, sa: real, qa: real, n: real)
    requires m > 0.0 && S * S <= m * Q
    requires sa == x + S && qa == x * x + Q && n == m + 1.0
    ensures sa * sa <= n * qa
  {
    var y := m * x - S;
    assert y * y >= 0.0;
    assert y * y == m * m * x * x - 2.0 * m * x * S + S * S;
    assert m * (m * x * x + Q - 2.0 * x * S) == m * m * x * x + m * Q - 2.0 * m * x * S;
    PositiveFactor(m, m * x * x + Q - 2.0 * x * S);
    assert (x + S) * (x + S) == x * x + 2.0 * x * S + S * S;
    assert (m + 1.0) * (x * x + Q) == m * x * x + x * x + m * Q + Q;
  }

  lemma {:induction false} PositiveFactor(m: real, y: real)
    requires m > 0.0 && m * y >= 0.0
    ensures y >= 0.0
  {
  }

  /** Samuelson's inequality: every value lies within sqrt(n-1) population
      standard deviations of the mean, stated without the square root. */
  lemma {:induction false} Samuelson(s: seq<real>, k: nat)
    requires k < |s|
    ensures (s[k] - Mean(s)) * (s[k] - Mean(s)) <= ((|s| - 1) as real) * Variance(s)
  {
    var m := Mean(s);
    var d := Devs(s, m);
    DevsSum(s, m);
    MeanTimesCount(s);
    SamuelsonDevs(d, k);
    var v := Variance(s);
    assert v == SumSq(d) / (|s| as real);
    var e := s[k] - m;
    NegSquare(e, - d[k]);
    assert e * e <= ((|s| - 1) as real) * v;
  }

  /** Samuelson's inequality for deviations that sum to zero. */
  lemma {:induction false} SamuelsonDevs(d: seq<real>, k: nat)
    requires k < |d| && Sum(d) == 0.0
    ensures d[k] * d[k] <= ((|d| - 1) as real) * (SumSq(d) / (|d| as real))
  {
    var n := |d| as real;
    var others := d[..k] + d[k + 1..];
    SplitAt(d, k);
    var S := Sum(others);
    var Q := SumSq(d);
    var Qo := SumSq(others);
    var dd := d[k] * d[k];
    assert S == - d[k];
    NegSquare(S, d[k]);
    CauchySchwarz(others);
    assert |others| as real == n - 1.0;
    assert S * S <= (n - 1.0) * Qo;
    assert Qo == Q - dd;
    SamuelsonAlgebra(dd, Q, n);
  }

  /** Removing position k splits both the sum and the sum of squares. */
  lemma {:induction false} SplitAt(d: seq<real>, k: nat)
    requires k < |d|
    ensures Sum(d) == Sum(d[..k] + d[k + 1..]) + d[k]
    ensures SumSq(d) == SumSq(d[..k] + d[k + 1..]) + d[k] * d[k]
  {
    var pre := d[..k];
    var mid := [d[k]] + d[k + 1..];
    assert d == pre + mid;
    assert mid[1..] == d[k + 1..];
    SumConcat(pre, mid);
    SumConcat(pre, d[k + 1..]);
    assert Sum(mid) == d[k] + Sum(d[k + 1..]);
    SumSqConcat(pre, mid);
    SumSqConcat(pre, d[k + 1..]);
    assert SumSq(mid) == d[k] * d[k] + SumSq(d[k + 1..]);
  }

  lemma {:induction false} MeanTimesCount(s: seq<real>)
    requires |s| > 0
    ensures (|s| as real) * Mean(s) == Sum(s)
  {
  }

  lemma {:induction false} NegSquare(a: real, b: real)
    requires a == - b
    ensures a * a == b * b
  {
  }

  lemma {:induction false} SamuelsonAlgebra(dd: real, Q: real, n: real)
    requires n >= 1.0 && dd <= (n - 1.0) * (Q - dd)
    ensures dd <= (n - 1.0) * (Q / n)
  {
    assert (n - 1.0) * (Q - dd) == (n - 1.0) * Q - (n - 1.0) * dd;
    assert n * dd <= (n - 1.0) * Q;
    assert (n - 1.0) * (Q / n) * n == (n - 1.0) * Q;
    assert n * ((n - 1.0) * (Q / n) - dd) >= 0.0;
    PositiveFactor(n, (n - 1.0) * (Q / n) - dd);
  }

  /** Some value is at most as far from c as the root-mean-square deviation:
      min of squares times n is at most the sum of squares. */
  lemma {:induction false} SomeSquareBelowMean(d: seq<real>) returns (k: nat)
    requires |d| > 0
    ensures k < |d|
    ensures d[k] * d[k] * (|d| as real) <= SumSq(d)
  {
    if |d| == 1 {
      k := 0;
    } else {
      var rest := d[1..];
      var k' := SomeSquareBelowMean(rest);
      var m := |rest| as real;
      var q0 := d[0] * d[0];
      var qk := rest[k'] * rest[k'];
      assert qk * m <= SumSq(rest);
      assert SumSq(d) == q0 + SumSq(rest);
      if q0 <= qk {
        k := 0;
        assert q0 * m <= qk * m;
        assert q0 * (m + 1.0) == q0 + q0 * m;
      } else {
        k := k' + 1;
        assert d[k] == rest[k'];
        assert qk * (m + 1.0) == qk + qk * m;
      }
    }
  }
}

=== FILE: water_data.dfy ===
/**
 * Footprint attribution, `get_IS2_water_data_nov20`
 * (module/fc_get_IS2_water_data_nov20.py): granules whose bounding box
 * overlaps the raster are read channel by channel; each footprint that lands
 * in the raster takes the label under it; every label except the smallest
 * that collects more than two footprints yields one entry, built from the
 * footprints' heights trimmed to the inter-decile range.
 *
 * HDF5 reads become data: a channel whose longitude or latitude dataset is
 * missing is `None`; each footprint carries the raster cell the library's
 * `rowcol` transform assigns it.
 */
module WaterData {
  import opened Base
  import opened Sorting
  import opened Stats
  import MaskLabeler

  // ---------------------------------------------------------------------
  // Calendar (`calendar_to_doy`, proleptic Gregorian)

  predicate IsLeap(y: int)
  {
    y % 4 == 0 && (y % 100 != 0 || y % 400 == 0)
  }

  function DaysInMonth(y: int, m: int): (n: nat)
    requires 1 <= m <= 12
    ensures 28 <= n <= 31
  {
    if m == 2 then (if IsLeap(y) then 29 else 28)
    else if m == 4 || m == 6 || m == 9 || m == 11 then 30
    else 31
  }

  function YearLength(y: int): nat
  {
    if IsLeap(y) then 366 else 365
  }

  /** Days in the months before month m. */
  function DaysBefore(y: int, m: int): nat
    requires 1 <= m <= 13
  {
    if m == 1 then 0 else DaysBefore(y, m - 1) + DaysInMonth(y, m - 1)
  }

  /** The twelve months make up the year. */
  lemma DaysBeforeYear(y: int)
    ensures DaysBefore(y, 13) == YearLength(y)
  {
    var feb := if IsLeap(y) then 29 else 28;
    assert DaysBefore(y, 2) == 31;
    assert DaysBefore(y, 3) == 31 + feb;
    assert DaysBefore(y, 4) == 62 + feb;
    assert DaysBefore(y, 5) == 92 + feb;
    assert DaysBefore(y, 6) == 123 + feb;
    assert DaysBefore(y, 7) == 153 + feb;
    assert DaysBefore(y, 8) == 184 + feb;
    assert DaysBefore(y, 9) == 215 + feb;
    assert DaysBefore(y, 10) == 245 + feb;
    assert DaysBefore(y, 11) == 276 + feb;
    assert DaysBefore(y, 12) == 306 + feb;
  }

  /** Later months start later. */
  lemma {:induction false} DaysBeforeGrows(y: int, a: int, b: int)
    requires 1 <= a < b <= 13
    ensures DaysBefore(y, a) + DaysInMonth(y, a) <= DaysBefore(y, b)
    decreases b - a
  {
    if a + 1 < b {
      DaysBeforeGrows(y, a, b - 1);
    }
  }

  /** The dates `datetime` accepts. */
  predicate ValidDate(y: int, m: int, d: int)
  {
    1 <= y <= 9999 && 1 <= m <= 12 && 1 <= d <= DaysInMonth(y, m)
  }

  /** `datetime` raises ValueError for a date off the calendar. */
  datatype DateError = InvalidDate

  /** `calendar_to_doy(year, month, day)`: the day's number within its year. */
  function DayOfYear(y: int, m: int, d: int): (r: Result<nat, DateError>)
    ensures r.Ok? <==> ValidDate(y, m, d)
    ensures r.Ok? ==> 1 <= r.value <= YearLength(y)
  {
    if !ValidDate(y, m, d) then Err(InvalidDate)
    else
      DaysBeforeYear(y);
      DaysBeforeGrows(y, m, 13);
      Ok(DaysBefore(y, m) + d)
  }

  /** January 1 is day 1 and December 31 is the year's last day. */
  lemma YearEnds(y: int)
    requires 1 <= y <= 9999
    ensures DayOfYear(y, 1, 1) == Ok(1)
    ensures DayOfYear(y, 12, 31) == Ok(YearLength(y))
  {
    DaysBeforeYear(y);
  }

  /** The month holding day `doy`, searched from month m on. */
  function MonthOf(y: int, doy: int, m: int): (r: int)
    requires 1 <= m <= 12 && DaysBefore(y, m) < doy <= YearLength(y)
    ensures m <= r <= 12
    ensures DaysBefore(y, r) < doy <= DaysBefore(y, r) + DaysInMonth(y, r)
    decreases 12 - m
  {
    DaysBeforeYear(y);
    if m == 12 || doy <= DaysBefore(y, m + 1) then m else MonthOf(y, doy, m + 1)
  }

  /** The (month, day) of day `doy` of year y. */
  function DateOf(y: int, doy: int): (md: (int, int))
    requires 1 <= doy <= YearLength(y)
  {
    var m := MonthOf(y, doy, 1);
    (m, doy - DaysBefore(y, m))
  }

  /** Every day number of the year comes from exactly one valid date. */
  lemma DayOfYearOnto(y: int, doy: int)
    requires 1 <= y <= 9999 && 1 <= doy <= YearLength(y)
    ensures ValidDate(y, DateOf(y, doy).0, DateOf(y, doy).1)
    ensures DayOfYear(y, DateOf(y, doy).0, DateOf(y, doy).1) == Ok(doy)
  {
  }

  /** Different dates of one year have different day numbers: the date comes back from its number. */
  lemma DayOfYearInjective(y: int, m: int, d: int)
    requires ValidDate(y, m, d)
    ensures DateOf(y, DayOfYear(y, m, d).value) == (m, d)
  {
    var doy := DayOfYear(y, m, d).value;
    DaysBeforeYear(y);
    DaysBeforeGrows(y, m, 13);
    var r := MonthOf(y, doy, 1);
    if r < m {
      DaysBeforeGrows(y, r, m);
    } else if r > m {
      DaysBeforeGrows(y, m, r);
    }
  }

  // ---------------------------------------------------------------------
  // Granule selection

  /** A granule's bounding box. */
  datatype Box = Box(lonMin: real, lonMax: real, latMin: real, latMax: real)

  /** The raster's extent (`R['lon_limits']`, `R['lat_limits']`). */
  datatype Limits = Limits(lonLo: real, lonHi: real, latLo: real, latHi: real)

  /** The overlap test of the granule loop: strict on all four sides. */
  predicate Overlaps(b: Box, l: Limits)
  {
    b.lonMin < l.lonHi && b.lonMax > l.lonLo && b.latMin < l.latHi && b.latMax > l.latLo
  }

  /** (x, y) is in the closed box and strictly inside the limits. */
  predicate Shared(b: Box, l: Limits, x: real, y: real)
  {
    b.lonMin <= x <= b.lonMax && l.lonLo < x < l.lonHi && b.latMin <= y <= b.latMax && l.latLo < y < l.latHi
  }

  /** For a proper box and proper limits, the test passes exactly when the
      box meets the interior of the limits. */
  lemma OverlapsMeansShared(b: Box, l: Limits)
    requires b.lonMin <= b.lonMax && b.latMin <= b.latMax
    requires l.lonLo < l.lonHi && l.latLo < l.latHi
    ensures Overlaps(b, l) <==> exists x, y :: Shared(b, l, x, y)
  {
    if Overlaps(b, l) {
      var x := Meet(b.lonMin, b.lonMax, l.lonLo, l.lonHi);
      var y := Meet(b.latMin, b.latMax, l.latLo, l.latHi);
      assert Shared(b, l, x, y);
    }
  }

  /** A point of [lo1, hi1] strictly inside (lo2, hi2) when the test's two inequalities hold. */
  function Meet(lo1: real, hi1: real, lo2: real, hi2: real): (x: real)
    requires lo1 <= hi1 && lo2 < hi2 && lo1 < hi2 && hi1 > lo2
    ensures lo1 <= x <= hi1 && lo2 < x < hi2
  {
    var a := if lo1 < lo2 then lo2 else lo1;
    var c := if hi1 < hi2 then hi1 else hi2;
    if lo1 == hi1 then lo1 else (a + c) / 2.0
  }

  // ---------------------------------------------------------------------
  // Footprints in the raster

  /** One land segment of a channel, with the raster cell `rowcol` maps it to. */
  datatype Footprint = Footprint(lon: real, lat: real, elev: real, flag: int, unc: real, cell: MaskLabeler.Cell)

  function Elev(f: Footprint): real { f.elev }
  function Lon(f: Footprint): real { f.lon }
  function Lat(f: Footprint): real { f.lat }
  function Row(f: Footprint): int { f.cell.row }
  function Col(f: Footprint): int { f.cell.col }

  /** The `valid` mask of `geographic_to_discrete`. */
  function InRasterMask(fps: seq<Footprint>, h: nat, w: nat): (valid: seq<bool>)
    ensures |valid| == |fps|
    ensures forall k :: 0 <= k < |fps| ==> (valid[k] <==> MaskLabeler.InRaster(fps[k].cell, h, w))
  {
    seq(|fps|, k requires 0 <= k < |fps| => MaskLabeler.InRaster(fps[k].cell, h, w))
  }

  /** The footprints inside the raster, in order. */
  function Inside(fps: seq<Footprint>, h: nat, w: nat): (r: seq<Footprint>)
    ensures forall f :: f in r <==> f in fps && MaskLabeler.InRaster(f.cell, h, w)
  {
    var valid := InRasterMask(fps, h, w);
    forall f ensures f in Select(fps, valid) <==> f in fps && MaskLabeler.InRaster(f.cell, h, w) {
      SelectMember(fps, valid, f);
    }
    Select(fps, valid)
  }

  /** `geographic_to_discrete`: the in-range rows and columns, and the mask that chose them. */
  function GeographicToDiscrete(fps: seq<Footprint>, h: nat, w: nat): (r: (seq<int>, seq<int>, seq<bool>))
    ensures r.2 == InRasterMask(fps, h, w)
    ensures |r.0| == CountTrue(r.2) && |r.1| == CountTrue(r.2)
    ensures forall k :: 0 <= k < |r.0| ==> 0 <= r.0[k] < h && 0 <= r.1[k] < w
    ensures r.0 == Select(Map(fps, Row), r.2) && r.1 == Select(Map(fps, Col), r.2)
  {
    var valid := InRasterMask(fps, h, w);
    var inside := Inside(fps, h, w);
    assert forall k :: 0 <= k < |inside| ==> inside[k] in inside;
    SelectMap(fps, valid, Row);
    SelectMap(fps, valid, Col);
    (Map(inside, Row), Map(inside, Col), valid)
  }

  /** `np.isnan` of an integer array: never NaN. */
  function IsNaNInt(xs: seq<int>): (r: seq<bool>)
    ensures |r| == |xs| && forall k :: 0 <= k < |xs| ==> !r[k]
  {
    seq(|xs|, _ => false)
  }

  /** `np.sum(np.isnan(I)) < len(I)`. */
  predicate ChannelProcessed(rows: seq<int>)
  {
    CountTrue(IsNaNInt(rows)) < |rows|
  }

  lemma {:induction false} CountTrueNone(b: seq<bool>)
    requires forall k :: 0 <= k < |b| ==> !b[k]
    ensures CountTrue(b) == 0
  {
    if b != [] {
      CountTrueNone(b[1..]);
    }
  }

  /** Since integer rows are never NaN, a channel is processed exactly when some footprint lands in the raster. */
  lemma ChannelProcessedIff(rows: seq<int>)
    ensures ChannelProcessed(rows) <==> |rows| > 0
  {
    CountTrueNone(IsNaNInt(rows));
  }

  // ---------------------------------------------------------------------
  // Entries

  /** Label of the mask cell under an in-raster footprint (`mask[I, J]`). */
  function LabelAt(mask: MaskLabeler.Image, h: nat, w: nat, f: Footprint): int
    requires MaskLabeler.Shape(mask, h, w) && MaskLabeler.InRaster(f.cell, h, w)
  {
    mask[f.cell.row][f.cell.col]
  }

  /** `mask_val == body`. */
  function Matches(labels: seq<int>, body: int): (m: seq<bool>)
    ensures |m| == |labels| && forall k :: 0 <= k < |labels| ==> (m[k] <==> labels[k] == body)
  {
    seq(|labels|, k requires 0 <= k < |labels| => labels[k] == body)
  }

  /** What a channel contributes to every entry it produces. */
  datatype Context = Context(laser: string, doy: nat, month: int, year: int, filename: string)

  /** One water-body observation; the raw arrays are the projections of `raw`. */
  datatype Entry = Entry(
    id: nat, maskId: int, rawNumPoints: nat, raw: seq<Footprint>,
    height: real, std: real, numPoints: nat, medX: real, medY: real, ctx: Context)

  /** The entry for one body's footprints (more than two of them): heights are
      trimmed to [p10, p90], and the height, spread and centre come from what
      is left. */
  function BodyEntry(members: seq<Footprint>, body: int, ctx: Context, id: nat, sqrt: real -> real): (e: Entry)
    requires |members| > 2
    ensures e.id == id && e.maskId == body && e.raw == members && e.rawNumPoints == |members| && e.ctx == ctx
    ensures 1 <= e.numPoints <= e.rawNumPoints
  {
    var heights := Map(members, Elev);
    var keep := DecileMask(heights);
    var kept := Select(members, keep);
    var trimmed := DecileTrim(heights);
    TrimNonEmpty(heights);
    assert Min(trimmed) in trimmed && Max(trimmed) in trimmed;
    Entry(id, body, |members|, members, Median(trimmed), sqrt(Variance(trimmed)), |trimmed|,
          Median(Map(kept, Lon)), Median(Map(kept, Lat)), ctx)
  }

  /** The entry's height lies inside the inter-decile range of the body's
      footprint heights. */
  lemma BodyEntryWithinDeciles(members: seq<Footprint>, body: int, ctx: Context, id: nat, sqrt: real -> real)
    requires |members| > 2
    ensures var heights := Map(members, Elev);
      P10(heights) <= BodyEntry(members, body, ctx, id, sqrt).height <= P90(heights)
  {
    var heights := Map(members, Elev);
    var trimmed := DecileTrim(heights);
    TrimNonEmpty(heights);
    assert Min(trimmed) in trimmed && Max(trimmed) in trimmed;
  }

  /** The trimmed heights are exactly the heights of the kept footprints, so
      the centre (`med_x`, `med_y`) and the height describe the same footprints. */
  lemma BodyEntryKept(members: seq<Footprint>, body: int, ctx: Context, id: nat, sqrt: real -> real)
    requires |members| > 2
    ensures var heights := Map(members, Elev);
      var kept := Select(members, DecileMask(heights));
      && Map(kept, Elev) == DecileTrim(heights)
      && |kept| == BodyEntry(members, body, ctx, id, sqrt).numPoints
      && BodyEntry(members, body, ctx, id, sqrt).height == Median(Map(kept, Elev))
      && BodyEntry(members, body, ctx, id, sqrt).medX == Median(Map(kept, Lon))
  {
    SelectMap(members, DecileMask(Map(members, Elev)), Elev);
  }

  /** A run of entries and the counter after it. */
  datatype Run = Run(entries: seq<Entry>, count: nat)

  /** Ids run from `from` upwards without gaps. */
  predicate SequentialIds(es: seq<Entry>, from: nat)
  {
    forall k :: 0 <= k < |es| ==> es[k].id == from + k
  }

  /** The footprints carrying label `body`. */
  function Members(inside: seq<Footprint>, labels: seq<int>, body: int): seq<Footprint>
    requires |labels| == |inside|
  {
    Select(inside, Matches(labels, body))
  }

  /** A body that yields an entry, with its footprints. */
  datatype Group = Group(body: int, members: seq<Footprint>)

  /** The loop over `unique_bodies[1:]` without the statistics: the bodies
      with more than two footprints, in the order given. */
  function Groups(bodies: seq<int>, inside: seq<Footprint>, labels: seq<int>): (gs: seq<Group>)
    requires |labels| == |inside|
    ensures |gs| <= |bodies|
    ensures forall k :: 0 <= k < |gs| ==>
      gs[k].body in bodies && gs[k].members == Members(inside, labels, gs[k].body) && |gs[k].members| > 2
    decreases |bodies|
  {
    if bodies == [] then []
    else
      var b := bodies[0];
      var members := Members(inside, labels, b);
      var rest := Groups(bodies[1..], inside, labels);
      assert forall x :: x in bodies <==> x == b || x in bodies[1..] by {
        assert bodies == [b] + bodies[1..];
      }
      if |members| > 2 then
        assert forall k :: 0 <= k < |rest| ==> ([Group(b, members)] + rest)[k + 1] == rest[k];
        [Group(b, members)] + rest
      else rest
  }

  /** Groups in strictly ascending body order. */
  predicate AscendingBodies(gs: seq<Group>)
  {
    forall i, j :: 0 <= i < j < |gs| ==> gs[i].body < gs[j].body
  }

  /** A group below every later one, put in front of ascending groups. */
  lemma ConsAscendingBodies(g: Group, rest: seq<Group>)
    requires AscendingBodies(rest)
    requires forall k :: 0 <= k < |rest| ==> g.body < rest[k].body
    ensures AscendingBodies([g] + rest)
  {
    var gs := [g] + rest;
    forall i, j | 0 <= i < j < |gs|
      ensures gs[i].body < gs[j].body
    {
      assert gs[j] == rest[j - 1];
      if i > 0 {
        assert gs[i] == rest[i - 1];
      }
    }
  }

  /** Bodies drawn from the tail of an ascending list lie above its head. */
  lemma TailAbove(bodies: seq<int>, rest: seq<Group>)
    requires StrictlyIncreasing(bodies) && bodies != []
    requires forall k :: 0 <= k < |rest| ==> rest[k].body in bodies[1..]
    ensures forall k :: 0 <= k < |rest| ==> bodies[0] < rest[k].body
  {
    forall k | 0 <= k < |rest|
      ensures bodies[0] < rest[k].body
    {
      assert rest[k].body in bodies[1..];
      var t :| 0 <= t < |bodies[1..]| && bodies[1..][t] == rest[k].body;
      assert bodies[t + 1] == rest[k].body;
    }
  }

  /** Ascending bodies give groups in ascending body order. */
  lemma {:induction false} GroupsAscending(bodies: seq<int>, inside: seq<Footprint>, labels: seq<int>)
    requires |labels| == |inside| && StrictlyIncreasing(bodies)
    ensures AscendingBodies(Groups(bodies, inside, labels))
    decreases |bodies|
  {
    if bodies != [] {
      var rest := Groups(bodies[1..], inside, labels);
      assert StrictlyIncreasing(bodies[1..]);
      GroupsAscending(bodies[1..], inside, labels);
      var members := Members(inside, labels, bodies[0]);
      if |members| > 2 {
        TailAbove(bodies, rest);
        ConsAscendingBodies(Group(bodies[0], members), rest);
      }
    }
  }

  /** Every listed body with more than two footprints has a group. */
  lemma {:induction false} GroupsComplete(bodies: seq<int>, inside: seq<Footprint>, labels: seq<int>, b: int)
    requires |labels| == |inside|
    requires b in bodies && |Members(inside, labels, b)| > 2
    ensures exists k :: 0 <= k < |Groups(bodies, inside, labels)| && Groups(bodies, inside, labels)[k].body == b
    decreases |bodies|
  {
    var gs := Groups(bodies, inside, labels);
    var rest := Groups(bodies[1..], inside, labels);
    if b == bodies[0] {
      assert gs[0].body == b;
    } else {
      assert b in bodies[1..] by {
        var t :| 0 <= t < |bodies| && bodies[t] == b;
        assert bodies[1..][t - 1] == b;
      }
      GroupsComplete(bodies[1..], inside, labels, b);
      var k :| 0 <= k < |rest| && rest[k].body == b;
      if |Members(inside, labels, bodies[0])| > 2 {
        assert gs[k + 1] == rest[k];
      } else {
        assert gs[k] == rest[k];
      }
    }
  }

  /** One entry per group, numbered on from `count`. */
  function Entries(gs: seq<Group>, ctx: Context, count: nat, sqrt: real -> real): (es: seq<Entry>)
    requires forall k :: 0 <= k < |gs| ==> |gs[k].members| > 2
    ensures |es| == |gs|
    decreases |gs|
  {
    if gs == [] then []
    else
      var rest := Entries(gs[1..], ctx, count + 1, sqrt);
      [BodyEntry(gs[0].members, gs[0].body, ctx, count, sqrt)] + rest
  }

  /** The `k`-th entry is the one built from the `k`-th group. */
  lemma {:induction false} EntryAt(gs: seq<Group>, ctx: Context, count: nat, sqrt: real -> real, k: nat)
    requires forall k :: 0 <= k < |gs| ==> |gs[k].members| > 2
    requires k < |gs|
    ensures Entries(gs, ctx, count, sqrt)[k] == BodyEntry(gs[k].members, gs[k].body, ctx, count + k, sqrt)
    decreases k
  {
    if k > 0 {
      EntryAt(gs[1..], ctx, count + 1, sqrt, k - 1);
      assert gs[1..][k - 1] == gs[k];
      assert Entries(gs, ctx, count, sqrt)[k] == Entries(gs[1..], ctx, count + 1, sqrt)[k - 1];
    }
  }

  /** Each entry describes its group: ids in order, the group's body and
      footprints, and a height inside the inter-decile range. */
  lemma EntriesDescribeGroups(gs: seq<Group>, ctx: Context, count: nat, sqrt: real -> real)
    requires forall k :: 0 <= k < |gs| ==> |gs[k].members| > 2
    ensures var es := Entries(gs, ctx, count, sqrt);
      && SequentialIds(es, count)
      && forall k :: 0 <= k < |gs| ==>
        && es[k].maskId == gs[k].body && es[k].raw == gs[k].members && es[k].ctx == ctx
        && es[k].rawNumPoints == |es[k].raw| && 1 <= es[k].numPoints <= es[k].rawNumPoints
        && P10(Map(es[k].raw, Elev)) <= es[k].height <= P90(Map(es[k].raw, Elev))
  {
    var es := Entries(gs, ctx, count, sqrt);
    forall k | 0 <= k < |gs|
      ensures es[k].id == count + k
      ensures && es[k].maskId == gs[k].body && es[k].raw == gs[k].members && es[k].ctx == ctx
        && es[k].rawNumPoints == |es[k].raw| && 1 <= es[k].numPoints <= es[k].rawNumPoints
        && P10(Map(es[k].raw, Elev)) <= es[k].height <= P90(Map(es[k].raw, Elev))
    {
      EntryAt(gs, ctx, count, sqrt, k);
      BodyEntryWithinDeciles(gs[k].members, gs[k].body, ctx, count + k, sqrt);
    }
  }

  /** Labels under the in-raster footprints, in order. */
  function Labels(inside: seq<Footprint>, mask: MaskLabeler.Image, h: nat, w: nat): (labels: seq<int>)
    requires MaskLabeler.Shape(mask, h, w)
    requires forall f :: f in inside ==> MaskLabeler.InRaster(f.cell, h, w)
    ensures |labels| == |inside| && forall k :: 0 <= k < |inside| ==> labels[k] == LabelAt(mask, h, w, inside[k])
  {
    seq(|inside|, k requires 0 <= k < |inside| => LabelAt(mask, h, w, inside[k]))
  }

  /** What every emitted entry satisfies, in terms of the footprints it came from. */
  predicate EntryWellFormed(e: Entry, mask: MaskLabeler.Image, h: nat, w: nat)
    requires MaskLabeler.Shape(mask, h, w)
  {
    && e.rawNumPoints == |e.raw| && e.rawNumPoints > 2
    && 1 <= e.numPoints <= e.rawNumPoints
    && (forall f :: f in e.raw ==> MaskLabeler.InRaster(f.cell, h, w) && LabelAt(mask, h, w, f) == e.maskId)
  }

  /** The footprints of one body are in the raster and carry its label. */
  lemma BodyFootprints(inside: seq<Footprint>, mask: MaskLabeler.Image, h: nat, w: nat, b: int)
    requires MaskLabeler.Shape(mask, h, w)
    requires forall f :: f in inside ==> MaskLabeler.InRaster(f.cell, h, w)
    ensures forall f :: f in Members(inside, Labels(inside, mask, h, w), b) ==>
      MaskLabeler.InRaster(f.cell, h, w) && LabelAt(mask, h, w, f) == b
  {
    var labels := Labels(inside, mask, h, w);
    forall f | f in Members(inside, labels, b)
      ensures MaskLabeler.InRaster(f.cell, h, w) && LabelAt(mask, h, w, f) == b
    {
      SelectMember(inside, Matches(labels, b), f);
    }
  }

  /** The entries of a channel's groups are well formed. */
  lemma EntriesWellFormed(bodies: seq<int>, inside: seq<Footprint>, mask: MaskLabeler.Image, h: nat, w: nat,
                          ctx: Context, count: nat, sqrt: real -> real, es: seq<Entry>)
    requires MaskLabeler.Shape(mask, h, w)
    requires forall f :: f in inside ==> MaskLabeler.InRaster(f.cell, h, w)
    requires es == Entries(Groups(bodies, inside, Labels(inside, mask, h, w)), ctx, count, sqrt)
    ensures forall k :: 0 <= k < |es| ==> EntryWellFormed(es[k], mask, h, w) && es[k].maskId in bodies
    ensures StrictlyIncreasing(bodies) ==> forall i, j :: 0 <= i < j < |es| ==> es[i].maskId < es[j].maskId
  {
    var gs := Groups(bodies, inside, Labels(inside, mask, h, w));
    EntriesDescribeGroups(gs, ctx, count, sqrt);
    if StrictlyIncreasing(bodies) {
      GroupsAscending(bodies, inside, Labels(inside, mask, h, w));
    }
    forall k | 0 <= k < |es|
      ensures EntryWellFormed(es[k], mask, h, w) && es[k].maskId in bodies
    {
      BodyFootprints(inside, mask, h, w, gs[k].body);
    }
  }

  /** A granule's metadata and its channels. `data` is `None` for a channel whose
      longitude or latitude is missing; `absent` holds the paths of the terrain
      datasets the channel lacks. */
  datatype Channel = Channel(name: string, data: Option<seq<Footprint>>, absent: set<string>)
  datatype Granule = Granule(box: Box, filename: string, year: int, month: int, day: int, lasers: seq<Channel>)

  /** Why reading the granules stops: a terrain dataset read outside the `try`
      raises `KeyError`, or `calendar_to_doy` meets a date off the calendar. */
  datatype WaterError = MissingTerrain(path: string) | DateOffCalendar

  /** The terrain datasets a processed channel reads, in the order it reads them. */
  const TerrainDatasets: seq<string> := ["terrain/h_te_mean", "terrain_flg", "terrain/h_te_uncertainty"]

  /** The first terrain dataset, in reading order, that the channel lacks. */
  function FirstAbsent(absent: set<string>): (r: Option<nat>)
    ensures r.None? <==> forall k :: 0 <= k < |TerrainDatasets| ==> TerrainDatasets[k] !in absent
    ensures r.Some? ==> r.value < |TerrainDatasets| && TerrainDatasets[r.value] in absent
    ensures r.Some? ==> forall k :: 0 <= k < r.value ==> TerrainDatasets[k] !in absent
  {
    if TerrainDatasets[0] in absent then Some(0)
    else if TerrainDatasets[1] in absent then Some(1)
    else if TerrainDatasets[2] in absent then Some(2)
    else None
  }

  /** One channel of an overlapping granule. The terrain reads come before the
      day of year, so a missing dataset is reported even when the date is bad. */
  function ChannelRun(fps: seq<Footprint>, name: string, absent: set<string>, g: Granule, mask: MaskLabeler.Image,
                      h: nat, w: nat, count: nat, sqrt: real -> real): (r: Result<Run, WaterError>)
    requires MaskLabeler.Shape(mask, h, w)
    ensures r.Ok? ==> r.value.count == count + |r.value.entries| && SequentialIds(r.value.entries, count)
    ensures r.Ok? ==> forall k :: 0 <= k < |r.value.entries| ==> r.value.entries[k].ctx.filename == g.filename
    ensures r.Err? <==>
      && ChannelProcessed(GeographicToDiscrete(fps, h, w).0)
      && (FirstAbsent(absent).Some? || !ValidDate(g.year, g.month, g.day))
    ensures r.Err? && FirstAbsent(absent).Some? ==> r.error == MissingTerrain(TerrainDatasets[FirstAbsent(absent).value])
    ensures r.Err? && FirstAbsent(absent).None? ==> r.error == DateOffCalendar
  {
    var ij := GeographicToDiscrete(fps, h, w);
    if !ChannelProcessed(ij.0) then Ok(Run([], count))
    else match FirstAbsent(absent)
      case Some(k) => Err(MissingTerrain(TerrainDatasets[k]))
      case None =>
        match DayOfYear(g.year, g.month, g.day)
        case Err(_) => Err(DateOffCalendar)
        case Ok(doy) =>
          var es := ChannelEntries(fps, mask, h, w, Context(name, doy, g.month, g.year, g.filename), count, sqrt);
          Ok(Run(es, count + |es|))
  }

  /** The entries built from a channel's in-raster footprints. */
  function ChannelEntries(fps: seq<Footprint>, mask: MaskLabeler.Image, h: nat, w: nat, c: Context,
                          count: nat, sqrt: real -> real): (es: seq<Entry>)
    requires MaskLabeler.Shape(mask, h, w)
    ensures SequentialIds(es, count) && forall k :: 0 <= k < |es| ==> es[k].ctx == c
  {
    var inside := Inside(fps, h, w);
    var bodies := Unique(Labels(inside, mask, h, w));
    if |bodies| > 1 then
      var gs := Groups(bodies[1..], inside, Labels(inside, mask, h, w));
      EntriesDescribeGroups(gs, c, count, sqrt);
      Entries(gs, c, count, sqrt)
    else []
  }

  /** Entries of one channel are well formed and in ascending label order,
      and none is for the smallest label present: each entry's label has an
      in-raster footprint with a smaller label. */
  lemma ChannelEntriesProperties(fps: seq<Footprint>, mask: MaskLabeler.Image, h: nat, w: nat, c: Context,
                                 count: nat, sqrt: real -> real, es: seq<Entry>)
    requires MaskLabeler.Shape(mask, h, w)
    requires es == ChannelEntries(fps, mask, h, w, c, count, sqrt)
    ensures forall k :: 0 <= k < |es| ==> EntryWellFormed(es[k], mask, h, w)
    ensures forall i, j :: 0 <= i < j < |es| ==> es[i].maskId < es[j].maskId
    ensures forall k :: 0 <= k < |es| ==>
      exists f :: f in fps && MaskLabeler.InRaster(f.cell, h, w) && LabelAt(mask, h, w, f) < es[k].maskId
  {
    var inside := Inside(fps, h, w);
    var bodies := Unique(Labels(inside, mask, h, w));
    if |bodies| > 1 {
      assert StrictlyIncreasing(bodies[1..]);
      EntriesWellFormed(bodies[1..], inside, mask, h, w, c, count, sqrt, es);
      SkipsSmallest(fps, mask, h, w, es, bodies);
    }
  }

  /** Every label other than the smallest present gets an entry exactly when
      more than two in-raster footprints carry it, and the entry holds all of them. */
  lemma ChannelEntriesComplete(fps: seq<Footprint>, mask: MaskLabeler.Image, h: nat, w: nat, c: Context,
                               count: nat, sqrt: real -> real, es: seq<Entry>, b: int)
    requires MaskLabeler.Shape(mask, h, w)
    requires es == ChannelEntries(fps, mask, h, w, c, count, sqrt)
    ensures var inside := Inside(fps, h, w);
      var labels := Labels(inside, mask, h, w);
      var bodies := Unique(labels);
      && (forall k :: 0 <= k < |es| ==> es[k].raw == Members(inside, labels, es[k].maskId))
      && (|bodies| > 1 && b in bodies[1..] && |Members(inside, labels, b)| > 2 ==>
            exists k :: 0 <= k < |es| && es[k].maskId == b)
  {
    var inside := Inside(fps, h, w);
    var labels := Labels(inside, mask, h, w);
    var bodies := Unique(labels);
    if |bodies| > 1 {
      var gs := Groups(bodies[1..], inside, labels);
      EntriesDescribeGroups(gs, c, count, sqrt);
      if b in bodies[1..] && |Members(inside, labels, b)| > 2 {
        GroupsComplete(bodies[1..], inside, labels, b);
        var k :| 0 <= k < |gs| && gs[k].body == b;
        assert es[k].maskId == b;
      }
    }
  }

  /** The entries of one channel, as `ChannelEntriesProperties` describes them. */
  lemma ChannelRunProperties(fps: seq<Footprint>, name: string, absent: set<string>, g: Granule, mask: MaskLabeler.Image,
                             h: nat, w: nat, count: nat, sqrt: real -> real)
    requires MaskLabeler.Shape(mask, h, w)
    ensures var r := ChannelRun(fps, name, absent, g, mask, h, w, count, sqrt);
      r.Ok? ==>
        && (forall k :: 0 <= k < |r.value.entries| ==> EntryWellFormed(r.value.entries[k], mask, h, w))
        && (forall i, j :: 0 <= i < j < |r.value.entries| ==> r.value.entries[i].maskId < r.value.entries[j].maskId)
        && (forall k :: 0 <= k < |r.value.entries| ==>
              exists f :: f in fps && MaskLabeler.InRaster(f.cell, h, w) && LabelAt(mask, h, w, f) < r.value.entries[k].maskId)
  {
    var r := ChannelRun(fps, name, absent, g, mask, h, w, count, sqrt);
    if r.Ok? && ChannelProcessed(GeographicToDiscrete(fps, h, w).0) {
      var c := Context(name, DayOfYear(g.year, g.month, g.day).value, g.month, g.year, g.filename);
      ChannelEntriesProperties(fps, mask, h, w, c, count, sqrt, r.value.entries);
    }
  }

  /** Labels drawn from `Unique(labels)[1..]` all exceed a label that is present. */
  lemma SkipsSmallest(fps: seq<Footprint>, mask: MaskLabeler.Image, h: nat, w: nat, es: seq<Entry>, bodies: seq<int>)
    requires MaskLabeler.Shape(mask, h, w)
    requires var labels := Labels(Inside(fps, h, w), mask, h, w);
      bodies == Unique(labels) && |bodies| > 1
    requires forall k :: 0 <= k < |es| ==> es[k].maskId in bodies[1..]
    ensures forall k :: 0 <= k < |es| ==>
      exists f :: f in fps && MaskLabeler.InRaster(f.cell, h, w) && LabelAt(mask, h, w, f) < es[k].maskId
  {
    var inside := Inside(fps, h, w);
    var labels := Labels(inside, mask, h, w);
    assert bodies[0] in labels;
    var k0 :| 0 <= k0 < |labels| && labels[k0] == bodies[0];
    assert inside[k0] in inside;
    forall k | 0 <= k < |es|
      ensures bodies[0] < es[k].maskId
    {
      var t :| 0 <= t < |bodies[1..]| && bodies[1..][t] == es[k].maskId;
      assert bodies[t + 1] == es[k].maskId;
    }
  }

  /** One iteration of the channel loop: a channel missing its coordinates is skipped (`except KeyError: continue`). */
  function ChannelStep(ch: Channel, g: Granule, mask: MaskLabeler.Image, h: nat, w: nat, count: nat,
                       sqrt: real -> real): (r: Result<Run, WaterError>)
    requires MaskLabeler.Shape(mask, h, w)
    ensures ch.data.None? ==> r == Ok(Run([], count))
    ensures r.Ok? ==> r.value.count == count + |r.value.entries| && SequentialIds(r.value.entries, count)
    ensures r.Ok? ==> forall k :: 0 <= k < |r.value.entries| ==>
      EntryWellFormed(r.value.entries[k], mask, h, w) && r.value.entries[k].ctx.filename == g.filename
  {
    if ch.data.None? then Ok(Run([], count))
    else
      ChannelRunProperties(ch.data.value, ch.name, ch.absent, g, mask, h, w, count, sqrt);
      ChannelRun(ch.data.value, ch.name, ch.absent, g, mask, h, w, count, sqrt)
  }

  /** The channels of one granule, in order, the counter carried along. */
  function GranuleRun(chs: seq<Channel>, g: Granule, mask: MaskLabeler.Image, h: nat, w: nat, count: nat,
                      sqrt: real -> real): (r: Result<Run, WaterError>)
    requires MaskLabeler.Shape(mask, h, w)
    ensures r.Ok? ==> r.value.count == count + |r.value.entries| && SequentialIds(r.value.entries, count)
    ensures r.Ok? ==> forall k :: 0 <= k < |r.value.entries| ==>
      EntryWellFormed(r.value.entries[k], mask, h, w) && r.value.entries[k].ctx.filename == g.filename
    decreases |chs|
  {
    if chs == [] then Ok(Run([], count))
    else
      match ChannelStep(chs[0], g, mask, h, w, count, sqrt)
        case Err(e) => Err(e)
        case Ok(a) =>
          match GranuleRun(chs[1..], g, mask, h, w, a.count, sqrt)
            case Err(e) => Err(e)
            case Ok(b) => Ok(Run(a.entries + b.entries, b.count))
  }

  /** Filenames of the granules that pass the overlap test. */
  function OverlappingNames(gs: seq<Granule>, limits: Limits): (names: seq<string>)
    ensures forall n :: n in names <==> exists i :: 0 <= i < |gs| && Overlaps(gs[i].box, limits) && gs[i].filename == n
    decreases |gs|
  {
    if gs == [] then []
    else
      var rest := OverlappingNames(gs[1..], limits);
      assert forall i :: 1 <= i < |gs| ==> gs[1..][i - 1] == gs[i];
      (if Overlaps(gs[0].box, limits) then [gs[0].filename] else []) + rest
  }

  /** The granule loop: granules that do not overlap the raster are skipped. */
  function WaterRun(gs: seq<Granule>, limits: Limits, mask: MaskLabeler.Image, h: nat, w: nat, count: nat,
                    sqrt: real -> real): (r: Result<Run, WaterError>)
    requires MaskLabeler.Shape(mask, h, w)
    ensures r.Ok? ==> r.value.count == count + |r.value.entries| && SequentialIds(r.value.entries, count)
    ensures r.Ok? ==> forall k :: 0 <= k < |r.value.entries| ==>
      EntryWellFormed(r.value.entries[k], mask, h, w) && r.value.entries[k].ctx.filename in OverlappingNames(gs, limits)
    decreases |gs|
  {
    if gs == [] then Ok(Run([], count))
    else
      var first := if Overlaps(gs[0].box, limits) then GranuleRun(gs[0].lasers, gs[0], mask, h, w, count, sqrt)
                   else Ok(Run([], count));
      match first
        case Err(e) => Err(e)
        case Ok(a) =>
          match WaterRun(gs[1..], limits, mask, h, w, a.count, sqrt)
            case Err(e) => Err(e)
            case Ok(b) => Ok(Run(a.entries + b.entries, b.count))
  }

  /** `get_IS2_water_data_nov20`: the entries and `count - 1`, the counter having started at 1. */
  function GetWaterData(gs: seq<Granule>, limits: Limits, mask: MaskLabeler.Image, h: nat, w: nat,
                        sqrt: real -> real): (r: Result<(seq<Entry>, int), WaterError>)
    requires MaskLabeler.Shape(mask, h, w)
    ensures r.Ok? ==> r.value.1 == |r.value.0|
    ensures r.Ok? ==> forall k :: 0 <= k < |r.value.0| ==> r.value.0[k].id == k + 1
    ensures r.Ok? ==> forall k :: 0 <= k < |r.value.0| ==>
      EntryWellFormed(r.value.0[k], mask, h, w) && r.value.0[k].ctx.filename in OverlappingNames(gs, limits)
  {
    match WaterRun(gs, limits, mask, h, w, 1, sqrt)
      case Err(e) => Err(e)
      case Ok(run) => Ok((run.entries, run.count - 1))
  }
}
